=== FILE: README.md ===
# Calculator core in Dafny

A Dafny model of the logic behind a React Native multi-mode calculator. The
model covers the pure helpers in `src/utils/calculate.ts` and the state
handlers of the seven calculator screens:

- the home screen, with its history list;
- the scientific screen;
- the programmer screen (radix display and 8-bit bitwise keys);
- the matrix screen;
- the equation solver (Gaussian elimination and the quadratic formula);
- the unit converter;
- the graphing screen's function list and point filter.

A JavaScript number is `JsNumber.Num`: `Fin(real) | Inf(negative) | NaN`.
Arithmetic on it follows JavaScript's rules for infinities and NaN, and is
exact on finite values. Division is defined for non-zero divisors only: every
division the model makes is by a non-zero constant or by a value checked
first, and a zero divisor is reported as an error (`calculate`'s division
by zero, the solver's zero pivot) or avoided as the source avoids it.

Functions whose behaviour is floating-point text or a library call are
parameters of the operations that use them:

- `formatNumber` and `parseFloat` (`CalculatorCore.NumberText`);
- `toFixed` (unit converter);
- the `Math` functions (`Scientific.MathLib`, and `sqrt` in the quadratic solver);
- `evaluateFunction` (graphing);
- `Date.now()` (`HomeScreen.Clock`, and the `id` arguments of the matrix and graph screens).

An exception thrown by a handler becomes the `Failure` of a `Result`, and
the screen state is left as it was. Each module follows one source file:

| module | source |
|---|---|
| `JsNumber`, `Outcomes`, `Division` | number semantics, results, integer division facts |
| `Arithmetic` | `calculate`, `handlePercentage`, `handleToggleSign` |
| `Scientific` | `scientificCalculate` |
| `Radix` | `parseInt`, `Number#toString(radix)`, `convertBase`, `formatBinary`, `formatHex` |
| `Bitwise` | JavaScript's 32-bit `&`, `\|`, `^`, `~`, `<<`, `>>` |
| `Units`, `UnitScreen` | `unitConversions`, `convertUnit`, `UnitConverterScreen.tsx` |
| `Matrices`, `MatrixScreen` | `matrixOperations`, `MatrixScreen.tsx` |
| `LinearSolver`, `EquationScreen` | `solveLinearEquation`, `EquationSolverScreen.tsx` |
| `CalculatorCore`, `Keypads`, `HomeScreen`, `ScientificScreen` | the shared `CalculatorState` handlers and the two button grids |
| `ProgrammerScreen` | `ProgrammerScreen.tsx` |
| `Graphing` | `GraphingScreen.tsx` |

## Model

| member | source | states |
|---|---|---|
| Arithmetic.OpOfTag | src/utils/calculate.ts:15-28 | An operation tag selects `+`, `-`, `×` or `÷` exactly when it equals that case label. Any other tag lands in the default case and keeps its text. |
| Arithmetic.TagRoundTrip | src/utils/calculate.ts:15-28 | Reading a tag as an operation and writing it back gives the same tag, so no tag is lost by the case analysis. |
| Arithmetic.Calculate | src/utils/calculate.ts:10-30 | Throws exactly when the operation is `÷` and the current value is 0. The four operators give JavaScript's sum, difference, product and quotient. An unknown operation returns the current value. |
| Arithmetic.CalculateOnReals | src/utils/calculate.ts:10-30 | On finite numbers the four tags compute x+y, x−y, x·y and x/y, and dividing by 0 raises the division-by-zero error. |
| Arithmetic.Percentage | src/utils/calculate.ts:32-34 | A finite value becomes one hundredth of itself, and multiplying back by 100 restores it. Infinities are unchanged and NaN stays NaN. |
| Arithmetic.ToggleSign | src/utils/calculate.ts:36-38 | Negating the result gives back the input; a finite value changes sign. |
| JsNumber.Add | src/utils/calculate.ts:17 | Finite values add exactly. NaN is absorbing. The sum of two infinities is NaN exactly when their signs differ. |
| JsNumber.Sub | src/utils/calculate.ts:19 | Finite values subtract exactly, and NaN is absorbing. |
| JsNumber.Mul | src/utils/calculate.ts:21 | Finite values multiply exactly, and NaN is absorbing. |
| JsNumber.Div | src/utils/calculate.ts:26 | With a nonzero divisor, finite values divide exactly, NaN is absorbing, and a finite value divided by an infinity is 0. |
| JsNumber.NegInvolutive | src/utils/calculate.ts:36-38 | Negation is its own inverse and equals multiplication by −1 on every number, including the infinities and NaN. |
| JsNumber.OrZero | src/screens/EquationSolverScreen.tsx:62 | `x \|\| 0`: a truthy number is kept, and 0 or NaN becomes 0. The result is never NaN. |
| Scientific.FnOfName | src/utils/calculate.ts:45-82 | Each of the fourteen labels selects the case it names (the case's label, `NameOf`, is the name read), and a name reaches the default case with its text exactly when it is not one of the labels. |
| Scientific.LabelRoundTrip | src/utils/calculate.ts:45-82 | Reading back the label of any handled case selects that case again, so labels and cases correspond one to one. |
| Scientific.ToRadians | src/utils/calculate.ts:42 | In degree mode a finite angle a becomes r with r·180 = a·π. Infinities and NaN pass through in either unit. |
| Scientific.FromRadians | src/utils/calculate.ts:43 | In degree mode a finite angle a becomes r with r·π = a·180. Infinities and NaN pass through. |
| Scientific.Fact | src/utils/calculate.ts:76-79 | The reference factorial the loop is measured against: at least 1, and at least n. |
| Scientific.RadiansRoundTrip | src/utils/calculate.ts:42-43 | `fromRadians` undoes `toRadians` and vice versa in either angle unit. In radian mode both are the identity. |
| Scientific.FactorialLoop | src/utils/calculate.ts:76-79 | The loop that keeps `result == (i-1)!` while `i` counts up returns n!. |
| Scientific.FactorialOf | src/utils/calculate.ts:72-80 | A non-negative whole number gets its factorial. A negative or fractional value, NaN or −∞ raises the non-negative-integer error. +∞ is reported as non-terminating. |
| Scientific.ScientificCalculate | src/utils/calculate.ts:41-84 | Only the factorial case can fail, and it is `FactorialOf` the value. sin, cos and tan apply the library function to the value converted to radians. asin, acos and atan convert the library's result back to the angle unit. log is log10, ln the natural log, sqrt the square root, pow the library's power with exponent 2, and exp the exponential, all of the value. square and cube are JavaScript products: exact on finite values, NaN for NaN, +Infinity for the square of an infinity, and the same infinity for its cube. An unknown name returns the value. |
| Scientific.FactorialSpec | src/utils/calculate.ts:72-80 | Every natural n yields n!: 0! = 1! = 1 and 5! = 120. −1 and 2.5 are rejected. |
| Scientific.UnlistedNamesPassThrough | src/utils/calculate.ts:81-82 | Every name that is not one of the switch's labels, including the scientific screen's "reciprocal" and "abs" keys, returns the value unchanged. |
| CalculatorCore.Initial | src/screens/HomeScreen.tsx:26-34 | A screen starts with display "0", degrees and base 10. No operation is pending, and the pending-operand invariant holds. |
| CalculatorCore.NumberInput | src/screens/HomeScreen.tsx:143-163 | A digit replaces the display after an operator or over "0", and is appended otherwise. It clears the waiting flag, leaves the pending operation alone and keeps the invariant. |
| CalculatorCore.Evaluate | src/screens/HomeScreen.tsx:180-181 | An evaluation combines the stored previous value, the stored operation and the parsed display exactly as `calculate` does. It fails exactly for `÷` with a display that parses to 0. |
| CalculatorCore.OperatorInput | src/screens/HomeScreen.tsx:165-203 | Evaluates exactly when a previous value and an operation are stored and a new operand has been typed. The evaluated number is then `calculate` of the stored value, the parsed display and the stored operation. Otherwise it only stores the operator. Its one error is division by zero, and a successful press keeps the invariant. |
| CalculatorCore.EqualsInput | src/screens/HomeScreen.tsx:255-270 | `=` changes nothing unless an operation is pending with a freshly typed operand. In that case it shows the result and clears the pending operation, failing only on division by zero. The result is `calculate` of the stored value, the parsed display and the stored operation. |
| CalculatorCore.ClearInput | src/screens/HomeScreen.tsx:209-218 | Clear resets display, operand, operation and waiting flag, and keeps mode, angle unit and base. |
| CalculatorCore.ToggleSignInput | src/screens/HomeScreen.tsx:219-224 | Only the display changes. It shows a number whose negation is the parsed display. |
| CalculatorCore.PercentageInput | src/screens/HomeScreen.tsx:237-242 | Only the display changes. A finite parsed display is replaced by its hundredth, and an infinite or NaN one is shown again as it parsed, since a hundredth of it is the same value. |
| CalculatorCore.FunctionInput | src/screens/HomeScreen.tsx:205-272 | Dispatches clear, toggle-sign, percentage and `=` to their handlers. Any other value changes nothing, and every successful press keeps the invariant. |
| HomeScreen.InitialHome | src/screens/HomeScreen.tsx:26-39 | The home screen starts in standard mode with an empty history. |
| HomeScreen.AddToHistory | src/screens/HomeScreen.tsx:44-53 | The new entry comes first, followed by the previous entries in order. The list is capped at 50, so the oldest entry drops out when it is full. |
| HomeScreen.Record | src/screens/HomeScreen.tsx:180-182 | A transition that evaluated something adds one history entry: its evaluation, the formatted result, the clock's id and timestamp, and the mode. Any other transition leaves the history alone. |
| HomeScreen.Press | src/screens/HomeScreen.tsx:126-141 | Number keys only edit the display, and unknown kinds do nothing. Operator and function keys go to their handlers, and the state reached is recorded in the history. A press adds at most one history entry and keeps the history at 50 or fewer. It fails only for division by zero. |
| HomeScreen.HistorySelect | src/screens/HomeScreen.tsx:59-67 | Choosing an entry shows its result as a fresh operand and changes nothing else. |
| HomeScreen.ClearHistory | src/screens/HomeScreen.tsx:55-57 | The history empties, and the calculator state is untouched. |
| HomeScreen.PressAllKeepsInvariants | src/screens/HomeScreen.tsx:126-272 | Any sequence of presses keeps the pending-operand invariant and never holds more than 50 history entries. |
| HomeScreen.PressAllAppend | src/screens/HomeScreen.tsx:126-141 | Pressing a followed by b is pressing b from the screen a leaves, and a failure in a stops the rest. |
| HomeScreen.PressAll | src/screens/HomeScreen.tsx:126-141 | A run of presses can fail only if it contains an operator or function key. |
| HomeScreen.ChainedEvaluation | src/screens/HomeScreen.tsx:179-191 | 2 + 3 + 4 = shows 9. The second `+` evaluates 2+3 and `=` evaluates 5+4, giving two history entries, newest first. |
| HomeScreen.SingleOperation | src/screens/HomeScreen.tsx:143-270 | a, an operator key, b, `=` shows the operator applied to the two parsed operands. |
| HomeScreen.DivisionByZeroThrows | src/utils/calculate.ts:22-25 | With `÷` pending and a display of 0, both `=` and another operator raise division by zero. |
| HomeScreen.HomePadNeverThrows | src/screens/HomeScreen.tsx:281-311 | No sequence of home-grid keys can raise division by zero, because none of them sends `÷`. |
| HomeScreen.TimesKeyAsWritten | src/screens/HomeScreen.tsx:292 | 6, the home grid's multiplication key, 7, `=` shows 7. |
| HomeScreen.TimesKeyCorrected | src/screens/HomeScreen.tsx:292 | With the intended multiplication sign, the same presses show 42. |
| Keypads.HomeOperatorsFallThrough | src/screens/HomeScreen.tsx:286-292 | The home grid's division and multiplication keys send values that no `calculate` case matches, so both return the right operand. |
| Keypads.HomePadLacksDivideAndTimes | src/screens/HomeScreen.tsx:281-311 | No key of the home grid selects multiplication or division. |
| Keypads.PadsAgreeAwayFromMislabelledKeys | src/screens/HomeScreen.tsx:281-311 | The home grid and the scientific screen's standard grid have the same 19 keys in the same places. They differ only in the sign key's label and the division and multiplication keys. |
| Keypads.CorrectedOperatorsSelectArithmetic | src/screens/ScientificScreen.tsx:191-220 | On the grid spelled as intended, which is the scientific screen's, the two keys select `÷` and `×`. Every operator key selects an arithmetic case. |
| ScientificScreen.InitialScientific | src/screens/ScientificScreen.tsx:24-32 | The scientific screen starts as a calculator screen in scientific mode. |
| ScientificScreen.ToggleAngle | src/screens/ScientificScreen.tsx:136-141 | The angle unit flips and nothing else changes. |
| ScientificScreen.ToggleAngleTwice | src/screens/ScientificScreen.tsx:136-141 | Toggling twice restores the screen. |
| ScientificScreen.FunctionKey | src/screens/ScientificScreen.tsx:99-143 | toggle-angle flips the unit. Every other function key behaves as on the home screen, and success keeps the invariant. |
| ScientificScreen.ScientificKey | src/screens/ScientificScreen.tsx:145-162 | A successful result is formatted into the display as a fresh operand. A thrown error shows "Error". Only factorial of +∞ fails to finish, and nothing but the display and the waiting flag changes. |
| ScientificScreen.Press | src/screens/ScientificScreen.tsx:36-54 | The four button kinds dispatch to their handlers. A "function" key gives exactly `handleFunctionInput`'s state or error. Unknown kinds do nothing, and success keeps the invariant. |
| ScientificScreen.ScientificKeyExamples | src/screens/ScientificScreen.tsx:145-162 | x! shows "Error" for −1 and 2.5 and shows 120 for 5. The reciprocal and abs keys reformat the display unchanged. |
| ScientificScreen.ClearKeepsAngle | src/screens/ScientificScreen.tsx:103-111 | Clear keeps mode and angle unit, and toggle-angle goes through the toggle. |
| Radix.DigitChar | src/utils/calculate.ts:89 | The digit character `toString` writes for a digit value reads back as that value, and is lower case. |
| Radix.Upper | src/utils/calculate.ts:89 | Upper-casing keeps the length and maps each character on its own. |
| Radix.UpperAppend | src/utils/calculate.ts:89 | Upper-casing distributes over concatenation. |
| Radix.ValidPrefixLength | src/utils/calculate.ts:88 | `parseInt` reads the longest prefix of valid digits, and the character after it is not a digit of the radix. |
| Radix.ParseInt | src/utils/calculate.ts:88 | Empty text is NaN. A number read from text starting with '-' is at most 0, and from any other text at least 0. |
| Radix.NumberToString | src/utils/calculate.ts:89 | `toString(radix)` starts with '-' exactly for a negative number, and the rest is valid digits of the radix. |
| Radix.Digits | src/utils/calculate.ts:89 | `toString(radix)` writes at least one digit, all valid in the radix, with no leading zero unless the value is 0. |
| Radix.DigitsValueOfDigits | src/utils/calculate.ts:88-89 | Reading back the digits `toString` writes gives the number. |
| Radix.DigitsValueUpper | src/utils/calculate.ts:89 | Upper-casing a digit string keeps it valid and keeps its value. |
| Radix.ParseRender | src/utils/calculate.ts:88-89 | `parseInt(n.toString(r), r)` is n for every integer, negative ones included, in either letter case. |
| Radix.ParseEitherCase | src/utils/calculate.ts:88 | A digit string and its negation parse to the digits' value with either letter case. |
| Radix.RenderCanonical | src/utils/calculate.ts:89 | Writing the value of a canonical upper-case digit string gives that string back. |
| Radix.ConvertBase | src/utils/calculate.ts:87-90 | Text that is not a number gives "NAN". Otherwise the result, read in the target radix, is the same number read from the input. |
| Radix.ConvertBaseRoundTrip | src/utils/calculate.ts:87-90 | Converting a digit string gives the canonical upper-case digits of its value. Converting back gives the same value, and gives the original text when it was canonical. |
| Radix.PadStart | src/utils/calculate.ts:93 | The value is kept as a suffix, preceded by fill characters up to the width. |
| Radix.FormatBinary | src/utils/calculate.ts:92-94 | The text is zero-padded on the left to 8 characters and otherwise unchanged. |
| Radix.FormatHex | src/utils/calculate.ts:96-98 | The text is zero-padded on the left to 2 characters and upper-cased. |
| Radix.HexExample | src/utils/calculate.ts:88 | "FF" read in radix 16 is 255. |
| Radix.BinaryExample | src/utils/calculate.ts:89 | 255 written in radix 2 is "11111111". |
| Bitwise.Int32 | src/screens/ProgrammerScreen.tsx:79-94 | A 32-bit pattern read as a signed integer lies in the int32 range and has the same pattern. |
| Bitwise.ToInt32 | src/screens/ProgrammerScreen.tsx:79-94 | The operand conversion JavaScript applies before a bitwise operator lands in the int32 range. |
| Bitwise.JsAnd | src/screens/ProgrammerScreen.tsx:79 | `a & b` is a signed 32-bit integer, and with a non-negative 32-bit mask b it lies between 0 and b. |
| Bitwise.JsOr | src/screens/ProgrammerScreen.tsx:82 | `a \| b` is a signed 32-bit integer. |
| Bitwise.JsXor | src/screens/ProgrammerScreen.tsx:85 | `a ^ b` is a signed 32-bit integer. |
| Bitwise.JsNot | src/screens/ProgrammerScreen.tsx:88 | `~a` is −a − 1 of a's 32-bit signed reading. |
| Bitwise.JsShiftLeftOne | src/screens/ProgrammerScreen.tsx:91 | `a << 1` is the 32-bit signed reading of 2a. |
| Bitwise.JsShiftRightOne | src/screens/ProgrammerScreen.tsx:94 | `a >> 1` is the floor of half of a's 32-bit signed reading. |
| Bitwise.BitAnd | src/screens/ProgrammerScreen.tsx:79 | The bitwise and of two naturals is at most either operand. |
| Bitwise.LowBitsMod | src/screens/ProgrammerScreen.tsx:79 | The k low bits of x are x mod 2^k. |
| Bitwise.AndLowBits | src/screens/ProgrammerScreen.tsx:79 | And with the mask 2^k−1 keeps exactly the k low bits. |
| Bitwise.OrLowBits | src/screens/ProgrammerScreen.tsx:82 | Or with 2^k−1 sets the k low bits and keeps the rest. |
| Bitwise.XorLowBits | src/screens/ProgrammerScreen.tsx:85 | Xor with 2^k−1 complements the k low bits and keeps the rest. |
| Bitwise.OrBound | src/screens/ProgrammerScreen.tsx:82 | The or of two k-bit numbers is a k-bit number. |
| Bitwise.XorBound | src/screens/ProgrammerScreen.tsx:85 | The xor of two k-bit numbers is a k-bit number. |
| Bitwise.Uint32Byte | src/screens/ProgrammerScreen.tsx:79-94 | The low byte of an integer's 32-bit pattern is the integer mod 256. |
| Bitwise.AndByte | src/screens/ProgrammerScreen.tsx:79 | `a & 0xFF` is a mod 256 for every integer a. |
| Bitwise.OrByte | src/screens/ProgrammerScreen.tsx:82 | `a \| 0xFF` is a's 32-bit pattern with its low byte set, read back as a signed integer. |
| Bitwise.XorByte | src/screens/ProgrammerScreen.tsx:85 | `a ^ 0xFF` is a's 32-bit pattern with its low byte complemented, read back as a signed integer. |
| ProgrammerScreen.InitialProgrammer | src/screens/ProgrammerScreen.tsx:21-23 | The screen starts with a display that is the value written in its base. |
| ProgrammerScreen.NumberInput | src/screens/ProgrammerScreen.tsx:32-45 | Appending a key that leaves no number to read changes nothing. Otherwise the value becomes the appended text read in the current base, shown in that base. |
| ProgrammerScreen.BaseChange | src/screens/ProgrammerScreen.tsx:65-68 | The base changes and the value is kept. The display is rendered in the base that was current before the change. |
| ProgrammerScreen.Clear | src/screens/ProgrammerScreen.tsx:70-73 | Clear sets value 0 and display "0" and keeps the base. |
| ProgrammerScreen.BitwiseResult | src/screens/ProgrammerScreen.tsx:75-98 | Exactly the six named operations produce a value. |
| ProgrammerScreen.BitwiseOperation | src/screens/ProgrammerScreen.tsx:75-101 | An unknown operation changes nothing. A named one stores its result and shows it in the current base. |
| ProgrammerScreen.ValidDigitsAreDigitsBelowBase | src/screens/ProgrammerScreen.tsx:103-118 | The keypad offers exactly the upper-case digit characters whose value is below the base. |
| ProgrammerScreen.ValidDigits | src/screens/ProgrammerScreen.tsx:107-118 | The pad has exactly base keys, and the key at position i is the digit of value i. |
| ProgrammerScreen.Render | src/screens/ProgrammerScreen.tsx:47-63 | The display is never empty and starts with '-' exactly for a negative value. |
| ProgrammerScreen.RenderIsCanonical | src/screens/ProgrammerScreen.tsx:47-63 | The display of a natural number is its canonical upper-case digit string in the base. |
| ProgrammerScreen.RenderRoundTrip | src/screens/ProgrammerScreen.tsx:36-63 | Reading the display back in its base gives the stored value, negative values included. |
| ProgrammerScreen.DigitEntry | src/screens/ProgrammerScreen.tsx:32-45 | Typing a digit valid in the base multiplies the value by the base and adds the digit, and the display follows. |
| ProgrammerScreen.MaskedResultsAreBytes | src/screens/ProgrammerScreen.tsx:78-95 | AND, NOT, LSHIFT and RSHIFT always give a byte, and LSHIFT's byte is even. RSHIFT halves a byte. |
| ProgrammerScreen.ShiftRightHalves | src/screens/ProgrammerScreen.tsx:93-95 | `(v >> 1) & 0xFF` is a byte, and is v/2 for a byte v. |
| ProgrammerScreen.NotOfByte | src/screens/ProgrammerScreen.tsx:87-89 | `~v & 0xFF` is 255−v for a byte v. |
| ProgrammerScreen.XorOfByte | src/screens/ProgrammerScreen.tsx:84-86 | `v ^ 0xFF` is 255−v for a byte v. |
| ProgrammerScreen.ByteInvolutions | src/screens/ProgrammerScreen.tsx:84-89 | On a byte, XOR and NOT each give 255−v, and applying either twice restores v. |
| ProgrammerScreen.OrSetsLowByte | src/screens/ProgrammerScreen.tsx:81-83 | On a non-negative int32, OR keeps the high bits and sets the low byte to 255. |
| ProgrammerScreen.OrOfNonNegative | src/screens/ProgrammerScreen.tsx:82 | For a non-negative int32, `v \| 0xFF` is v with its low byte set to 255. |
| ProgrammerScreen.UnknownOperationUnchanged | src/screens/ProgrammerScreen.tsx:77-97 | Every operation name other than the six cases of the switch leaves the screen as it is. |
| ProgrammerScreen.StaleBaseExample | src/screens/ProgrammerScreen.tsx:65-68 | Switching 255 from decimal to hex still shows "255", although 255 in hex is "FF". |
| Units.Keys | src/screens/UnitConverterScreen.tsx:38 | The unit names of a category, in table order. |
| Units.Factor | src/utils/calculate.ts:160-161 | A unit has a factor exactly when it is a key of the category, and every factor in the table is positive. |
| Units.UnitsFor | src/screens/UnitConverterScreen.tsx:36-39 | An unknown category has no units, temperature has C, F and K, and a linear category has its table's keys. |
| Units.ConvertUnit | src/utils/calculate.ts:144-166 | An unknown category returns the value. The only thrown error is a temperature conversion from a unit without a function. |
| Units.LinearBranch | src/utils/calculate.ts:159-165 | With both units known, a linear conversion multiplies by the source factor and divides by the target factor. Otherwise it returns the value. |
| Units.LinearConversion | src/utils/calculate.ts:159-165 | The same law stated for the categories of the table. |
| Units.RealRoundTrip | src/utils/calculate.ts:165 | Rescaling from f to t and back from t to f gives the value again. |
| Units.LinearRoundTrip | src/utils/calculate.ts:159-165 | Converting between two known units of a linear category and back gives the value. |
| Units.TemperatureRoundTrip | src/utils/calculate.ts:119-123 | Converting between two of C, F and K and back gives the value. |
| Units.ConvertRoundTrip | src/utils/calculate.ts:144-166 | In every category of the table, converting between two of its units succeeds and converting back gives the value. |
| Units.SameUnitIsIdentity | src/utils/calculate.ts:144-166 | Converting a unit to itself returns the value whenever it does not throw. |
| Units.TemperatureExamples | src/utils/calculate.ts:148-157 | 0 °C is 32 °F, 100 °C is 212 °F, and 0 °C is 273.15 K. |
| Units.LengthExample | src/utils/calculate.ts:102-111 | One metre is 1/0.3048 feet. |
| Units.FactorAt | src/utils/calculate.ts:160-161 | Looking a unit up gives the factor at its first position in the table. |
| Units.ToCelsius | src/utils/calculate.ts:119-123 | The temperature table has a function to Celsius exactly for C, F and K. |
| Units.FromCelsius | src/utils/calculate.ts:151-155 | For C, F and K, the table's function to Celsius undoes it. Any other target unit is read as Celsius. |
| Units.ConvertTemperature | src/utils/calculate.ts:148-157 | Fails exactly when the source unit has no function to Celsius. A result in C, F or K is the same temperature as the input. |
| Units.ConvertLinear | src/utils/calculate.ts:159-165 | With both factors known and non-zero, the result is the value rescaled from the source factor to the target factor, so result × target factor = value × source factor (`Units.Rescale`). A unit without a factor, or with a zero factor, returns the value. |
| Units.Rescale | src/utils/calculate.ts:165 | `(value * fromFactor) / toFactor` times the target factor is value times the source factor. |
| UnitScreen.InitialConverter | src/screens/UnitConverterScreen.tsx:22-26 | The converter starts on two units of its category. |
| UnitScreen.InitialSynced | src/screens/UnitConverterScreen.tsx:22-26 | The initial "3.28084" is the converted text of "1" metre in feet. |
| UnitScreen.TrailingZeros | src/screens/UnitConverterScreen.tsx:45 | Counts the run of '0' characters at the end of the text. |
| UnitScreen.StripZeros | src/screens/UnitConverterScreen.tsx:45 | The regex removes a suffix made of zeros and at most one leading dot, and keeps the rest as a prefix. |
| UnitScreen.StripIsLeftmostMatch | src/screens/UnitConverterScreen.tsx:45 | The part removed is exactly the leftmost suffix `\.?0+$` matches, and text with no such suffix is left alone. |
| UnitScreen.FractionText | src/screens/UnitConverterScreen.tsx:45 | Corrected version: trailing zeros are removed only from a fraction in fixed notation. Text without a dot, and text in exponent form, is unchanged, and nothing before the dot is cut. |
| UnitScreen.FixedShapeFraction | src/screens/UnitConverterScreen.tsx:45 | "0.500000" becomes "0.5". |
| UnitScreen.FixedShapeWhole | src/screens/UnitConverterScreen.tsx:45 | "100.000000" becomes "100". |
| UnitScreen.MetreInFeetText | src/screens/UnitConverterScreen.tsx:26 | "3.280840" becomes "3.28084". |
| UnitScreen.ConvertNum | src/screens/UnitConverterScreen.tsx:44 | A parsed finite number converts as `convertUnit` does. Infinities keep their sign, and the only failure is the missing temperature function. |
| UnitScreen.FromValueChange | src/screens/UnitConverterScreen.tsx:41-49 | The first field takes the typed text, and the second shows the converted number, or "0" when the text is not a number. Units and category are untouched, and it fails only through the temperature error. |
| UnitScreen.FromUnitChange | src/screens/UnitConverterScreen.tsx:51-57 | The source unit changes. The second field is recomputed only when the first holds a number, and fields that agreed still agree. |
| UnitScreen.ToUnitChange | src/screens/UnitConverterScreen.tsx:59-65 | The target unit changes. The second field is recomputed only when the first holds a number, and fields that agreed still agree. |
| UnitScreen.CategoryUnits | src/screens/UnitConverterScreen.tsx:69-74 | Every category of the table has at least two distinct units. |
| UnitScreen.CategoryChange | src/screens/UnitConverterScreen.tsx:67-79 | A new category selects its first two units, which differ, sets the first field to "1", and leaves the fields in agreement. |
| UnitScreen.SwapUnits | src/screens/UnitConverterScreen.tsx:81-88 | Swap exchanges the two units and the two field texts. |
| UnitScreen.SwapInvolution | src/screens/UnitConverterScreen.tsx:81-88 | Swapping twice restores the converter. |
| UnitScreen.SwapConvertsBack | src/screens/UnitConverterScreen.tsx:81-88 | After a swap, converting the converted number gives the original number. |
| UnitScreen.AsWrittenText | src/screens/UnitConverterScreen.tsx:45 | As written: the displayed text is a prefix of `toFixed(6)`. |
| UnitScreen.ExponentDisplay | src/screens/UnitConverterScreen.tsx:45 | 1e30 and 1.5e30 metres in metres: the regex as written shows "1e+3" and "1.5e+3", while the corrected screen shows "1e+30" and "1.5e+30". |
| UnitScreen.TrimsDifferOffFixedNotation | src/screens/UnitConverterScreen.tsx:45 | The regex as written and the corrected trim give different text exactly when the text ends in '0' and is not a fixed-notation fraction (it has no decimal point, or it has an exponent). |
| UnitScreen.ResultText | src/screens/UnitConverterScreen.tsx:45 | When `toFixed(6)` writes a fixed-notation fraction, the shown text is exactly what the regex as written leaves. Text without a point, or in exponent form, is shown unchanged. |
| Matrices.Add | src/utils/calculate.ts:170-175 | Fails on differing row counts, on empty matrices (no first row), or on first rows of different lengths. Otherwise it is the entrywise sum with the first matrix's shape. |
| Matrices.AddCommutes | src/utils/calculate.ts:170-175 | Swapping the operands gives the same sum, or the same error. |
| Matrices.Multiply | src/utils/calculate.ts:177-190 | Succeeds exactly when both matrices are non-empty and a's column count equals b's row count; a count mismatch is "Matrix dimensions incompatible for multiplication". Each entry is the dot product of a row and a column. |
| Matrices.MultiplyIdentity | src/utils/calculate.ts:177-190 | Multiplying by the identity of matching size returns the matrix. |
| Matrices.Minor | src/utils/calculate.ts:203-204 | The minor drops the first row and the chosen column, and every other entry keeps its place. |
| Matrices.MinorOfIdentity | src/utils/calculate.ts:203-204 | The minor of the n×n identity at column 0 is the (n−1)×(n−1) identity. |
| Matrices.Determinant | src/utils/calculate.ts:192-208 | An empty matrix has no first row, and a row count different from the first row's length is "Matrix must be square". A square count with rows of other lengths is reported as ragged. Otherwise sizes 1 and 2 use the closed forms, and larger sizes use Laplace expansion along the first row. |
| Matrices.RaggedExample | src/utils/calculate.ts:193-195 | [[1, 2], [3]] passes the square check on its first row and is reported as ragged, and [[1, 2]] is not square. |
| Matrices.Det | src/utils/calculate.ts:192-208 | The determinant of a square matrix whose first row is all zeros is 0. |
| Matrices.Laplace | src/utils/calculate.ts:203-206 | The partial Laplace sum over columns whose first-row entries are all 0 is 0. |
| Matrices.TwoByTwoIsLaplace | src/utils/calculate.ts:196-206 | The 2×2 closed form equals Laplace expansion. |
| Matrices.DetIdentity | src/utils/calculate.ts:192-208 | Every identity matrix has determinant 1. |
| MatrixScreen.Zeros | src/screens/MatrixScreen.tsx:41 | A new matrix has the requested shape and is all zeros. |
| MatrixScreen.CreateMatrix | src/screens/MatrixScreen.tsx:35-45 | Creation appends one zero matrix named "Matrix k", where k is the new count, selects it, and keeps the earlier matrices. |
| MatrixScreen.UpdateMatrixValue | src/screens/MatrixScreen.tsx:47-56 | Only the named matrix's cell changes, and the recorded operation is kept. It takes the parsed value when that is finite and non-zero, and 0 when the text is NaN or zero. Other matrices and shapes are kept. |
| MatrixScreen.PerformOperation | src/screens/MatrixScreen.tsx:58-102 | Needs two matrices. add and multiply report the library's result or error, and only a success records the operation. determinant rejects a non-square first matrix, and otherwise reports the library's determinant or its error (an empty matrix has no first row) without recording the operation. Any other name is invalid. Only a successful add or multiply changes the recorded operation. |
| MatrixScreen.TwoMatricesExample | src/screens/MatrixScreen.tsx:35-87 | Two fresh 2×2 matrices are named "Matrix 1" and "Matrix 2". Their sum is zero, and the determinant of the first is 0. |
| MatrixScreen.DeterminantOfSquareEntry | src/screens/MatrixScreen.tsx:80-87 | A square, non-empty first matrix always gets a determinant report. |
| LinearSolver.Augment | src/utils/calculate.ts:215 | Each row of the coefficient matrix gets its constant appended. |
| LinearSolver.EliminateRow | src/utils/calculate.ts:221-223 | Columns from i on lose factor × the pivot row, and earlier columns are unchanged. |
| LinearSolver.Step | src/utils/calculate.ts:219-224 | One elimination step keeps the pivot row and the rows above it. |
| LinearSolver.StepZeros | src/utils/calculate.ts:219-224 | After the step for column i, every row below the pivot has zeros in columns up to i. |
| LinearSolver.StepRowZeros | src/utils/calculate.ts:219-224 | One row below the pivot has zeros in every column up to the pivot's after the step. |
| LinearSolver.Forward | src/utils/calculate.ts:218-225 | Forward elimination yields an upper-triangular system with nonzero pivots, or reports a zero pivot at some column from the starting one on. |
| LinearSolver.ForwardStopsAtZeroPivot | src/utils/calculate.ts:219-220 | A zero pivot at the starting row is reported at once, and a failure reported for that row means its pivot is zero. |
| LinearSolver.Stage | src/utils/calculate.ts:218-225 | The stages of elimination without row exchanges, as a reference: once columns i to k−1 are done the system is still shaped, has zeros below the diagonal in those columns and keeps the rows above i; no stage exists once a zero pivot is met. |
| LinearSolver.ForwardFailsAtStage | src/utils/calculate.ts:218-225 | Elimination reports a zero pivot at column k exactly when it reaches stage k and the diagonal entry there is zero. |
| LinearSolver.ForwardSucceedsAtLastStage | src/utils/calculate.ts:218-225 | Elimination succeeds exactly when the last stage exists, and its result is that stage. |
| LinearSolver.StepSound | src/utils/calculate.ts:219-224 | A solution of the system after an elimination step solves the system before it. |
| LinearSolver.ForwardSound | src/utils/calculate.ts:218-225 | A solution of the eliminated system solves the original augmented system. |
| LinearSolver.ForwardNext | src/utils/calculate.ts:218-225 | An elimination that ends in a system from row i ends in the same system from row i + 1 after the step for column i, whose pivot is non-zero. |
| LinearSolver.ForwardDone | src/utils/calculate.ts:218 | Elimination started past the last row returns the system unchanged. |
| LinearSolver.BackFrom | src/utils/calculate.ts:228-235 | Back substitution produces one value per unknown. |
| LinearSolver.BackSolves | src/utils/calculate.ts:228-235 | On an upper-triangular system with nonzero pivots, back substitution satisfies every row's equation. |
| LinearSolver.AugmentedSolves | src/utils/calculate.ts:215 | A solution of the augmented system solves A·x = c. |
| LinearSolver.Solve | src/utils/calculate.ts:212-238 | Whenever the solver returns a vector, it satisfies every equation of A·x = c. |
| LinearSolver.SolveOutcome | src/utils/calculate.ts:212-238 | The solver returns a vector exactly when elimination of the augmented system passes every column, and reports a zero pivot at column k exactly when stage k has a zero on the diagonal. |
| LinearSolver.SolveExample | src/utils/calculate.ts:212-238 | x+y = 3, x−y = 1 solves to (2, 1). |
| LinearSolver.ZeroPivotExample | src/utils/calculate.ts:220 | A system whose first pivot is 0 is reported instead of divided by zero. |
| EquationScreen.InitialScreen | src/screens/EquationSolverScreen.tsx:25-26 | The screen starts with two coefficients and two constants. |
| EquationScreen.SetAt | src/screens/EquationSolverScreen.tsx:61-62 | Writing index i stores the parsed value or 0, and keeps every other slot. Writing past the end leaves holes between. |
| EquationScreen.UpdateCoefficient | src/screens/EquationSolverScreen.tsx:60-64 | Only the coefficient list changes. |
| EquationScreen.UpdateConstant | src/screens/EquationSolverScreen.tsx:66-70 | Only the constant list changes. |
| EquationScreen.Leading | src/screens/EquationSolverScreen.tsx:43 | a, b and c are available exactly when the first three slots hold finite numbers. |
| EquationScreen.SolveQuadratic | src/screens/EquationSolverScreen.tsx:37-58 | Fewer than three coefficients is an error. Otherwise the report is two roots, a double root or a complex pair, according to whether the discriminant is positive, zero or negative. a = 0 and non-finite coefficients are reported apart. |
| EquationScreen.TwoRootsSolve | src/screens/EquationSolverScreen.tsx:46-49 | With a positive discriminant, both formula values are distinct roots. |
| EquationScreen.DoubleRootSolves | src/screens/EquationSolverScreen.tsx:50-52 | With a zero discriminant, −b/2a is a root. |
| EquationScreen.ConjugatePairSolves | src/screens/EquationSolverScreen.tsx:53-56 | With a negative discriminant, re ± im·i both solve the equation. |
| EquationScreen.ReportsSolve | src/screens/EquationSolverScreen.tsx:37-58 | When `sqrt` is a square root, every number reported solves a·x² + b·x + c = 0. |
| EquationScreen.HoleExample | src/screens/EquationSolverScreen.tsx:60-64 | Writing index 3 of the initial coefficients leaves a hole at index 2, and the formula has no finite b to use. |
| Graphing.InitialGraph | src/screens/GraphingScreen.tsx:29-32 | The screen starts with one visible function "x" in the first colour, and "x" typed. |
| Graphing.Trim | src/screens/GraphingScreen.tsx:41-44 | `trim()` is empty exactly for all-blank text. Otherwise it is the slice between the leading and trailing blanks, with non-blank ends. |
| Graphing.AddFunction | src/screens/GraphingScreen.tsx:40-51 | Blank input does nothing. Otherwise one visible function with the trimmed text and the next palette colour is appended, and the input is cleared. |
| Graphing.RemoveFunction | src/screens/GraphingScreen.tsx:53-55 | The survivors are exactly the functions with another id. |
| Graphing.RemoveConcat | src/screens/GraphingScreen.tsx:53-55 | Removal works piecewise over a concatenation, so the survivors keep their order. |
| Graphing.RemoveAbsent | src/screens/GraphingScreen.tsx:53-55 | Removing an id no function has changes nothing. |
| Graphing.RemoveCount | src/screens/GraphingScreen.tsx:53-55 | Removal drops exactly as many functions as carry the id. |
| Graphing.AddThenRemove | src/screens/GraphingScreen.tsx:40-55 | Removing a freshly added function restores the list. |
| Graphing.ToggleFunction | src/screens/GraphingScreen.tsx:57-61 | Only the functions with the id flip visibility, and nothing else changes. |
| Graphing.ToggleTwice | src/screens/GraphingScreen.tsx:57-61 | Toggling twice restores the list. |
| Graphing.CurvePoints | src/screens/GraphingScreen.tsx:68-79 | A point is kept exactly when the function evaluates to a finite y within [yMin, yMax], and it carries the function's colour. |
| Graphing.GraphPoints | src/screens/GraphingScreen.tsx:63-83 | Every point comes from a visible function, and every plottable sample of a visible function is a point. |
| Graphing.HiddenContributeNothing | src/screens/GraphingScreen.tsx:67-68 | Hidden functions produce no points. |

## Left out

- IEEE-754 rounding and signed zero: finite numbers are exact reals, so `0.1 + 0.2` is 0.3 here.
- `formatNumber`, `parseFloat`, `toFixed`, `toExponential` and `Number#toString` on fractions are parameters. Their digit-level output is not modelled.
- `Math.sin`, `Math.log10`, `Math.sqrt`, `Math.pow` and the other `Math` functions are parameters; `Math.PI` is the exact value of its double.
- `evaluateFunction` is a parameter of the graph: it runs the expression text through `eval`, which has no model here.
- The sample positions of the graph loop are a parameter. They are the floating-point sums `xMin + k·step`.
- Timers, animations, navigation, the menu, the history panel's visibility and all rendering and styling are left out.
- The home screen's expression line (`setExpression`), and the mojibake in its regex, are left out: it is display text only.
- `Date.now()` and `new Date()` are parameters (the `Clock` and the `id` arguments).
- React's batched `setState` is read as sequential updates, except where a handler reads a stale value. `ProgrammerScreen.BaseChange` keeps the stale base.
- `solveLinearSystem` passes a flat coefficient list to `solveLinearEquation`; that call and its error text are left out. `LinearSolver.Solve` takes a square matrix.
- `LinearSolver.Solve`: the source divides by a zero pivot and returns Infinity or NaN entries, which the model reports as `ZeroPivot`.
- The text of the matrix and equation reports (`toFixed(2)`, `toFixed(4)`, joining rows) is left out; the reports are datatypes.
- `Matrices.Add` and `Matrices.Multiply` require rectangular matrices. Ragged rows cannot be built through the screen.
- `Matrices.Determinant`: a matrix with as many rows as its first row has entries, whose other rows differ in length, is reported as `Ragged`. The source reads the missing entries as `undefined` and returns NaN, or a number when the 2×2 formula reads only entries that exist, or throws "Matrix must be square" from a minor. Ragged rows cannot be built through the screen.
- `MatrixScreen.UpdateMatrixValue` requires the cell to exist. The screen only calls it on cells it renders.
- `MatrixScreen.UpdateMatrixValue`: an infinite entry is stored as 0, where `parseFloat(value) || 0` stores Infinity. Matrices here hold reals, so an infinite cell has no value to store.
- `parseInt`: leading whitespace, precision loss above 2^53 and radices outside 2..36 are left out.
- `Radix.Upper` and `Radix.FormatHex` upper-case ASCII letters only. `toUpperCase` also maps letters such as é to É and ß to "SS", but only digit text reaches them from the screens.
- `Radix.NumberToString` and `ProgrammerScreen.Render` always write plain digits. JavaScript's `toString` writes exponent form from 1e21 up, so the next digit key would re-parse "1e+21" followed by the digit as 1.
- The unit table's JavaScript prototype keys (for example `toString` as a unit) are left out: units are exactly the table keys.
- `UnitScreen.FromValueChange` shows the corrected trim (`UnitScreen.FractionText`) rather than the regex as written. The two differ only on `toFixed` text ending in '0' that is not a fixed-notation fraction, that is on exponent form from 1e21 up (`UnitScreen.TrimsDifferOffFixedNotation`); see Findings.
- `UnitScreen.FromUnitChange` shows the corrected trim rather than the regex as written, with the same difference as `UnitScreen.FromValueChange`.
- `UnitScreen.ToUnitChange` shows the corrected trim rather than the regex as written, with the same difference as `UnitScreen.FromValueChange`.
- `UnitScreen.ResultText` is the corrected trim. It agrees with the regex as written whenever `toFixed(6)` writes a fixed-notation fraction, which it does below 1e21.
- `UnitScreen.CategoryChange` shows the corrected trim rather than the regex as written, with the same difference as `UnitScreen.FromValueChange`. It also requires a category of the table; the unknown-category branch is unreachable from the screen's buttons.
- `Scientific.FactorialOf`: factorial of +Infinity loops forever in the source and is reported as `Diverges` here. Large factorials are exact rather than rounded to Infinity.
- `EquationScreen.SolveQuadratic`: a = 0 or a non-finite coefficient yields Infinity or NaN text in the source; the model reports `LeadingZero` or `NotFinite`.

## Findings

| source | as written | input that shows it | evidently intended | confidence | as-written member | corrected member |
|---|---|---|---|---|---|---|
| src/screens/HomeScreen.tsx:286-292 | The home grid's ÷ and × keys send the UTF-8 bytes of the signs read as Mac Roman text ("√∑", "√ó"). `calculate` (src/utils/calculate.ts:20-22) matches neither and returns the right operand. | Press 6, ×, 7, = on the home screen: it shows 7. | The keys send "÷" and "×", as on the scientific screen, so the same presses show 42. | not executed | Keypads.HomeOperatorsFallThrough, HomeScreen.TimesKeyAsWritten | Keypads.CorrectedOperatorsSelectArithmetic, HomeScreen.TimesKeyCorrected |
| src/screens/UnitConverterScreen.tsx:45 | `toFixed(6).replace(/\.?0+$/, '')` also strips zeros from the exponent. `toFixed` writes exponent form from 1e21 up. | Type 1e30 (or 1.5e30) with metres on both sides: it shows "1e+3" (or "1.5e+3"). | Strip trailing zeros only from a fraction in fixed notation, giving "1e+30" and "1.5e+30". | not executed | UnitScreen.ExponentDisplay | UnitScreen.FractionText |

=== FILE: bitwise.dfy ===
/** JavaScript's bitwise operators on numbers that are integers: both
    operands become 32-bit two's-complement patterns (ToInt32/ToUint32),
    the operator acts bit by bit, and the pattern is read back as a signed
    32-bit integer. Bit-by-bit operations are defined on naturals by
    halving. */
module Bitwise {
  import opened Division
  const Two31: nat := 0x8000_0000
  const Two32: nat := 0x1_0000_0000

  function Pow2(k: nat): (p: nat)
    ensures p >= 1
  {
    if k == 0 then 1 else 2 * Pow2(k - 1)
  }

  /** ToUint32 of an integer: its residue modulo 2^32. */
  function Uint32(v: int): (u: nat)
    ensures u < Two32
  {
    v % Two32
  }

  /** The signed reading of a 32-bit pattern. */
  function Int32(u: nat): (v: int)
    requires u < Two32
    ensures -(Two31 as int) <= v < Two31
    ensures Uint32(v) == u
  {
    if u >= Two31 then u - Two32 else u
  }

  function ToInt32(v: int): (r: int)
    ensures -(Two31 as int) <= r < Two31
  {
    Int32(Uint32(v))
  }

  function BitAnd(a: nat, b: nat): (r: nat)
    ensures r <= a && r <= b
    decreases a
  {
    if a == 0 || b == 0 then 0
    else 2 * BitAnd(a / 2, b / 2) + (if a % 2 == 1 && b % 2 == 1 then 1 else 0)
  }

  function BitOr(a: nat, b: nat): nat
    decreases a + b
  {
    if a == 0 then b
    else if b == 0 then a
    else 2 * BitOr(a / 2, b / 2) + (if a % 2 == 1 || b % 2 == 1 then 1 else 0)
  }

  function BitXor(a: nat, b: nat): nat
    decreases a + b
  {
    if a == 0 then b
    else if b == 0 then a
    else 2 * BitXor(a / 2, b / 2) + (if a % 2 != b % 2 then 1 else 0)
  }

  // ---------------------------------------------------------------------
  // Masking with a run of k one-bits

  /** The number the low k bits of x spell, collected by halving. */
  function LowBits(x: nat, k: nat): nat
  {
    if k == 0 || x == 0 then 0 else 2 * LowBits(x / 2, k - 1) + x % 2
  }

  lemma HalfMod(x: nat, p: nat)
    requires p >= 1
    ensures 2 * ((x / 2) % p) + x % 2 == x % (2 * p)
  {
    var q, r := x / 2, x % 2;
    var h, t := q / p, q % p;
    assert q == h * p + t;
    assert x == 2 * q + r;
    assert x == h * (2 * p) + (2 * t + r);
    ModUnique(x, h, 2 * p, 2 * t + r);
  }

  /** The low k bits are the residue modulo 2^k. */
  lemma {:induction false} LowBitsMod(x: nat, k: nat)
    ensures LowBits(x, k) == x % Pow2(k)
    decreases k
  {
    if k == 0 {
      assert x % 1 == 0;
    } else if x == 0 {
      assert 0 % Pow2(k) == 0;
    } else {
      LowBitsMod(x / 2, k - 1);
      HalfMod(x, Pow2(k - 1));
    }
  }

  lemma BitAndStep(x: nat, n: nat, m: nat)
    requires x > 0 && m == 2 * n + 1
    ensures BitAnd(x, m) == 2 * BitAnd(x / 2, n) + x % 2
  {
    assert (2 * n + 1) / 2 == n && (2 * n + 1) % 2 == 1;
  }

  /** One halving step against a mask 2n + 1 whose lowest bit is set. */
  lemma BitOrStep(x: nat, n: nat, m: nat)
    requires x > 0 && m == 2 * n + 1
    ensures BitOr(x, m) == 2 * BitOr(x / 2, n) + 1
  {
    assert (2 * n + 1) / 2 == n && (2 * n + 1) % 2 == 1;
  }

  lemma BitXorStep(x: nat, n: nat, m: nat)
    requires x > 0 && m == 2 * n + 1
    ensures BitXor(x, m) == 2 * BitXor(x / 2, n) + (1 - x % 2)
  {
    assert (2 * n + 1) / 2 == n && (2 * n + 1) % 2 == 1;
  }

  /** x AND (2^k - 1) keeps the low k bits. */
  lemma {:induction false} AndLowBits(x: nat, k: nat)
    ensures BitAnd(x, Pow2(k) - 1) == LowBits(x, k)
    decreases k
  {
    if k == 0 {
      assert BitAnd(x, 0) == 0;
    } else if x == 0 {
      var P := Pow2(k);
      assert BitAnd(0, P - 1) == 0;
    } else {
      AndLowBits(x / 2, k - 1);
      var n := Pow2(k - 1) - 1;
      assert Pow2(k) - 1 == 2 * n + 1;
      BitAndStep(x, n, Pow2(k) - 1);
    }
  }

  /** x OR (2^k - 1) sets the low k bits. */
  lemma {:induction false} OrLowBits(x: nat, k: nat)
    ensures BitOr(x, Pow2(k) - 1) == x - LowBits(x, k) + Pow2(k) - 1
    decreases k
  {
    if k == 0 {
      assert BitOr(x, 0) == x;
    } else if x == 0 {
      var P := Pow2(k);
      assert BitOr(0, P - 1) == P - 1;
    } else {
      OrLowBits(x / 2, k - 1);
      var n := Pow2(k - 1) - 1;
      assert Pow2(k) - 1 == 2 * n + 1;
      BitOrStep(x, n, Pow2(k) - 1);
    }
  }

  /** x XOR (2^k - 1) flips the low k bits. */
  lemma {:induction false} XorLowBits(x: nat, k: nat)
    ensures BitXor(x, Pow2(k) - 1) == x - LowBits(x, k) + (Pow2(k) - 1 - LowBits(x, k))
    decreases k
  {
    if k == 0 {
      assert BitXor(x, 0) == x;
    } else if x == 0 {
      var P := Pow2(k);
      assert BitXor(0, P - 1) == P - 1;
    } else {
      XorLowBits(x / 2, k - 1);
      var n := Pow2(k - 1) - 1;
      assert Pow2(k) - 1 == 2 * n + 1;
      BitXorStep(x, n, Pow2(k) - 1);
    }
  }

  lemma {:induction false} Pow2Sum(a: nat, b: nat)
    ensures Pow2(a + b) == Pow2(a) * Pow2(b)
    decreases a
  {
    if a > 0 {
      Pow2Sum(a - 1, b);
    }
  }

  lemma Pow2Values()
    ensures Pow2(8) == 256 && Pow2(32) == Two32
  {
    assert Pow2(4) == 16;
    Pow2Sum(4, 4);
    Pow2Sum(8, 8);
    Pow2Sum(16, 16);
  }

  // ---------------------------------------------------------------------
  // The JavaScript operators

  /** `a & b` */
  function JsAnd(a: int, b: int): (r: int)
    ensures -(Two31 as int) <= r < Two31
    ensures 0 <= b < Two31 ==> 0 <= r <= b
  {
    Int32(BitAnd(Uint32(a), Uint32(b)))
  }

  /** `a | b` */
  function JsOr(a: int, b: int): (r: int)
    ensures -(Two31 as int) <= r < Two31
  {
    Pow2Values();
    OrBound(Uint32(a), Uint32(b), 32);
    Int32(BitOr(Uint32(a), Uint32(b)))
  }

  /** `a ^ b` */
  function JsXor(a: int, b: int): (r: int)
    ensures -(Two31 as int) <= r < Two31
  {
    Pow2Values();
    XorBound(Uint32(a), Uint32(b), 32);
    Int32(BitXor(Uint32(a), Uint32(b)))
  }

  /** `~a`: every one of the 32 bits flipped. */
  function JsNot(a: int): (r: int)
    ensures r == -ToInt32(a) - 1
  {
    Int32(Two32 - 1 - Uint32(a))
  }

  /** `a << 1`: the pattern moved up one bit, the top bit lost. */
  function JsShiftLeftOne(a: int): (r: int)
    ensures r == ToInt32(2 * a)
  {
    DoubleMod(a);
    Int32((2 * Uint32(a)) % Two32)
  }

  /** `a >> 1`: the sign-propagating shift, which is floor division by 2. */
  function JsShiftRightOne(a: int): (r: int)
    ensures -(Two31 as int) / 2 <= r < Two31 / 2
    ensures 2 * r <= ToInt32(a) <= 2 * r + 1
  {
    ToInt32(a) / 2
  }

  /** Doubling commutes with reduction modulo 2^32. */
  lemma DoubleMod(a: int)
    ensures (2 * Uint32(a)) % Two32 == Uint32(2 * a)
  {
    var u := Uint32(a);
    var q := a / Two32;
    assert a == q * Two32 + u;
    if 2 * u < Two32 {
      ModUnique(2 * a, 2 * q, Two32, 2 * u);
      ModUnique(2 * u, 0, Two32, 2 * u);
    } else {
      ModUnique(2 * a, 2 * q + 1, Two32, 2 * u - Two32);
      ModUnique(2 * u, 1, Two32, 2 * u - Two32);
    }
  }

  lemma {:induction false} OrBound(a: nat, b: nat, k: nat)
    requires a < Pow2(k) && b < Pow2(k)
    ensures BitOr(a, b) < Pow2(k)
    decreases k
  {
    if k > 0 && a > 0 && b > 0 {
      OrBound(a / 2, b / 2, k - 1);
    }
  }

  lemma {:induction false} XorBound(a: nat, b: nat, k: nat)
    requires a < Pow2(k) && b < Pow2(k)
    ensures BitXor(a, b) < Pow2(k)
    decreases k
  {
    if k > 0 && a > 0 && b > 0 {
      XorBound(a / 2, b / 2, k - 1);
    }
  }

  /** The low byte survives reduction modulo 2^32. */
  lemma Uint32Byte(a: int)
    ensures Uint32(a) % 256 == a % 256
  {
    var q, u := a / Two32, a % Two32;
    assert a == q * Two32 + u;
    var t, r := u / 256, u % 256;
    assert u == t * 256 + r;
    assert a == (q * 0x100_0000 + t) * 256 + r;
    ModUnique(a, q * 0x100_0000 + t, 256, r);
  }

  /** Masking with 0xFF leaves the residue modulo 256. */
  lemma AndByte(a: int)
    ensures JsAnd(a, 0xFF) == a % 256
  {
    Pow2Values();
    AndLowBits(Uint32(a), 8);
    LowBitsMod(Uint32(a), 8);
    Uint32Byte(a);
  }

  /** OR with 0xFF sets the low byte of the 32-bit pattern. */
  lemma OrByte(a: int)
    ensures JsOr(a, 0xFF) == Int32(Uint32(a) - Uint32(a) % 256 + 255)
  {
    Pow2Values();
    OrLowBits(Uint32(a), 8);
    LowBitsMod(Uint32(a), 8);
  }

  /** XOR with 0xFF flips the low byte of the 32-bit pattern. */
  lemma XorByte(a: int)
    ensures JsXor(a, 0xFF) == Int32(Uint32(a) - Uint32(a) % 256 + (255 - Uint32(a) % 256))
  {
    Pow2Values();
    XorLowBits(Uint32(a), 8);
    LowBitsMod(Uint32(a), 8);
  }
}

=== FILE: calculate.dfy ===
/** The binary arithmetic of `calculate` in src/utils/calculate.ts, with
    the operator tags it switches on turned into a closed datatype. */
module Arithmetic {
  import opened Outcomes
  import opened JsNumber

  /** The operator tags `calculate` recognises; every other tag string is
      kept as `Other` and takes the default branch. */
  datatype Op = Plus | Minus | Times | Divide | Other(tag: string)

  const PlusTag: string := "+"
  const MinusTag: string := "-"
  const TimesTag: string := "\U{D7}"    // the multiplication sign
  const DivideTag: string := "\U{F7}"   // the division sign

  /** Reads a button's operator value as `calculate`'s switch would. */
  function OpOfTag(tag: string): (op: Op)
    ensures op.Plus? <==> tag == PlusTag
    ensures op.Minus? <==> tag == MinusTag
    ensures op.Times? <==> tag == TimesTag
    ensures op.Divide? <==> tag == DivideTag
    ensures op.Other? ==> op.tag == tag
  {
    if tag == PlusTag then Plus
    else if tag == MinusTag then Minus
    else if tag == TimesTag then Times
    else if tag == DivideTag then Divide
    else Other(tag)
  }

  /** The tag text an operator was read from (used in history expressions
      and for JavaScript truthiness of the stored operation). */
  function TagOf(op: Op): string {
    match op
    case Plus => PlusTag
    case Minus => MinusTag
    case Times => TimesTag
    case Divide => DivideTag
    case Other(t) => t
  }

  lemma TagRoundTrip(tag: string)
    ensures TagOf(OpOfTag(tag)) == tag
  {
  }

  datatype CalcError = DivisionByZero

  /** `calculate(previousValue, currentValue, operation)`: the four
      arithmetic operators, a thrown error for an exact-zero divisor, and
      the current value for any other tag. */
  function Calculate(previous: Num, current: Num, op: Op): (r: Result<Num, CalcError>)
    ensures r.Failure? <==> op.Divide? && current == Fin(0.0)
    ensures op.Plus? ==> r == Success(Add(previous, current))
    ensures op.Minus? ==> r == Success(Sub(previous, current))
    ensures op.Times? ==> r == Success(Mul(previous, current))
    ensures op.Divide? && current != Fin(0.0) ==> r == Success(Div(previous, current))
    ensures op.Other? ==> r == Success(current)
  {
    match op
    case Plus => Success(Add(previous, current))
    case Minus => Success(Sub(previous, current))
    case Times => Success(Mul(previous, current))
    case Divide =>
      if current == Fin(0.0) then Failure(DivisionByZero)
      else Success(Div(previous, current))
    case Other(_) => Success(current)
  }

  /** On finite operands the four tags compute exact real arithmetic. */
  lemma CalculateOnReals(x: real, y: real)
    ensures Calculate(Fin(x), Fin(y), OpOfTag(PlusTag)) == Success(Fin(x + y))
    ensures Calculate(Fin(x), Fin(y), OpOfTag(MinusTag)) == Success(Fin(x - y))
    ensures Calculate(Fin(x), Fin(y), OpOfTag(TimesTag)) == Success(Fin(x * y))
    ensures y != 0.0 ==> Calculate(Fin(x), Fin(y), OpOfTag(DivideTag)) == Success(Fin(x / y))
    ensures y == 0.0 ==> Calculate(Fin(x), Fin(y), OpOfTag(DivideTag)) == Failure(DivisionByZero)
  {
    assert OpOfTag(TimesTag) == Times;
    assert Mul(Fin(x), Fin(y)) == Fin(x * y);
  }

  /** `handlePercentage`: value / 100 */
  function Percentage(value: Num): (r: Num)
    ensures value.Fin? ==> r == Fin(value.r / 100.0) && Mul(r, Fin(100.0)) == value
    ensures value.Inf? ==> r == value
    ensures value.NaN? ==> r.NaN?
  {
    Div(value, Fin(100.0))
  }

  /** `handleToggleSign`: value * -1 */
  function ToggleSign(value: Num): (r: Num)
    ensures Neg(r) == value
    ensures value.Fin? ==> r == Fin(-value.r)
  {
    NegInvolutive(value);
    Mul(value, Fin(-1.0))
  }
}

=== FILE: calculator.dfy ===
/** The calculator input state machine shared by the home and scientific
    screens (`CalculatorState` in src/types/index.ts and the number,
    operator and function handlers). Each handler is one sequential
    transition; `formatNumber` and `parseFloat` are a parameter. */
module CalculatorCore {
  import opened Outcomes
  import opened JsNumber
  import opened Arithmetic
  import Scientific

  datatype Mode = Standard | ScientificMode | ProgrammerMode | UnitMode | GraphMode | MatrixMode | EquationMode

  type CalcBase = b: int | b == 2 || b == 8 || b == 10 || b == 16 witness 10

  /** `CalculatorState`; a null `previousValue` or `operation` is `None`. */
  datatype State = State(
    display: string,
    previousValue: Option<Num>,
    operation: Option<string>,
    waitingForNewValue: bool,
    mode: Mode,
    angleUnit: Scientific.AngleUnit,
    base: CalcBase)

  /** `formatNumber` and `parseFloat`, left abstract. */
  datatype NumberText = NumberText(format: Num -> string, parse: string -> Num)

  /** One evaluation of `calculate` performed by a transition. */
  datatype Evaluation = Evaluation(previous: Num, operation: string, current: Num, result: Num)

  /** The state after a handler and the evaluation it performed, if any. */
  datatype Transition = Transition(state: State, evaluated: Option<Evaluation>)

  /** The initial state of a calculator screen. */
  function Initial(mode: Mode): (s: State)
    ensures Consistent(s) && !Pending(s)
    ensures s.display == "0" && s.angleUnit == Scientific.Deg && s.base == 10
  {
    State("0", None, None, false, mode, Scientific.Deg, 10)
  }

  /** JavaScript truthiness of `state.operation`: non-null and non-empty. */
  predicate Pending(s: State) {
    s.operation.Some? && s.operation.value != ""
  }

  /** A pending left operand exists exactly when an operation is stored. */
  predicate Consistent(s: State) {
    s.previousValue.None? <==> s.operation.None?
  }

  /** `handleNumberInput(num)` */
  function NumberInput(s: State, num: string): (t: State)
    ensures !t.waitingForNewValue
    ensures s.waitingForNewValue || s.display == "0" ==> t.display == num
    ensures !s.waitingForNewValue && s.display != "0" ==> t.display == s.display + num
    ensures t.previousValue == s.previousValue && t.operation == s.operation
    ensures t.mode == s.mode && t.angleUnit == s.angleUnit && t.base == s.base
    ensures Consistent(s) ==> Consistent(t)
  {
    if s.waitingForNewValue then s.(display := num, waitingForNewValue := false)
    else s.(display := if s.display == "0" then num else s.display + num)
  }

  /** Applies the stored operation to the pending operand and the display. */
  function Evaluate(s: State, nt: NumberText): (r: Result<Evaluation, CalcError>)
    requires s.previousValue.Some? && s.operation.Some?
    ensures r.Success? ==> r.value.previous == s.previousValue.value && r.value.operation == s.operation.value
                           && r.value.current == nt.parse(s.display)
    ensures r.Success? ==> Calculate(r.value.previous, r.value.current, OpOfTag(r.value.operation)) == Success(r.value.result)
    ensures r.Failure? <==> OpOfTag(s.operation.value).Divide? && nt.parse(s.display) == Fin(0.0)
  {
    var current := nt.parse(s.display);
    var result :- Calculate(s.previousValue.value, current, OpOfTag(s.operation.value));
    Success(Evaluation(s.previousValue.value, s.operation.value, current, result))
  }

  /** `handleOperatorInput(operator)`: start an operation, evaluate the
      pending one left to right, or replace the operator while waiting.
      A failure is the error `calculate` throws; the screen keeps its state. */
  function OperatorInput(s: State, operator: string, nt: NumberText): (r: Result<Transition, CalcError>)
    ensures s.previousValue.None? ==>
              r == Success(Transition(s.(previousValue := Some(nt.parse(s.display)), operation := Some(operator),
                                         waitingForNewValue := true), None))
    ensures r.Success? ==> var t := r.value.state;
              t.operation == Some(operator) && t.waitingForNewValue && t.previousValue.Some?
              && t.mode == s.mode && t.angleUnit == s.angleUnit && t.base == s.base
    ensures r.Success? && r.value.evaluated.Some? ==> var e := r.value.evaluated.value;
              Pending(s) && !s.waitingForNewValue && Some(e.previous) == s.previousValue
              && r.value.state.display == nt.format(e.result) && r.value.state.previousValue == Some(e.result)
    ensures r.Success? && r.value.evaluated.Some? ==>
              s.previousValue.Some? && s.operation.Some? && Evaluate(s, nt) == Success(r.value.evaluated.value)
    ensures r.Success? && r.value.evaluated.None? ==>
              s.previousValue.None? || (r.value.state.display == s.display && r.value.state.previousValue == s.previousValue)
    ensures s.previousValue.Some? && Pending(s) && !s.waitingForNewValue <==> r.Failure? || r.value.evaluated.Some?
    ensures r.Failure? ==> OpOfTag(s.operation.value).Divide? && nt.parse(s.display) == Fin(0.0)
    ensures r.Success? && Consistent(s) ==> Consistent(r.value.state)
  {
    if s.previousValue.None? then
      Success(Transition(s.(previousValue := Some(nt.parse(s.display)), operation := Some(operator),
                            waitingForNewValue := true), None))
    else if Pending(s) && !s.waitingForNewValue then
      var e :- Evaluate(s, nt);
      Success(Transition(s.(display := nt.format(e.result), previousValue := Some(e.result),
                            operation := Some(operator), waitingForNewValue := true), Some(e)))
    else
      Success(Transition(s.(operation := Some(operator), waitingForNewValue := true), None))
  }

  /** `=`: evaluate when an operation is pending on a fresh operand, then
      forget the operation; otherwise nothing happens. */
  function EqualsInput(s: State, nt: NumberText): (r: Result<Transition, CalcError>)
    ensures !(Pending(s) && s.previousValue.Some? && !s.waitingForNewValue) ==> r == Success(Transition(s, None))
    ensures r.Success? && r.value.evaluated.Some? ==> var t := r.value.state; var e := r.value.evaluated.value;
              Some(e.previous) == s.previousValue && t.display == nt.format(e.result)
              && t.previousValue.None? && t.operation.None? && t.waitingForNewValue
              && t.mode == s.mode && t.angleUnit == s.angleUnit && t.base == s.base
    ensures r.Success? && r.value.evaluated.Some? ==>
              s.previousValue.Some? && s.operation.Some? && Evaluate(s, nt) == Success(r.value.evaluated.value)
    ensures r.Success? && r.value.evaluated.None? ==> r.value.state == s
    ensures r.Failure? ==> OpOfTag(s.operation.value).Divide? && nt.parse(s.display) == Fin(0.0)
    ensures r.Success? && Consistent(s) ==> Consistent(r.value.state)
  {
    if Pending(s) && s.previousValue.Some? && !s.waitingForNewValue then
      var e :- Evaluate(s, nt);
      Success(Transition(s.(display := nt.format(e.result), previousValue := None, operation := None,
                            waitingForNewValue := true), Some(e)))
    else
      Success(Transition(s, None))
  }

  /** 'clear': back to "0" with nothing pending; mode, angle unit and base stay. */
  function ClearInput(s: State): (t: State)
    ensures t.display == "0" && t.previousValue.None? && t.operation.None? && !t.waitingForNewValue
    ensures t.mode == s.mode && t.angleUnit == s.angleUnit && t.base == s.base
    ensures Consistent(t)
  {
    s.(display := "0", previousValue := None, operation := None, waitingForNewValue := false)
  }

  /** 'toggle-sign': the display shows the negated value; nothing else changes. */
  function ToggleSignInput(s: State, nt: NumberText): (t: State)
    ensures t == s.(display := t.display)
    ensures exists v :: t.display == nt.format(v) && Neg(v) == nt.parse(s.display)
  {
    var v := ToggleSign(nt.parse(s.display));
    s.(display := nt.format(v))
  }

  /** 'percentage': the display shows the value divided by 100; nothing else changes. */
  function PercentageInput(s: State, nt: NumberText): (t: State)
    ensures t == s.(display := t.display)
    ensures nt.parse(s.display).Fin? ==> t.display == nt.format(Fin(nt.parse(s.display).r / 100.0))
    ensures !nt.parse(s.display).Fin? ==> t.display == nt.format(nt.parse(s.display))
  {
    s.(display := nt.format(Percentage(nt.parse(s.display))))
  }

  /** `handleFunctionInput(func)` for the functions both screens handle;
      any other name leaves the state as it is. */
  function FunctionInput(s: State, func: string, nt: NumberText): (r: Result<Transition, CalcError>)
    ensures func == "clear" ==> r == Success(Transition(ClearInput(s), None))
    ensures func == "toggle-sign" ==> r == Success(Transition(ToggleSignInput(s, nt), None))
    ensures func == "percentage" ==> r == Success(Transition(PercentageInput(s, nt), None))
    ensures func == "=" ==> r == EqualsInput(s, nt)
    ensures func !in {"clear", "toggle-sign", "percentage", "="} ==> r == Success(Transition(s, None))
    ensures r.Success? && Consistent(s) ==> Consistent(r.value.state)
  {
    match func
    case "clear" => Success(Transition(ClearInput(s), None))
    case "toggle-sign" => Success(Transition(ToggleSignInput(s, nt), None))
    case "percentage" => Success(Transition(PercentageInput(s, nt), None))
    case "=" => EqualsInput(s, nt)
    case _ => Success(Transition(s, None))
  }
}

=== FILE: division.dfy ===
/** Euclidean division facts shared by the bit-level and the radix models. */
module Division {
  /** Division with remainder has one answer. */
  lemma ModUnique(x: int, h: int, m: nat, b: nat)
    requires m >= 1 && x == h * m + b && b < m
    ensures x % m == b && x / m == h
  {
    var h', b' := x / m, x % m;
    assert x == h' * m + b';
    assert (h' - h) * m == b - b';
    MulMagnitude(h' - h, m);
  }

  lemma MulMagnitude(d: int, m: nat)
    requires m >= 1
    ensures d >= 1 ==> d * m >= m
    ensures d <= -1 ==> d * m + m <= 0
  {
  }

  /** Appending a digit below the radix: the quotient and remainder give
      the parts back. */
  lemma DivOfSum(q: nat, d: nat, m: nat)
    requires 1 <= m && d < m
    ensures (q * m + d) / m == q
    ensures (q * m + d) % m == d
  {
    ModUnique(q * m + d, q, m, d);
  }
}

=== FILE: equation_screen.dfy ===
/** The equation solver screen: coefficient and constant edits and the
    quadratic formula's case analysis on the discriminant. The square root
    is a parameter. */
module EquationScreen {
  import opened Outcomes
  import opened JsNumber

  /** An array element: a value, or a hole left by writing past the end. */
  datatype Slot = Hole | Value(n: Num)

  datatype Screen = Screen(coefficients: seq<Slot>, constants: seq<Slot>)

  function InitialScreen(): (s: Screen)
    ensures |s.coefficients| == 2 && |s.constants| == 2
  {
    Screen([Value(Fin(1.0)), Value(Fin(1.0))], [Value(Fin(0.0)), Value(Fin(0.0))])
  }

  /** `copy[index] = parseFloat(value) || 0` on a copy of the array. */
  function SetAt(a: seq<Slot>, index: nat, parsed: Num): (r: seq<Slot>)
    ensures |r| == if index < |a| then |a| else index + 1
    ensures r[index] == Value(OrZero(parsed))
    ensures forall j :: 0 <= j < |a| && j != index ==> r[j] == a[j]
    ensures forall j :: |a| <= j < index ==> r[j] == Hole
  {
    if index < |a| then a[index := Value(OrZero(parsed))]
    else a + seq(index - |a|, _ => Hole) + [Value(OrZero(parsed))]
  }

  /** `updateCoefficient(index, value)` with `parseFloat(value)` given. */
  function UpdateCoefficient(s: Screen, index: nat, parsed: Num): (r: Screen)
    ensures r.coefficients == SetAt(s.coefficients, index, parsed) && r.constants == s.constants
  {
    s.(coefficients := SetAt(s.coefficients, index, parsed))
  }

  /** `updateConstant(index, value)` with `parseFloat(value)` given. */
  function UpdateConstant(s: Screen, index: nat, parsed: Num): (r: Screen)
    ensures r.constants == SetAt(s.constants, index, parsed) && r.coefficients == s.coefficients
  {
    s.(constants := SetAt(s.constants, index, parsed))
  }

  /** What `solveQuadratic` reports; the text rounds each number with
      `toFixed(4)`, which is not modelled. */
  datatype Report =
    | NeedThreeCoefficients
    | TwoRoots(x1: real, x2: real)
    | DoubleRoot(x: real)
    | ConjugatePair(re: real, im: real)
    | LeadingZero      // a = 0: the formula divides by zero
    | NotFinite        // a hole, NaN or an infinity among a, b, c

  function Discriminant(a: real, b: real, c: real): real {
    b * b - 4.0 * a * c
  }

  predicate IsRoot(a: real, b: real, c: real, x: real) {
    a * x * x + b * x + c == 0.0
  }

  /** (re + im i) solves a z^2 + b z + c = 0: real and imaginary parts. */
  predicate IsComplexRoot(a: real, b: real, c: real, re: real, im: real) {
    a * (re * re - im * im) + b * re + c == 0.0 && 2.0 * a * re * im + b * im == 0.0
  }

  /** The first three coefficients when all are finite numbers. */
  function Leading(s: Screen): (r: Option<(real, real, real)>)
    ensures r.Some? <==> |s.coefficients| >= 3
                         && (forall k :: 0 <= k < 3 ==> s.coefficients[k].Value? && s.coefficients[k].n.Fin?)
    ensures r.Some? ==> r.value == (s.coefficients[0].n.r, s.coefficients[1].n.r, s.coefficients[2].n.r)
  {
    if |s.coefficients| < 3 then None
    else
      match (s.coefficients[0], s.coefficients[1], s.coefficients[2])
      case (Value(Fin(a)), Value(Fin(b)), Value(Fin(c))) => Some((a, b, c))
      case _ => None
  }

  /** `solveQuadratic()` with `Math.sqrt` as the parameter `sqrt`. */
  function SolveQuadratic(s: Screen, sqrt: real -> real): (r: Report)
    ensures |s.coefficients| < 3 <==> r == NeedThreeCoefficients
    ensures r == NotFinite <==> |s.coefficients| >= 3 && Leading(s).None?
    ensures r.TwoRoots? || r.DoubleRoot? || r.ConjugatePair? || r.LeadingZero? <==> Leading(s).Some?
    ensures Leading(s).Some? ==>
              var (a, b, c) := Leading(s).value;
              (r.LeadingZero? <==> a == 0.0)
              && (r.TwoRoots? <==> a != 0.0 && Discriminant(a, b, c) > 0.0)
              && (r.DoubleRoot? <==> a != 0.0 && Discriminant(a, b, c) == 0.0)
              && (r.ConjugatePair? <==> a != 0.0 && Discriminant(a, b, c) < 0.0)
  {
    if |s.coefficients| < 3 then NeedThreeCoefficients
    else
      match Leading(s)
      case None => NotFinite
      case Some((a, b, c)) =>
        if a == 0.0 then LeadingZero
        else
          var d := Discriminant(a, b, c);
          if d > 0.0 then TwoRoots((-b + sqrt(d)) / (2.0 * a), (-b - sqrt(d)) / (2.0 * a))
          else if d == 0.0 then DoubleRoot(-b / (2.0 * a))
          else ConjugatePair(-b / (2.0 * a), sqrt(-d) / (2.0 * a))
  }

  // ---------------------------------------------------------------------
  // Properties

  /** 4a (a x^2 + b x + c) written through u = 2 a x. */
  lemma Scaled(a: real, b: real, c: real, x: real)
    ensures 4.0 * a * (a * x * x + b * x + c) == (2.0 * a * x) * (2.0 * a * x) + 2.0 * b * (2.0 * a * x) + 4.0 * a * c
  {
  }

  lemma RootFromScaled(a: real, b: real, c: real, x: real, u: real)
    requires a != 0.0 && u == 2.0 * a * x
    requires u * u + 2.0 * b * u + 4.0 * a * c == 0.0
    ensures IsRoot(a, b, c, x)
  {
    Scaled(a, b, c, x);
    assert 4.0 * a * (a * x * x + b * x + c) == 0.0;
  }

  /** With a non-zero and a positive discriminant, the two reported numbers
      are distinct roots. */
  lemma TwoRootsSolve(a: real, b: real, c: real, t: real)
    requires a != 0.0 && Discriminant(a, b, c) > 0.0 && t * t == Discriminant(a, b, c)
    ensures IsRoot(a, b, c, (-b + t) / (2.0 * a))
    ensures IsRoot(a, b, c, (-b - t) / (2.0 * a))
    ensures (-b + t) / (2.0 * a) != (-b - t) / (2.0 * a)
  {
    var x1, x2 := (-b + t) / (2.0 * a), (-b - t) / (2.0 * a);
    assert 2.0 * a * x1 == -b + t;
    assert 2.0 * a * x2 == -b - t;
    assert (-b + t) * (-b + t) + 2.0 * b * (-b + t) + 4.0 * a * c == t * t - Discriminant(a, b, c);
    assert (-b - t) * (-b - t) + 2.0 * b * (-b - t) + 4.0 * a * c == t * t - Discriminant(a, b, c);
    RootFromScaled(a, b, c, x1, -b + t);
    RootFromScaled(a, b, c, x2, -b - t);
    assert t != 0.0;
  }

  /** With a zero discriminant the single root is -b / 2a. */
  lemma DoubleRootSolves(a: real, b: real, c: real)
    requires a != 0.0 && Discriminant(a, b, c) == 0.0
    ensures IsRoot(a, b, c, -b / (2.0 * a))
  {
    var x := -b / (2.0 * a);
    assert x * (2.0 * a) == -b;
    assert 2.0 * a * x == -b;
    assert (-b) * (-b) + 2.0 * b * (-b) + 4.0 * a * c == -Discriminant(a, b, c);
    RootFromScaled(a, b, c, x, -b);
  }

  /** With a negative discriminant, -b/2a + (sqrt(-d)/2a) i is a complex
      root (and so is its conjugate, since the imaginary part enters squared
      or multiplied by a zero factor). */
  lemma ConjugatePairSolves(a: real, b: real, c: real, t: real)
    requires a != 0.0 && Discriminant(a, b, c) < 0.0 && t * t == -Discriminant(a, b, c)
    ensures IsComplexRoot(a, b, c, -b / (2.0 * a), t / (2.0 * a))
    ensures IsComplexRoot(a, b, c, -b / (2.0 * a), -(t / (2.0 * a)))
  {
    var re, im := -b / (2.0 * a), t / (2.0 * a);
    var u, w := 2.0 * a * re, 2.0 * a * im;
    assert u == -b && w == t;
    assert 4.0 * a * (a * (re * re - im * im) + b * re + c) == u * u - w * w + 2.0 * b * u + 4.0 * a * c;
    assert u * u - w * w + 2.0 * b * u + 4.0 * a * c == 0.0;
    assert 2.0 * a * re * im + b * im == (u + b) * im;
  }

  /** The reported numbers solve the equation whenever `sqrt` is a square
      root on the discriminant it is given. */
  lemma ReportsSolve(s: Screen, sqrt: real -> real)
    requires Leading(s).Some?
    requires forall d :: d >= 0.0 ==> sqrt(d) * sqrt(d) == d
    ensures var r := SolveQuadratic(s, sqrt);
            var (a, b, c) := Leading(s).value;
            (r.TwoRoots? ==> IsRoot(a, b, c, r.x1) && IsRoot(a, b, c, r.x2) && r.x1 != r.x2)
            && (r.DoubleRoot? ==> IsRoot(a, b, c, r.x))
            && (r.ConjugatePair? ==> r.re == -b / (2.0 * a) && IsComplexRoot(a, b, c, r.re, r.im) && IsComplexRoot(a, b, c, r.re, -r.im))
  {
    var r := SolveQuadratic(s, sqrt);
    var (a, b, c) := Leading(s).value;
    if a != 0.0 {
      var d := Discriminant(a, b, c);
      if d > 0.0 {
        TwoRootsSolve(a, b, c, sqrt(d));
      } else if d == 0.0 {
        DoubleRootSolves(a, b, c);
      } else {
        ConjugatePairSolves(a, b, c, sqrt(-d));
      }
    }
  }

  /** Writing index 3 into the two initial coefficients leaves a hole at
      index 2, and the quadratic formula then has no finite b to work with. */
  lemma HoleExample(parsed: Num, sqrt: real -> real)
    requires parsed == Fin(5.0)
    ensures UpdateCoefficient(InitialScreen(), 3, parsed).coefficients
            == [Value(Fin(1.0)), Value(Fin(1.0)), Hole, Value(Fin(5.0))]
    ensures SolveQuadratic(UpdateCoefficient(InitialScreen(), 3, parsed), sqrt) == NotFinite
  {
    var cs := UpdateCoefficient(InitialScreen(), 3, parsed).coefficients;
    assert cs[2] == Hole;
  }
}

=== FILE: graphing.dfy ===
/** The graphing screen's list of functions: add, remove, show/hide, and
    the filter that keeps the plotted points inside the window. The
    expression evaluator and the sampling of x are parameters. */
module Graphing {
  import opened Outcomes
  import opened JsNumber

  datatype GraphFunction = GraphFunction(id: string, expression: string, color: string, visible: bool)

  datatype Graph = Graph(functions: seq<GraphFunction>, current: string)

  /** The four line colours, cycled by list length. */
  const Palette: seq<string> := ["#FF9500", "#007AFF", "#34C759", "#FF3B30"]

  function InitialGraph(): (g: Graph)
    ensures |g.functions| == 1 && g.functions[0].expression == "x" && g.functions[0].visible
    ensures g.functions[0].color == Palette[0] && g.current == "x"
  {
    Graph([GraphFunction("1", "x", Palette[0], true)], "x")
  }

  // ---------------------------------------------------------------------
  // String.prototype.trim

  /** The white space and line terminators `trim` removes. */
  predicate IsSpace(c: char) {
    c == '\t' || c == '\n' || c == '\U{B}' || c == '\U{C}' || c == '\r' || c == ' '
    || c == '\U{A0}' || c == '\U{1680}' || ('\U{2000}' <= c <= '\U{200A}')
    || c == '\U{2028}' || c == '\U{2029}' || c == '\U{202F}' || c == '\U{205F}'
    || c == '\U{3000}' || c == '\U{FEFF}'
  }

  /** The number of white-space characters `s` starts with. */
  function LeadingSpaces(s: string): (n: nat)
    ensures n <= |s|
    ensures forall k :: 0 <= k < n ==> IsSpace(s[k])
    ensures n < |s| ==> !IsSpace(s[n])
  {
    if |s| > 0 && IsSpace(s[0]) then 1 + LeadingSpaces(s[1..]) else 0
  }

  /** The number of white-space characters `s` ends with. */
  function TrailingSpaces(s: string): (n: nat)
    ensures n <= |s|
    ensures forall k :: |s| - n <= k < |s| ==> IsSpace(s[k])
    ensures n < |s| ==> !IsSpace(s[|s| - n - 1])
  {
    if |s| > 0 && IsSpace(s[|s| - 1]) then 1 + TrailingSpaces(s[..|s| - 1]) else 0
  }

  /** `s.trim()`: the text between the leading and the trailing white space. */
  function Trim(s: string): (r: string)
    ensures r == [] <==> forall k :: 0 <= k < |s| ==> IsSpace(s[k])
    ensures r != [] ==>
              LeadingSpaces(s) + |r| <= |s| && r == s[LeadingSpaces(s)..LeadingSpaces(s) + |r|]
              && !IsSpace(r[0]) && !IsSpace(r[|r| - 1])
              && forall k :: LeadingSpaces(s) + |r| <= k < |s| ==> IsSpace(s[k])
  {
    var a := LeadingSpaces(s);
    if a == |s| then []
    else
      var b := TrailingSpaces(s);
      assert a < |s| - b;
      s[a..|s| - b]
  }

  // ---------------------------------------------------------------------
  // The list handlers

  /** `addFunction()`, with `Date.now().toString()` as the parameter `id`. */
  function AddFunction(g: Graph, id: string): (r: Graph)
    ensures Trim(g.current) == [] ==> r == g
    ensures Trim(g.current) != [] ==>
              r.current == ""
              && |r.functions| == |g.functions| + 1
              && r.functions[..|g.functions|] == g.functions
              && r.functions[|g.functions|] == GraphFunction(id, Trim(g.current), Palette[|g.functions| % 4], true)
  {
    var expression := Trim(g.current);
    if expression == [] then g
    else
      Graph(g.functions + [GraphFunction(id, expression, Palette[|g.functions| % |Palette|], true)], "")
  }

  /** `removeFunction(id)`: the entries with another id, in order. */
  function RemoveFunction(fs: seq<GraphFunction>, id: string): (r: seq<GraphFunction>)
    ensures forall f :: f in r ==> f in fs && f.id != id
    ensures forall f :: f in fs && f.id != id ==> f in r
    ensures |r| <= |fs|
  {
    if |fs| == 0 then []
    else if fs[0].id == id then RemoveFunction(fs[1..], id)
    else [fs[0]] + RemoveFunction(fs[1..], id)
  }

  /** Removal works piecewise, so the survivors keep their order. */
  lemma {:induction false} RemoveConcat(a: seq<GraphFunction>, b: seq<GraphFunction>, id: string)
    ensures RemoveFunction(a + b, id) == RemoveFunction(a, id) + RemoveFunction(b, id)
  {
    if |a| > 0 {
      assert (a + b)[0] == a[0] && (a + b)[1..] == a[1..] + b;
      RemoveConcat(a[1..], b, id);
    } else {
      assert a + b == b;
    }
  }

  /** Removing an id no entry carries changes nothing. */
  lemma {:induction false} RemoveAbsent(fs: seq<GraphFunction>, id: string)
    requires forall k :: 0 <= k < |fs| ==> fs[k].id != id
    ensures RemoveFunction(fs, id) == fs
  {
    if |fs| > 0 {
      RemoveAbsent(fs[1..], id);
    }
  }

  /** The number of entries carrying `id`. */
  function CountId(fs: seq<GraphFunction>, id: string): nat {
    if |fs| == 0 then 0 else (if fs[0].id == id then 1 else 0) + CountId(fs[1..], id)
  }

  /** Removal takes out exactly the entries carrying the id. */
  lemma {:induction false} RemoveCount(fs: seq<GraphFunction>, id: string)
    ensures |RemoveFunction(fs, id)| + CountId(fs, id) == |fs|
  {
    if |fs| > 0 {
      RemoveCount(fs[1..], id);
    }
  }

  /** Removing a freshly added function by its new id restores the list. */
  lemma AddThenRemove(g: Graph, id: string)
    requires forall k :: 0 <= k < |g.functions| ==> g.functions[k].id != id
    ensures RemoveFunction(AddFunction(g, id).functions, id) == g.functions
  {
    var r := AddFunction(g, id);
    RemoveAbsent(g.functions, id);
    if Trim(g.current) != [] {
      assert r.functions == g.functions + [r.functions[|g.functions|]];
      RemoveConcat(g.functions, [r.functions[|g.functions|]], id);
    }
  }

  /** `toggleFunction(id)`: the matching entries flip `visible`. */
  function ToggleFunction(fs: seq<GraphFunction>, id: string): (r: seq<GraphFunction>)
    ensures |r| == |fs|
    ensures forall k :: 0 <= k < |fs| && fs[k].id != id ==> r[k] == fs[k]
    ensures forall k :: 0 <= k < |fs| && fs[k].id == id ==>
              r[k].visible == !fs[k].visible && r[k].(visible := fs[k].visible) == fs[k]
  {
    seq(|fs|, k requires 0 <= k < |fs| => if fs[k].id == id then fs[k].(visible := !fs[k].visible) else fs[k])
  }

  /** Toggling the same id twice restores the list. */
  lemma ToggleTwice(fs: seq<GraphFunction>, id: string)
    ensures ToggleFunction(ToggleFunction(fs, id), id) == fs
  {
  }

  // ---------------------------------------------------------------------
  // The points generateGraphPoints keeps

  datatype Point = Point(x: real, y: real, color: string)

  /** `!isNaN(y) && isFinite(y) && y >= yMin && y <= yMax` */
  predicate Plotted(y: Num, yMin: Num, yMax: Num) {
    y.Fin? && LessEq(yMin, y) && LessEq(y, yMax)
  }

  /** The points of one function at the sample positions `xs`; `eval`
      answers None where `evaluateFunction` throws. */
  function CurvePoints(f: GraphFunction, xs: seq<real>, eval: (string, real) -> Option<Num>, yMin: Num, yMax: Num): (ps: seq<Point>)
    ensures |ps| <= |xs|
    ensures forall p :: p in ps ==>
              p.color == f.color && p.x in xs && eval(f.expression, p.x) == Some(Fin(p.y)) && Plotted(Fin(p.y), yMin, yMax)
    ensures forall x :: x in xs && eval(f.expression, x).Some? && Plotted(eval(f.expression, x).value, yMin, yMax) ==>
              Point(x, eval(f.expression, x).value.r, f.color) in ps
  {
    if |xs| == 0 then []
    else
      var y := eval(f.expression, xs[0]);
      var rest := CurvePoints(f, xs[1..], eval, yMin, yMax);
      if y.Some? && Plotted(y.value, yMin, yMax) then [Point(xs[0], y.value.r, f.color)] + rest else rest
  }

  /** `generateGraphPoints()` over the functions in list order. */
  function GraphPoints(fs: seq<GraphFunction>, xs: seq<real>, eval: (string, real) -> Option<Num>, yMin: Num, yMax: Num): (ps: seq<Point>)
    ensures forall p :: p in ps ==>
              exists f :: f in fs && f.visible && p.color == f.color && p.x in xs
                          && eval(f.expression, p.x) == Some(Fin(p.y)) && Plotted(Fin(p.y), yMin, yMax)
    ensures forall f, x :: f in fs && f.visible && x in xs && eval(f.expression, x).Some?
                           && Plotted(eval(f.expression, x).value, yMin, yMax) ==>
              Point(x, eval(f.expression, x).value.r, f.color) in ps
  {
    if |fs| == 0 then []
    else
      var rest := GraphPoints(fs[1..], xs, eval, yMin, yMax);
      assert forall f :: f in fs[1..] ==> f in fs;
      if fs[0].visible then CurvePoints(fs[0], xs, eval, yMin, yMax) + rest else rest
  }

  /** Hidden functions contribute nothing: hiding one leaves the points of
      the others. */
  lemma {:induction false} HiddenContributeNothing(fs: seq<GraphFunction>, xs: seq<real>, eval: (string, real) -> Option<Num>, yMin: Num, yMax: Num)
    requires forall k :: 0 <= k < |fs| ==> !fs[k].visible
    ensures GraphPoints(fs, xs, eval, yMin, yMax) == []
  {
    if |fs| > 0 {
      HiddenContributeNothing(fs[1..], xs, eval, yMin, yMax);
    }
  }
}

=== FILE: home.dfy ===
/** The home screen: the shared calculator transitions plus the history
    list that records every evaluation, newest first, at most 50 long. */
module HomeScreen {
  import opened Outcomes
  import opened JsNumber
  import opened Arithmetic
  import opened CalculatorCore
  import Keypads

  const HistoryLimit: nat := 50

  /** `HistoryEntry`; the expression is kept as the evaluation it shows. */
  datatype HistoryEntry = HistoryEntry(id: string, expression: Evaluation, result: string, timestamp: int, mode: Mode)

  /** `Date.now()` as an id and the entry's timestamp, given by the caller. */
  datatype Clock = Clock(id: string, timestamp: int)

  datatype Home = Home(screen: State, history: seq<HistoryEntry>)

  function InitialHome(): (h: Home)
    ensures h.screen == Initial(Standard) && h.history == []
  {
    Home(Initial(Standard), [])
  }

  /** `addToHistory`: the new entry first, then at most 49 older ones. */
  function AddToHistory(history: seq<HistoryEntry>, entry: HistoryEntry): (h: seq<HistoryEntry>)
    ensures |h| == if |history| < HistoryLimit then |history| + 1 else HistoryLimit
    ensures h[0] == entry
    ensures forall i :: 1 <= i < |h| ==> h[i] == history[i - 1]
  {
    [entry] + history[..if |history| < HistoryLimit - 1 then |history| else HistoryLimit - 1]
  }

  /** Applies a transition and records its evaluation, if any. */
  function Record(h: Home, t: Transition, nt: NumberText, clock: Clock): (r: Home)
    ensures r.screen == t.state
    ensures t.evaluated.None? ==> r.history == h.history
    ensures t.evaluated.Some? ==> r.history == AddToHistory(h.history,
              HistoryEntry(clock.id, t.evaluated.value, nt.format(t.evaluated.value.result), clock.timestamp, h.screen.mode))
  {
    match t.evaluated
    case None => Home(t.state, h.history)
    case Some(e) => Home(t.state, AddToHistory(h.history, HistoryEntry(clock.id, e, nt.format(e.result), clock.timestamp, h.screen.mode)))
  }

  /** `handleButtonPress(type, value)`. A failure is the division-by-zero
      error `calculate` throws, raised before any state or history update. */
  function Press(h: Home, kind: string, value: string, nt: NumberText, clock: Clock): (r: Result<Home, CalcError>)
    ensures kind == "number" ==> r == Success(Home(NumberInput(h.screen, value), h.history))
    ensures kind == "operator" ==> r == (match OperatorInput(h.screen, value, nt)
                                         case Success(t) => Success(Record(h, t, nt, clock))
                                         case Failure(e) => Failure(e))
    ensures kind == "function" ==> r == (match FunctionInput(h.screen, value, nt)
                                         case Success(t) => Success(Record(h, t, nt, clock))
                                         case Failure(e) => Failure(e))
    ensures kind !in {"number", "operator", "function"} ==> r == Success(h)
    ensures r.Success? && Consistent(h.screen) ==> Consistent(r.value.screen)
    ensures r.Success? && |h.history| <= HistoryLimit ==> |r.value.history| <= HistoryLimit
    ensures r.Success? ==> r.value.history == h.history || exists e :: r.value.history == AddToHistory(h.history, e)
    ensures r.Failure? ==> kind in {"operator", "function"} && h.screen.operation.Some?
                           && OpOfTag(h.screen.operation.value).Divide? && nt.parse(h.screen.display) == Fin(0.0)
  {
    match kind
    case "number" => Success(Home(NumberInput(h.screen, value), h.history))
    case "operator" =>
      var t :- OperatorInput(h.screen, value, nt);
      Success(Record(h, t, nt, clock))
    case "function" =>
      var t :- FunctionInput(h.screen, value, nt);
      Success(Record(h, t, nt, clock))
    case _ => Success(h)
  }

  /** A sequence of presses, stopping at the first one that throws. */
  function PressAll(h: Home, presses: seq<Keypads.Button>, nt: NumberText, clock: Clock): (r: Result<Home, CalcError>)
    ensures r.Failure? ==> exists i :: 0 <= i < |presses| && presses[i].kind in {"operator", "function"}
    decreases |presses|
  {
    if presses == [] then Success(h)
    else
      var h' :- Press(h, presses[0].kind, presses[0].value, nt, clock);
      var r := PressAll(h', presses[1..], nt, clock);
      assert r.Failure? ==> exists i :: 1 <= i < |presses| && presses[i].kind in {"operator", "function"} by {
        if r.Failure? {
          var i :| 0 <= i < |presses[1..]| && presses[1..][i].kind in {"operator", "function"};
          assert presses[i + 1] == presses[1..][i];
        }
      }
      r
  }

  /** Choosing a history entry shows its result and starts a fresh operand. */
  function HistorySelect(h: Home, entry: HistoryEntry): (r: Home)
    ensures r.screen.display == entry.result && r.screen.waitingForNewValue
    ensures r.history == h.history
    ensures r.screen == h.screen.(display := r.screen.display, waitingForNewValue := true)
  {
    h.(screen := h.screen.(display := entry.result, waitingForNewValue := true))
  }

  function ClearHistory(h: Home): (r: Home)
    ensures r.history == [] && r.screen == h.screen
  {
    h.(history := [])
  }

  // ---------------------------------------------------------------------
  // Properties

  /** The state reached by any sequence of presses from the initial screen
      keeps a pending operand exactly when an operation is stored, and never
      holds more than 50 history entries. */
  lemma {:induction false} PressAllKeepsInvariants(h: Home, presses: seq<Keypads.Button>, nt: NumberText, clock: Clock)
    requires Consistent(h.screen) && |h.history| <= HistoryLimit
    ensures PressAll(h, presses, nt, clock).Success? ==>
              Consistent(PressAll(h, presses, nt, clock).value.screen)
              && |PressAll(h, presses, nt, clock).value.history| <= HistoryLimit
    decreases |presses|
  {
    if presses != [] {
      var r := Press(h, presses[0].kind, presses[0].value, nt, clock);
      if r.Success? {
        PressAllKeepsInvariants(r.value, presses[1..], nt, clock);
      }
    }
  }

  function Key(text: string, kind: string): Keypads.Button {
    Keypads.Button(text, kind, text)
  }

  /** Pressing a + b is pressing a, then b from where a left off. */
  lemma {:induction false} PressAllAppend(h: Home, a: seq<Keypads.Button>, b: seq<Keypads.Button>, nt: NumberText, clock: Clock)
    ensures PressAll(h, a + b, nt, clock)
         == match PressAll(h, a, nt, clock)
            case Success(h') => PressAll(h', b, nt, clock)
            case Failure(e) => Failure(e)
    decreases |a|
  {
    if a == [] {
      assert a + b == b;
    } else {
      assert (a + b)[0] == a[0] && (a + b)[1..] == a[1..] + b;
      var r := Press(h, a[0].kind, a[0].value, nt, clock);
      if r.Success? {
        PressAllAppend(r.value, a[1..], b, nt, clock);
      }
    }
  }

  /** 2 + 3 + 4 = shows 9: the second '+' evaluates 2 + 3 and the '='
      evaluates 5 + 4, each adding one history entry, newest first. */
  lemma ChainedEvaluation(nt: NumberText, clock: Clock)
    requires nt.parse("2") == Fin(2.0) && nt.parse("3") == Fin(3.0) && nt.parse("4") == Fin(4.0)
    ensures var r := PressAll(InitialHome(), [Key("2", "number"), Key("+", "operator"), Key("3", "number"),
                                              Key("+", "operator"), Key("4", "number"), Key("=", "function")], nt, clock);
            r.Success? && r.value.screen.display == nt.format(Fin(9.0)) && |r.value.history| == 2
            && r.value.history[0].expression == Evaluation(Fin(5.0), "+", Fin(4.0), Fin(9.0))
            && r.value.history[1].expression == Evaluation(Fin(2.0), "+", Fin(3.0), Fin(5.0))
            && r.value.screen.previousValue.None? && r.value.screen.operation.None?
  {
    var first := [Key("2", "number"), Key("+", "operator"), Key("3", "number"), Key("+", "operator")];
    var rest := [Key("4", "number"), Key("=", "function")];
    assert first + rest == [Key("2", "number"), Key("+", "operator"), Key("3", "number"),
                            Key("+", "operator"), Key("4", "number"), Key("=", "function")];
    PressAllAppend(InitialHome(), first, rest, nt, clock);
    ChainedFirstSum(nt, clock);
    ChainedSecondSum(PressAll(InitialHome(), first, nt, clock).value, nt, clock);
  }

  /** 2 + 3 + leaves 5 pending under '+', with one history entry. */
  lemma ChainedFirstSum(nt: NumberText, clock: Clock)
    requires nt.parse("2") == Fin(2.0) && nt.parse("3") == Fin(3.0)
    ensures var r := PressAll(InitialHome(), [Key("2", "number"), Key("+", "operator"), Key("3", "number"),
                                              Key("+", "operator")], nt, clock);
            r.Success? && r.value.screen.previousValue == Some(Fin(5.0)) && r.value.screen.operation == Some("+")
            && r.value.screen.waitingForNewValue
            && |r.value.history| == 1 && r.value.history[0].expression == Evaluation(Fin(2.0), "+", Fin(3.0), Fin(5.0))
  {
    var h0 := InitialHome();
    var h1 := Press(h0, "number", "2", nt, clock).value;
    assert h1.screen.display == "2" && h1.history == [];
    var h2 := Press(h1, "operator", "+", nt, clock).value;
    assert h2.screen.previousValue == Some(Fin(2.0)) && h2.history == [];
    var h3 := Press(h2, "number", "3", nt, clock).value;
    assert h3.screen.display == "3" && !h3.screen.waitingForNewValue;
    var r4 := Press(h3, "operator", "+", nt, clock);
    assert Calculate(Fin(2.0), Fin(3.0), Plus) == Success(Fin(5.0));
    assert r4.Success?;
    var presses := [Key("2", "number"), Key("+", "operator"), Key("3", "number"), Key("+", "operator")];
    assert PressAll(r4.value, presses[4..], nt, clock) == r4;
    assert PressAll(h3, presses[3..], nt, clock) == r4;
    assert PressAll(h2, presses[2..], nt, clock) == r4;
    assert PressAll(h1, presses[1..], nt, clock) == r4;
  }

  /** From 5 pending under '+', pressing 4 = shows 9 and records 5 + 4. */
  lemma ChainedSecondSum(h: Home, nt: NumberText, clock: Clock)
    requires nt.parse("4") == Fin(4.0)
    requires h.screen.previousValue == Some(Fin(5.0)) && h.screen.operation == Some("+") && h.screen.waitingForNewValue
    requires |h.history| == 1 && h.history[0].expression == Evaluation(Fin(2.0), "+", Fin(3.0), Fin(5.0))
    ensures var r := PressAll(h, [Key("4", "number"), Key("=", "function")], nt, clock);
            r.Success? && r.value.screen.display == nt.format(Fin(9.0)) && |r.value.history| == 2
            && r.value.history[0].expression == Evaluation(Fin(5.0), "+", Fin(4.0), Fin(9.0))
            && r.value.history[1].expression == Evaluation(Fin(2.0), "+", Fin(3.0), Fin(5.0))
            && r.value.screen.previousValue.None? && r.value.screen.operation.None?
  {
    var h5 := Press(h, "number", "4", nt, clock).value;
    assert h5.screen.display == "4";
    var r6 := Press(h5, "function", "=", nt, clock);
    assert Calculate(Fin(5.0), Fin(4.0), Plus) == Success(Fin(9.0));
    assert r6.Success?;
    var presses := [Key("4", "number"), Key("=", "function")];
    assert PressAll(r6.value, presses[2..], nt, clock) == r6;
    assert PressAll(h5, presses[1..], nt, clock) == r6;
  }

  /** Division by zero on a pending '÷' throws from '=' and from a chained
      operator alike. */
  lemma DivisionByZeroThrows(h: Home, operator: string, nt: NumberText, clock: Clock)
    requires h.screen.previousValue.Some? && h.screen.operation == Some(DivideTag) && !h.screen.waitingForNewValue
    requires nt.parse(h.screen.display) == Fin(0.0)
    ensures Press(h, "function", "=", nt, clock) == Failure(DivisionByZero)
    ensures Press(h, "operator", operator, nt, clock) == Failure(DivisionByZero)
  {
  }

  predicate NoDivisionPending(s: State) {
    s.operation.None? || !OpOfTag(s.operation.value).Divide?
  }

  /** As written, no sequence of presses on the home grid can throw: its
      division key never stores the division tag. */
  lemma {:induction false} HomePadNeverThrows(h: Home, presses: seq<Keypads.Button>, nt: NumberText, clock: Clock)
    requires NoDivisionPending(h.screen)
    requires forall b :: b in presses ==> b in Keypads.HomePad
    ensures PressAll(h, presses, nt, clock).Success?
    decreases |presses|
  {
    if presses != [] {
      var b := presses[0];
      Keypads.HomePadLacksDivideAndTimes();
      assert !OpOfTag(b.value).Divide?;
      PressKeepsNoDivision(h, b, nt, clock);
      var r := Press(h, b.kind, b.value, nt, clock);
      HomePadNeverThrows(r.value, presses[1..], nt, clock);
    }
  }

  /** A key whose value is not the division tag cannot throw, and leaves no
      division pending. */
  lemma PressKeepsNoDivision(h: Home, b: Keypads.Button, nt: NumberText, clock: Clock)
    requires NoDivisionPending(h.screen)
    requires !OpOfTag(b.value).Divide?
    ensures Press(h, b.kind, b.value, nt, clock).Success?
    ensures NoDivisionPending(Press(h, b.kind, b.value, nt, clock).value.screen)
  {
    if b.kind == "function" {
      assert FunctionInput(h.screen, b.value, nt).Success?;
    }
  }

  /** Digit a, an operator key, digit b, '=' shows the operator applied to
      the two parsed digits. */
  lemma {:induction false} SingleOperation(nt: NumberText, clock: Clock, a: string, op: Keypads.Button, b: string)
    requires op.kind == "operator" && op.value != ""
    requires Calculate(nt.parse(a), nt.parse(b), OpOfTag(op.value)).Success?
    ensures var r := PressAll(InitialHome(), [Key(a, "number"), op, Key(b, "number"), Key("=", "function")], nt, clock);
            r.Success? && r.value.screen.display == nt.format(Calculate(nt.parse(a), nt.parse(b), OpOfTag(op.value)).value)
  {
    var h1 := Press(InitialHome(), "number", a, nt, clock).value;
    assert h1.screen.display == a && !h1.screen.waitingForNewValue;
    var h2 := Press(h1, op.kind, op.value, nt, clock).value;
    assert h2.screen.operation == Some(op.value) && Pending(h2.screen) && h2.screen.previousValue == Some(nt.parse(a));
    var h3 := Press(h2, "number", b, nt, clock).value;
    assert h3.screen.display == b && !h3.screen.waitingForNewValue;
    var r4 := Press(h3, "function", "=", nt, clock);
    assert r4.Success? && r4.value.screen.display == nt.format(Calculate(nt.parse(a), nt.parse(b), OpOfTag(op.value)).value);
    var presses := [Key(a, "number"), op, Key(b, "number"), Key("=", "function")];
    assert PressAll(r4.value, presses[4..], nt, clock) == r4;
    assert PressAll(h3, presses[3..], nt, clock) == r4;
    assert PressAll(h2, presses[2..], nt, clock) == r4;
    assert PressAll(h1, presses[1..], nt, clock) == r4;
  }

  /** As written: 6, the home grid's multiplication key, 7, '=' shows 7,
      because the key's value takes `calculate`'s default branch. */
  lemma TimesKeyAsWritten(nt: NumberText, clock: Clock)
    requires nt.parse("6") == Fin(6.0) && nt.parse("7") == Fin(7.0)
    ensures var r := PressAll(InitialHome(), [Key("6", "number"), Keypads.HomePad[Keypads.TimesKey],
                                              Key("7", "number"), Key("=", "function")], nt, clock);
            r.Success? && r.value.screen.display == nt.format(Fin(7.0))
  {
    Keypads.HomeOperatorsFallThrough(Fin(6.0), Fin(7.0));
    SingleOperation(nt, clock, "6", Keypads.HomeTimesButton, "7");
  }

  /** Corrected: with the intended multiplication sign the same presses show 42. */
  lemma TimesKeyCorrected(nt: NumberText, clock: Clock)
    requires nt.parse("6") == Fin(6.0) && nt.parse("7") == Fin(7.0)
    ensures var r := PressAll(InitialHome(), [Key("6", "number"), Keypads.CorrectedHomePad[Keypads.TimesKey],
                                              Key("7", "number"), Key("=", "function")], nt, clock);
            r.Success? && r.value.screen.display == nt.format(Fin(42.0))
  {
    Keypads.CorrectedOperatorsSelectArithmetic();
    assert Calculate(Fin(6.0), Fin(7.0), OpOfTag(Keypads.TimesButton.value)) == Success(Fin(42.0));
    SingleOperation(nt, clock, "6", Keypads.TimesButton, "7");
  }
}

=== FILE: keypads.dfy ===
/** The button grids of the home and scientific screens: each button's
    label, the handler kind it dispatches to and the value it passes. */
module Keypads {
  import opened Arithmetic

  datatype Button = Button(text: string, kind: string, value: string)

  /** The home screen's grid, row by row, as the file spells it. The
      labels and values of the division and multiplication keys, and the
      sign key's label, are the UTF-8 bytes of the intended characters
      read back as Mac Roman text. */
  const HomeDivideButton: Button := Button("\U{221A}\U{2211}", "operator", "\U{221A}\U{2211}")
  const HomeTimesButton: Button := Button("\U{221A}\U{F3}", "operator", "\U{221A}\U{F3}")

  const HomePad: seq<Button> := [
    Button("C", "function", "clear"),
    Button("\U{AC}\U{B1}", "function", "toggle-sign"),
    Button("%", "function", "percentage"),
    HomeDivideButton,
    Button("7", "number", "7"), Button("8", "number", "8"), Button("9", "number", "9"),
    HomeTimesButton,
    Button("4", "number", "4"), Button("5", "number", "5"), Button("6", "number", "6"),
    Button("-", "operator", "-"),
    Button("1", "number", "1"), Button("2", "number", "2"), Button("3", "number", "3"),
    Button("+", "operator", "+"),
    Button("0", "number", "0"), Button(".", "number", "."),
    Button("=", "function", "=")
  ]

  /** The scientific screen's standard grid, whose operator values are the
      tags `calculate` switches on. */
  const DivideButton: Button := Button(DivideTag, "operator", DivideTag)
  const TimesButton: Button := Button(TimesTag, "operator", TimesTag)

  const StandardPad: seq<Button> := [
    Button("C", "function", "clear"),
    Button("\U{B1}", "function", "toggle-sign"),
    Button("%", "function", "percentage"),
    DivideButton,
    Button("7", "number", "7"), Button("8", "number", "8"), Button("9", "number", "9"),
    TimesButton,
    Button("4", "number", "4"), Button("5", "number", "5"), Button("6", "number", "6"),
    Button("-", "operator", "-"),
    Button("1", "number", "1"), Button("2", "number", "2"), Button("3", "number", "3"),
    Button("+", "operator", "+"),
    Button("0", "number", "0"), Button(".", "number", "."),
    Button("=", "function", "=")
  ]

  /** The home grid with its two operator keys (and the sign label) spelled
      as intended: the same grid the scientific screen shows. */
  const CorrectedHomePad: seq<Button> := StandardPad

  const DivideKey: nat := 3
  const TimesKey: nat := 7

  /** On the home grid as written, the division and multiplication keys send
      tags `calculate` does not know: both take its default branch, which
      returns the right operand, and neither can raise division by zero. */
  lemma HomeOperatorsFallThrough(x: JsNumber.Num, y: JsNumber.Num)
    ensures HomePad[DivideKey] == HomeDivideButton && HomePad[TimesKey] == HomeTimesButton
    ensures OpOfTag(HomePad[DivideKey].value).Other? && OpOfTag(HomePad[TimesKey].value).Other?
    ensures Calculate(x, y, OpOfTag(HomePad[DivideKey].value)) == Outcomes.Success(y)
    ensures Calculate(x, y, OpOfTag(HomePad[TimesKey].value)) == Outcomes.Success(y)
  {
  }

  /** The home grid as written and the scientific screen's standard grid
      have the same nineteen keys in the same places, except for the sign
      key's label and the division and multiplication keys. */
  lemma PadsAgreeAwayFromMislabelledKeys()
    ensures |HomePad| == |StandardPad| == 19
    ensures forall i :: 0 <= i < |HomePad| && i != 1 && i != DivideKey && i != TimesKey ==> HomePad[i] == StandardPad[i]
    ensures HomePad[1].kind == StandardPad[1].kind && HomePad[1].value == StandardPad[1].value
    ensures HomePad[1].text != StandardPad[1].text
  {
  }

  /** No key of the home grid as written selects division or multiplication. */
  lemma HomePadLacksDivideAndTimes()
    ensures forall b :: b in HomePad ==> !OpOfTag(b.value).Divide? && !OpOfTag(b.value).Times?
  {
    forall i | 0 <= i < |HomePad|
      ensures HomePad[i].value != DivideTag && HomePad[i].value != TimesTag
    {
      HomeKeyIsNoTag(i);
    }
  }

  /** Each home key's value differs from the two sign tags. */
  lemma HomeKeyIsNoTag(i: nat)
    requires i < |HomePad|
    ensures HomePad[i].value != DivideTag && HomePad[i].value != TimesTag
  {
    if i < 8 {
      assert i == 0 || i == 1 || i == 2 || i == 3 || i == 4 || i == 5 || i == 6 || i == 7;
    } else {
      assert i == 8 || i == 9 || i == 10 || i == 11 || i == 12 || i == 13 || i == 14 || i == 15
          || i == 16 || i == 17 || i == 18;
    }
  }

  /** On the corrected grid the two keys select division and multiplication,
      and every operator key is one of the four `calculate` handles. */
  lemma CorrectedOperatorsSelectArithmetic()
    ensures CorrectedHomePad[DivideKey] == DivideButton && CorrectedHomePad[TimesKey] == TimesButton
    ensures OpOfTag(CorrectedHomePad[DivideKey].value) == Divide
    ensures OpOfTag(CorrectedHomePad[TimesKey].value) == Times
    ensures forall b :: b in CorrectedHomePad && b.kind == "operator" ==> !OpOfTag(b.value).Other?
  {
    forall i | 0 <= i < |CorrectedHomePad| && CorrectedHomePad[i].kind == "operator"
      ensures !OpOfTag(CorrectedHomePad[i].value).Other?
    {
      assert i == 3 || i == 7 || i == 11 || i == 15;
    }
  }
}

=== FILE: matrices.dfy ===
/** `matrixOperations` from src/utils/calculate.ts: elementwise addition,
    the triple-loop product and the first-row Laplace determinant, over
    exact reals. A matrix is a sequence of rows. */
module Matrices {
  import opened Outcomes

  type Matrix = seq<seq<real>>

  /** Every row as long as the first. */
  predicate Rectangular(m: Matrix) {
    forall i :: 0 <= i < |m| ==> |m[i]| == |m[0]|
  }

  predicate HasShape(m: Matrix, rows: nat, cols: nat) {
    |m| == rows && forall i :: 0 <= i < rows ==> |m[i]| == cols
  }

  datatype MatrixError =
    | DimensionsMustMatch      // thrown by add
    | IncompatibleForProduct   // thrown by multiply
    | MustBeSquare             // thrown by determinant
    | NoFirstRow               // reading `m[0].length` of an empty matrix throws a TypeError
    | Ragged                   // a square count with rows of other lengths: not a matrix of reals

  /** The message of each thrown `Error`; the TypeError's text is the
      JavaScript engine's and is not modelled. */
  function Message(e: MatrixError): Option<string> {
    match e
    case DimensionsMustMatch => Some("Matrix dimensions must match")
    case IncompatibleForProduct => Some("Matrix dimensions incompatible for multiplication")
    case MustBeSquare => Some("Matrix must be square")
    case NoFirstRow => None
    case Ragged => None
  }

  /** `matrixOperations.add(a, b)` */
  function Add(a: Matrix, b: Matrix): (r: Result<Matrix, MatrixError>)
    requires Rectangular(a) && Rectangular(b)
    ensures r.Success? <==> |a| == |b| && |a| > 0 && |a[0]| == |b[0]|
    ensures |a| != |b| ==> r == Failure(DimensionsMustMatch)
    ensures |a| == |b| == 0 ==> r == Failure(NoFirstRow)
    ensures r.Success? ==> HasShape(r.value, |a|, |a[0]|)
    ensures r.Success? ==> forall i, j :: 0 <= i < |a| && 0 <= j < |a[0]| ==> r.value[i][j] == a[i][j] + b[i][j]
  {
    if |a| != |b| then Failure(DimensionsMustMatch)
    else if |a| == 0 then Failure(NoFirstRow)
    else if |a[0]| != |b[0]| then Failure(DimensionsMustMatch)
    else Success(seq(|a|, i requires 0 <= i < |a| => seq(|a[i]|, j requires 0 <= j < |a[i]| => a[i][j] + b[i][j])))
  }

  /** Addition is commutative: swapping the operands gives the same sum, or
      the same error. */
  lemma AddCommutes(a: Matrix, b: Matrix)
    requires Rectangular(a) && Rectangular(b)
    ensures Add(a, b) == Add(b, a)
  {
    if Add(a, b).Success? {
      var s, t := Add(a, b).value, Add(b, a).value;
      assert |s| == |t|;
      forall i | 0 <= i < |s|
        ensures s[i] == t[i]
      {
        assert |s[i]| == |a[0]| == |t[i]|;
        forall j | 0 <= j < |s[i]|
          ensures s[i][j] == t[i][j]
        {
          assert s[i][j] == a[i][j] + b[i][j] && t[i][j] == b[i][j] + a[i][j];
        }
      }
      assert s == t;
    }
  }

  /** The sum a[i][0]*b[0][j] + ... + a[i][n-1]*b[n-1][j], accumulated
      from k = 0 upward as the innermost loop does. */
  function Dot(a: Matrix, i: nat, b: Matrix, j: nat, n: nat): real
    requires i < |a| && n <= |a[i]| && n <= |b|
    requires forall k :: 0 <= k < n ==> j < |b[k]|
  {
    if n == 0 then 0.0 else Dot(a, i, b, j, n - 1) + a[i][n - 1] * b[n - 1][j]
  }

  /** `matrixOperations.multiply(a, b)` */
  function Multiply(a: Matrix, b: Matrix): (r: Result<Matrix, MatrixError>)
    requires Rectangular(a) && Rectangular(b)
    ensures r.Success? <==> |a| > 0 && |a[0]| == |b| && |b| > 0
    ensures |a| > 0 && |a[0]| != |b| ==> r == Failure(IncompatibleForProduct)
    ensures r.Success? ==> HasShape(r.value, |a|, |b[0]|)
    ensures r.Success? ==> forall i, j :: 0 <= i < |a| && 0 <= j < |b[0]| ==> r.value[i][j] == Dot(a, i, b, j, |b|)
  {
    if |a| == 0 then Failure(NoFirstRow)
    else if |a[0]| != |b| then Failure(IncompatibleForProduct)
    else if |b| == 0 then Failure(NoFirstRow)
    else Success(seq(|a|, i requires 0 <= i < |a| => seq(|b[0]|, j requires 0 <= j < |b[0]| => Dot(a, i, b, j, |b|))))
  }

  function Identity(n: nat): (m: Matrix)
    ensures HasShape(m, n, n) && Rectangular(m)
    ensures forall i, j :: 0 <= i < n && 0 <= j < n ==> m[i][j] == if i == j then 1.0 else 0.0
  {
    seq(n, i requires 0 <= i < n => seq(n, j requires 0 <= j < n => if i == j then 1.0 else 0.0))
  }

  /** A row times column j of the identity picks entry j of the row. */
  lemma {:induction false} DotIdentity(a: Matrix, i: nat, j: nat, n: nat, c: nat)
    requires i < |a| && n <= c && j < c && c == |a[i]|
    ensures Dot(a, i, Identity(c), j, n) == if j < n then a[i][j] else 0.0
  {
    if n > 0 {
      DotIdentity(a, i, j, n - 1, c);
    }
  }

  /** A times the identity is A. */
  lemma MultiplyIdentity(a: Matrix)
    requires Rectangular(a) && |a| > 0 && |a[0]| > 0
    ensures Multiply(a, Identity(|a[0]|)) == Success(a)
  {
    var c := |a[0]|;
    var r := Multiply(a, Identity(c)).value;
    forall i | 0 <= i < |a|
      ensures r[i] == a[i]
    {
      forall j | 0 <= j < c
        ensures r[i][j] == a[i][j]
      {
        DotIdentity(a, i, j, c, c);
      }
    }
    assert r == a;
  }

  /** `Math.pow(-1, i)` */
  function Sign(i: nat): real {
    if i % 2 == 0 then 1.0 else -1.0
  }

  /** The minor that drops row 0 and column col. */
  function Minor(m: Matrix, col: nat): (r: Matrix)
    requires |m| >= 1 && Rectangular(m) && col < |m[0]|
    ensures HasShape(r, |m| - 1, |m[0]| - 1) && Rectangular(r)
    ensures forall i, j :: 0 <= i < |m| - 1 && 0 <= j < |m[0]| - 1 ==>
              r[i][j] == m[i + 1][if j < col then j else j + 1]
  {
    seq(|m| - 1, i requires 0 <= i < |m| - 1 =>
      m[i + 1][..col] + m[i + 1][col + 1..])
  }

  predicate IsSquare(m: Matrix) {
    |m| >= 1 && HasShape(m, |m|, |m|)
  }

  /** The determinant of a square matrix as the source computes it: the
      entry for 1x1, ad - bc for 2x2, first-row Laplace expansion beyond. */
  function Det(m: Matrix): (r: real)
    requires IsSquare(m)
    ensures (forall j :: 0 <= j < |m| ==> m[0][j] == 0.0) ==> r == 0.0
    decreases |m|, |m| + 1
  {
    if |m| == 1 then m[0][0]
    else if |m| == 2 then m[0][0] * m[1][1] - m[0][1] * m[1][0]
    else Laplace(m, |m|)
  }

  /** m[0][0]*Det(minor 0) - m[0][1]*Det(minor 1) + ... over the first k
      columns, summed left to right as the loop does. */
  function Laplace(m: Matrix, k: nat): (r: real)
    requires IsSquare(m) && |m| >= 2 && k <= |m|
    ensures (forall j :: 0 <= j < k ==> m[0][j] == 0.0) ==> r == 0.0
    decreases |m|, k
  {
    if k == 0 then 0.0
    else Laplace(m, k - 1) + m[0][k - 1] * Sign(k - 1) * Det(Minor(m, k - 1))
  }

  /** `matrixOperations.determinant(m)`. A matrix whose row count equals its
      first row's length but whose other rows differ is reported as
      `Ragged`: the source reads the missing entries as `undefined`. */
  function Determinant(m: Matrix): (r: Result<real, MatrixError>)
    ensures |m| == 0 ==> r == Failure(NoFirstRow)
    ensures |m| > 0 && |m| != |m[0]| ==> r == Failure(MustBeSquare)
    ensures |m| > 0 && |m| == |m[0]| && !Rectangular(m) ==> r == Failure(Ragged)
    ensures r.Success? <==> IsSquare(m)
    ensures |m| == 1 && |m[0]| == 1 ==> r == Success(m[0][0])
    ensures IsSquare(m) && |m| == 2 ==> r == Success(m[0][0] * m[1][1] - m[0][1] * m[1][0])
    ensures IsSquare(m) && |m| >= 3 ==> r == Success(Laplace(m, |m|))
  {
    if |m| == 0 then Failure(NoFirstRow)
    else if |m| != |m[0]| then Failure(MustBeSquare)
    else if !Rectangular(m) then Failure(Ragged)
    else Success(Det(m))
  }

  /** [[1, 2], [3]] passes the square check on its first row but is ragged;
      [[1, 2]] is not square. */
  lemma RaggedExample()
    ensures Determinant([[1.0, 2.0], [3.0]]) == Failure(Ragged)
    ensures Determinant([[1.0, 2.0]]) == Failure(MustBeSquare)
  {
    assert |[[1.0, 2.0], [3.0]][1]| == 1;
  }

  /** The 2x2 base case is what the Laplace expansion gives: the base case
      does not change the determinant's value. */
  lemma TwoByTwoIsLaplace(m: Matrix)
    requires IsSquare(m) && |m| == 2
    ensures Laplace(m, 2) == Det(m)
  {
    var m0, m1 := Minor(m, 0), Minor(m, 1);
    assert m0[0][0] == m[1][1] && m1[0][0] == m[1][0];
    assert Det(m0) == m[1][1] && Det(m1) == m[1][0];
    assert Laplace(m, 1) == m[0][0] * m[1][1];
  }

  /** Dropping row 0 and column 0 of the identity gives the identity. */
  lemma MinorOfIdentity(n: nat)
    requires n >= 1
    ensures Minor(Identity(n), 0) == Identity(n - 1)
  {
    var m := Minor(Identity(n), 0);
    var id := Identity(n - 1);
    forall i | 0 <= i < n - 1
      ensures m[i] == id[i]
    {
      assert |m[i]| == |id[i]|;
      forall j | 0 <= j < n - 1
        ensures m[i][j] == id[i][j]
      {
      }
    }
  }

  /** Only the first column's term survives for the identity. */
  lemma {:induction false} LaplaceOfIdentity(n: nat, k: nat)
    requires n >= 3 && 1 <= k <= n
    ensures Laplace(Identity(n), k) == Det(Identity(n - 1))
  {
    var id := Identity(n);
    if k == 1 {
      MinorOfIdentity(n);
      assert Laplace(id, 0) == 0.0;
    } else {
      LaplaceOfIdentity(n, k - 1);
      assert id[0][k - 1] == 0.0;
    }
  }

  /** det(I_n) = 1 for every n >= 1. */
  lemma {:induction false} DetIdentity(n: nat)
    requires n >= 1
    ensures Det(Identity(n)) == 1.0
    ensures Determinant(Identity(n)) == Success(1.0)
  {
    if n >= 3 {
      LaplaceOfIdentity(n, n);
      DetIdentity(n - 1);
    }
  }
}

=== FILE: matrix_screen.dfy ===
/** The matrix screen: a list of named matrices, cell edits, and the add,
    multiply and determinant buttons, which always work on the first two
    matrices of the list. */
module MatrixScreen {
  import opened Outcomes
  import JsNumber
  import opened Matrices
  import Radix

  /** A matrix of the screen; `rows` and `cols` are recorded when it is
      created. */
  datatype Entry = Entry(id: string, name: string, rows: nat, cols: nat, data: Matrix)

  datatype Screen = Screen(matrices: seq<Entry>, selected: Option<string>, result: string, operation: string)

  /** What the result line reports; its text renders numbers with
      `toFixed(2)` and `String(number)`, which are not modelled. */
  datatype Report =
    | NeedTwoMatrices
    | Sum(m: Matrix)
    | Product(m: Matrix)
    | DeterminantOf(name: string, det: real)
    | OnlySquare
    | Failed(error: MatrixError)
    | InvalidOperation

  /** Every matrix's data has the shape recorded for it. */
  predicate WellShaped(s: Screen) {
    forall i :: 0 <= i < |s.matrices| ==> HasShape(s.matrices[i].data, s.matrices[i].rows, s.matrices[i].cols)
  }

  function Zeros(rows: nat, cols: nat): (m: Matrix)
    ensures HasShape(m, rows, cols)
    ensures forall i, j :: 0 <= i < rows && 0 <= j < cols ==> m[i][j] == 0.0
  {
    seq(rows, _ => seq(cols, _ => 0.0))
  }

  /** `createMatrix(rows, cols)`; `id` is the caller's `Date.now()` text. */
  function CreateMatrix(s: Screen, rows: nat, cols: nat, id: string): (r: Screen)
    ensures |r.matrices| == |s.matrices| + 1 && r.matrices[..|s.matrices|] == s.matrices
    ensures r.matrices[|s.matrices|] == Entry(id, "Matrix " + Radix.NumberToString(|s.matrices| + 1, 10), rows, cols, Zeros(rows, cols))
    ensures r.selected == Some(id) && r.result == s.result && r.operation == s.operation
    ensures WellShaped(s) ==> WellShaped(r)
  {
    var m := Entry(id, "Matrix " + Radix.NumberToString(|s.matrices| + 1, 10), rows, cols, Zeros(rows, cols));
    s.(matrices := s.matrices + [m], selected := Some(id))
  }

  /** The indices name a cell of every matrix with that id. */
  predicate CellOf(s: Screen, matrixId: string, row: nat, col: nat) {
    forall i :: 0 <= i < |s.matrices| && s.matrices[i].id == matrixId ==>
      row < |s.matrices[i].data| && col < |s.matrices[i].data[row]|
  }

  /** `updateMatrixValue(matrixId, row, col, value)`: the parsed text, or 0
      when it is NaN or zero, goes into that cell of every matrix with the id. */
  function UpdateMatrixValue(s: Screen, matrixId: string, row: nat, col: nat, parsed: JsNumber.Num): (r: Screen)
    requires CellOf(s, matrixId, row, col)
    ensures |r.matrices| == |s.matrices| && r.selected == s.selected && r.result == s.result
    ensures r.operation == s.operation
    ensures forall i :: 0 <= i < |s.matrices| && s.matrices[i].id != matrixId ==> r.matrices[i] == s.matrices[i]
    ensures forall i :: 0 <= i < |s.matrices| && s.matrices[i].id == matrixId ==>
              var m, m' := s.matrices[i], r.matrices[i];
              m' == m.(data := m'.data) && |m'.data| == |m.data|
              && (forall a :: 0 <= a < |m.data| && a != row ==> m'.data[a] == m.data[a])
              && |m'.data[row]| == |m.data[row]|
              && (forall b :: 0 <= b < |m.data[row]| && b != col ==> m'.data[row][b] == m.data[row][b])
              && (JsNumber.OrZero(parsed).Fin? ==> m'.data[row][col] == JsNumber.OrZero(parsed).r)
    ensures WellShaped(s) ==> WellShaped(r)
  {
    var v := match JsNumber.OrZero(parsed) case Fin(x) => x case _ => 0.0;
    var ms := seq(|s.matrices|, i requires 0 <= i < |s.matrices| =>
      var m := s.matrices[i];
      if m.id == matrixId then m.(data := m.data[row := m.data[row][col := v]]) else m);
    s.(matrices := ms)
  }

  /** `performOperation(op)`: the report and the operation recorded. */
  function PerformOperation(s: Screen, op: string): (r: (Report, string))
    requires forall i :: 0 <= i < |s.matrices| ==> Rectangular(s.matrices[i].data)
    ensures |s.matrices| < 2 ==> r == (NeedTwoMatrices, s.operation)
    ensures |s.matrices| >= 2 && op == "add" ==>
              r == match Add(s.matrices[0].data, s.matrices[1].data)
                   case Success(m) => (Sum(m), op)
                   case Failure(e) => (Failed(e), s.operation)
    ensures |s.matrices| >= 2 && op == "multiply" ==>
              r == match Multiply(s.matrices[0].data, s.matrices[1].data)
                   case Success(m) => (Product(m), op)
                   case Failure(e) => (Failed(e), s.operation)
    ensures |s.matrices| >= 2 && op == "determinant" && s.matrices[0].rows != s.matrices[0].cols ==>
              r == (OnlySquare, s.operation)
    ensures |s.matrices| >= 2 && op == "determinant" && s.matrices[0].rows == s.matrices[0].cols ==>
              r == match Determinant(s.matrices[0].data)
                   case Success(d) => (DeterminantOf(s.matrices[0].name, d), s.operation)
                   case Failure(e) => (Failed(e), s.operation)
    ensures |s.matrices| >= 2 && op !in {"add", "multiply", "determinant"} ==> r == (InvalidOperation, s.operation)
    ensures r.1 != s.operation ==> r.1 == op && (r.0.Sum? || r.0.Product?)
    ensures r.0.DeterminantOf? ==>
              (|s.matrices| >= 2 && op == "determinant"
               && Determinant(s.matrices[0].data) == Success(r.0.det) && r.0.name == s.matrices[0].name)
  {
    if |s.matrices| < 2 then (NeedTwoMatrices, s.operation)
    else
      var a, b := s.matrices[0], s.matrices[1];
      match op
      case "add" =>
        (match Add(a.data, b.data)
         case Success(m) => (Sum(m), op)
         case Failure(e) => (Failed(e), s.operation))
      case "multiply" =>
        (match Multiply(a.data, b.data)
         case Success(m) => (Product(m), op)
         case Failure(e) => (Failed(e), s.operation))
      case "determinant" =>
        if a.rows != a.cols then (OnlySquare, s.operation)
        else
          (match Determinant(a.data)
           case Success(d) => (DeterminantOf(a.name, d), s.operation)
           case Failure(e) => (Failed(e), s.operation))
      case _ => (InvalidOperation, s.operation)
  }

  // ---------------------------------------------------------------------
  // Properties

  lemma WellShapedRectangular(s: Screen)
    requires WellShaped(s)
    ensures forall i :: 0 <= i < |s.matrices| ==> Rectangular(s.matrices[i].data)
  {
    forall i | 0 <= i < |s.matrices|
      ensures Rectangular(s.matrices[i].data)
    {
      var m := s.matrices[i];
      if |m.data| > 0 {
        assert |m.data[0]| == m.cols;
      }
    }
  }

  /** Two 2x2 matrices created on an empty screen are named "Matrix 1" and
      "Matrix 2"; their sum is computed, and the determinant of the first
      (all zeros) is 0. */
  lemma TwoMatricesExample(id1: string, id2: string)
    ensures var s := CreateMatrix(CreateMatrix(Screen([], None, "", ""), 2, 2, id1), 2, 2, id2);
            s.matrices[0].name == "Matrix 1" && s.matrices[1].name == "Matrix 2" && s.selected == Some(id2)
            && PerformOperation(s, "add") == (Sum(Zeros(2, 2)), "add")
            && PerformOperation(s, "determinant") == (DeterminantOf("Matrix 1", 0.0), "")
  {
    var s := CreateMatrix(CreateMatrix(Screen([], None, "", ""), 2, 2, id1), 2, 2, id2);
    assert Radix.Digits(1, 10) == "1" && Radix.Digits(2, 10) == "2";
    var z := Zeros(2, 2);
    var sum := Add(z, z);
    assert sum.Success?;
    forall i | 0 <= i < 2
      ensures sum.value[i] == z[i]
    {
      assert |sum.value[i]| == 2;
    }
    assert sum.value == z;
  }

  /** A determinant on a well-shaped square first matrix always succeeds
      unless it has no rows. */
  lemma DeterminantOfSquareEntry(s: Screen)
    requires WellShaped(s) && |s.matrices| >= 2
    requires s.matrices[0].rows == s.matrices[0].cols >= 1
    ensures PerformOperation(s, "determinant").0.DeterminantOf?
  {
    WellShapedRectangular(s);
  }
}

=== FILE: num.dfy ===
/** A JavaScript `number` without rounding: a real, a signed infinity or NaN.
    Signed zero and IEEE rounding are not represented. */
module JsNumber {

  datatype Num = Fin(r: real) | Inf(negative: bool) | NaN

  /** `a + b` */
  function Add(a: Num, b: Num): (r: Num)
    ensures a.Fin? && b.Fin? ==> r == Fin(a.r + b.r)
    ensures a.NaN? || b.NaN? ==> r.NaN?
    ensures a.Inf? && b.Inf? ==> (r.NaN? <==> a.negative != b.negative)
  {
    match (a, b)
    case (Fin(x), Fin(y)) => Fin(x + y)
    case (Inf(n), Fin(_)) => Inf(n)
    case (Fin(_), Inf(m)) => Inf(m)
    case (Inf(n), Inf(m)) => if n == m then Inf(n) else NaN
    case _ => NaN
  }

  /** `-a`, which is also `a * -1` */
  function Neg(a: Num): (r: Num)
    ensures a.Fin? ==> r == Fin(-a.r)
  {
    match a
    case Fin(x) => Fin(-x)
    case Inf(n) => Inf(!n)
    case NaN => NaN
  }

  /** `a - b` */
  function Sub(a: Num, b: Num): (r: Num)
    ensures a.Fin? && b.Fin? ==> r == Fin(a.r - b.r)
    ensures a.NaN? || b.NaN? ==> r.NaN?
  {
    Add(a, Neg(b))
  }

  /** `a * b`; an infinity times zero is NaN */
  function Mul(a: Num, b: Num): (r: Num)
    ensures a.Fin? && b.Fin? ==> r == Fin(a.r * b.r)
    ensures a.NaN? || b.NaN? ==> r.NaN?
  {
    if a.NaN? || b.NaN? then NaN
    else if a.Fin? && b.Fin? then Fin(a.r * b.r)
    else if a.Fin? then (if a.r == 0.0 then NaN else Inf(b.negative != (a.r < 0.0)))
    else if b.Fin? then (if b.r == 0.0 then NaN else Inf(a.negative != (b.r < 0.0)))
    else Inf(a.negative != b.negative)
  }

  /** `a / b` for a divisor other than zero (every caller in the calculator
      either excludes a zero divisor or divides by a non-zero constant) */
  function Div(a: Num, b: Num): (r: Num)
    requires b != Fin(0.0)
    ensures a.Fin? && b.Fin? ==> r == Fin(a.r / b.r)
    ensures a.NaN? || b.NaN? ==> r.NaN?
    ensures a.Fin? && b.Inf? ==> r == Fin(0.0)
  {
    match (a, b)
    case (Fin(x), Fin(y)) => Fin(x / y)
    case (Fin(_), Inf(_)) => Fin(0.0)
    case (Inf(n), Fin(y)) => Inf(n != (y < 0.0))
    case (Inf(_), Inf(_)) => NaN
    case _ => NaN
  }

  /** `a <= b`: false whenever either side is NaN */
  predicate LessEq(a: Num, b: Num) {
    match (a, b)
    case (Fin(x), Fin(y)) => x <= y
    case (Inf(n), Fin(_)) => n
    case (Fin(_), Inf(m)) => !m
    case (Inf(n), Inf(m)) => n || !m
    case _ => false
  }

  /** `a === 0` */
  predicate IsZero(a: Num) {
    a == Fin(0.0)
  }

  /** JavaScript truthiness of a number: false for 0 and NaN */
  predicate Truthy(a: Num) {
    a != Fin(0.0) && !a.NaN?
  }

  /** `parseFloat(text) || 0`: the number, or 0 when it is NaN (or zero) */
  function OrZero(a: Num): (r: Num)
    ensures r.Fin? || r.Inf?
    ensures Truthy(a) ==> r == a
    ensures !Truthy(a) ==> r == Fin(0.0)
  {
    if Truthy(a) then a else Fin(0.0)
  }

  /** Toggling the sign twice gives the number back, and the negation is
      the product with -1 that the calculator computes */
  lemma NegInvolutive(a: Num)
    ensures Neg(Neg(a)) == a
    ensures Neg(a) == Mul(a, Fin(-1.0))
  {
  }
}

=== FILE: outcomes.dfy ===
/** Option and Result: the success/failure carriers used for JavaScript's
    `undefined` and for the exceptions the calculator's library throws. */
module Outcomes {

  datatype Option<+T> = None | Some(value: T)

  datatype Result<+R, +E> = Success(value: R) | Failure(error: E) {
    predicate IsFailure() {
      Failure?
    }

    function PropagateFailure<U>(): Result<U, E>
      requires Failure?
    {
      Failure(error)
    }

    function Extract(): R
      requires Success?
    {
      value
    }
  }
}

=== FILE: programmer.dfy ===
/** The programmer screen: a value, its text in the current base (2, 8, 10
    or 16), digit entry by re-parsing the text, base changes, and the
    8-bit-masked bitwise keys. */
module ProgrammerScreen {
  import opened Outcomes
  import opened Radix
  import opened Bitwise
  import Division
  import CalculatorCore

  type Base = CalculatorCore.CalcBase

  datatype Programmer = Programmer(base: Base, value: int, display: string)

  function InitialProgrammer(): (p: Programmer)
    ensures p.display == Render(p.value, p.base)
  {
    Programmer(10, 0, "0")
  }

  /** `updateDisplay`'s text for a value: `toString(base)`, upper-cased
      in base 16. */
  function Render(v: int, base: Base): (s: string)
    ensures |s| >= 1 && (s[0] == '-' <==> v < 0)
  {
    if base == 16 then Upper(NumberToString(v, 16)) else NumberToString(v, base)
  }

  /** `handleNumberInput(num)`: the display text with the digit appended,
      parsed in the current base; text that parses to NaN changes nothing. */
  function NumberInput(p: Programmer, num: string): (r: Programmer)
    ensures ParseInt(p.display + num, p.base).None? ==> r == p
    ensures ParseInt(p.display + num, p.base).Some? ==>
              r == p.(value := ParseInt(p.display + num, p.base).value, display := Render(r.value, p.base))
  {
    match ParseInt(p.display + num, p.base)
    case None => p
    case Some(v) => p.(value := v, display := Render(v, p.base))
  }

  /** `handleBaseChange(base)`: the base changes, but the display is
      rendered by a handler that still sees the previous base. */
  function BaseChange(p: Programmer, base: Base): (r: Programmer)
    ensures r.base == base && r.value == p.value
    ensures r.display == Render(p.value, p.base)
  {
    Programmer(base, p.value, Render(p.value, p.base))
  }

  /** `handleClear` */
  function Clear(p: Programmer): (r: Programmer)
    ensures r.value == 0 && r.display == "0" && r.base == p.base
    ensures r.display == Render(r.value, r.base)
  {
    p.(value := 0, display := "0")
  }

  /** The result of each bitwise key applied to v; None for any other name. */
  function BitwiseResult(operation: string, v: int): (r: Option<int>)
    ensures r.Some? <==> operation in {"AND", "OR", "XOR", "NOT", "LSHIFT", "RSHIFT"}
  {
    match operation
    case "AND" => Some(JsAnd(v, 0xFF))
    case "OR" => Some(JsOr(v, 0xFF))
    case "XOR" => Some(JsXor(v, 0xFF))
    case "NOT" => Some(JsAnd(JsNot(v), 0xFF))
    case "LSHIFT" => Some(JsAnd(JsShiftLeftOne(v), 0xFF))
    case "RSHIFT" => Some(JsAnd(JsShiftRightOne(v), 0xFF))
    case _ => None
  }

  /** `handleBitwiseOperation(operation)` */
  function BitwiseOperation(p: Programmer, operation: string): (r: Programmer)
    ensures BitwiseResult(operation, p.value).None? ==> r == p
    ensures BitwiseResult(operation, p.value).Some? ==>
              r.value == BitwiseResult(operation, p.value).value && r.base == p.base
              && r.display == Render(r.value, p.base)
  {
    match BitwiseResult(operation, p.value)
    case None => p
    case Some(v) => p.(value := v, display := Render(v, p.base))
  }

  /** `getValidDigits`: the keys of the digit pad in each base. */
  function ValidDigits(base: Base): (ds: seq<char>)
    ensures |ds| == base
    ensures forall i :: 0 <= i < |ds| ==> DigitVal(ds[i]) == i
  {
    if base == 2 then "01"
    else if base == 8 then "01234567"
    else if base == 16 then "0123456789ABCDEF"
    else "0123456789"
  }

  // ---------------------------------------------------------------------
  // Properties

  predicate DigitKey(c: char) {
    '0' <= c <= '9' || 'A' <= c <= 'Z'
  }

  /** The pad offers exactly the upper-case digit characters whose value is
      below the base. */
  lemma ValidDigitsAreDigitsBelowBase(base: Base, c: char)
    ensures c in ValidDigits(base) <==> DigitKey(c) && DigitVal(c) < base
  {
    if DigitKey(c) && DigitVal(c) < base {
      var d := DigitVal(c);
      assert ValidDigits(base)[d] == c;
    }
  }

  /** The rendering of a natural number is canonical in its base: valid
      digits, upper case, no leading zero. */
  lemma RenderIsCanonical(v: nat, base: Base)
    ensures Canonical(Render(v, base), base)
    ensures Render(v, base) == Upper(Digits(v, base))
  {
    UpperDigitsCanonical(v, base);
    if base != 16 {
      var d := Digits(v, base);
      forall i | 0 <= i < |d|
        ensures '0' <= d[i] <= '9' && UpperChar(d[i]) == d[i]
      {
        assert DigitVal(d[i]) < base;
      }
      assert Upper(d) == d;
    }
  }

  /** Parsing the display in the current base gives the value back. */
  lemma RenderRoundTrip(v: int, base: Base)
    ensures ParseInt(Render(v, base), base) == Some(v)
  {
    ParseRender(v, base);
  }

  /** With the display showing v >= 0 and a digit valid in the base, the
      digit is appended to v: the new value is v * base + digit. */
  lemma DigitEntry(p: Programmer, c: char)
    requires p.value >= 0 && p.display == Render(p.value, p.base)
    requires IsDigitIn(c, p.base)
    ensures NumberInput(p, [c]).value == p.value * p.base + DigitVal(c)
    ensures NumberInput(p, [c]).display == Render(p.value * p.base + DigitVal(c), p.base)
  {
    var v := p.value * p.base + DigitVal(c);
    RenderIsCanonical(p.value, p.base);
    var s := p.display;
    DigitsValueOfDigits(p.value, p.base);
    DigitsValueUpper(Digits(p.value, p.base), p.base);
    assert AllDigitsIn(s, p.base) && DigitsValue(s, p.base) == p.value;
    DigitsValueSnoc(s, c, p.base);
    ParseAllDigits(s + [c], p.base);
    assert ParseInt(p.display + [c], p.base) == Some(v);
  }

  /** AND, NOT and the two shifts always give a byte; the left shift is
      even, and on a byte the right shift halves. */
  lemma MaskedResultsAreBytes(v: int)
    ensures 0 <= BitwiseResult("AND", v).value <= 255
    ensures 0 <= BitwiseResult("NOT", v).value <= 255
    ensures 0 <= BitwiseResult("LSHIFT", v).value <= 255 && BitwiseResult("LSHIFT", v).value % 2 == 0
    ensures 0 <= BitwiseResult("RSHIFT", v).value <= 255
    ensures 0 <= v <= 255 ==> BitwiseResult("RSHIFT", v).value == v / 2
  {
    AndByte(v);
    AndByte(JsNot(v));
    ShiftLeftEven(v);
    ShiftRightHalves(v);
  }

  lemma ShiftLeftEven(v: int)
    ensures JsAnd(JsShiftLeftOne(v), 0xFF) % 2 == 0
  {
    AndByte(JsShiftLeftOne(v));
    ShiftedIsEven(v);
    EvenLowByte(JsShiftLeftOne(v) / 2);
  }

  /** Moving the pattern up one bit leaves an even number, read signed or not. */
  lemma ShiftedIsEven(v: int)
    ensures JsShiftLeftOne(v) % 2 == 0
  {
    var u := Uint32(v);
    var q := (2 * u) / Two32;
    var w := (2 * u) % Two32;
    assert 2 * u == q * Two32 + w;
    assert w == 2 * (u - q * Two31);
    if w >= Two31 {
      assert JsShiftLeftOne(v) == 2 * (u - q * Two31 - Two31);
    } else {
      assert JsShiftLeftOne(v) == w;
    }
  }

  /** The low byte of an even number is even. */
  lemma EvenLowByte(t: int)
    ensures (2 * t) % 256 % 2 == 0
  {
    var h := (2 * t) / 256;
    assert 2 * t == h * 256 + (2 * t) % 256;
    assert (2 * t) % 256 == 2 * (t - 128 * h);
  }

  lemma ShiftRightHalves(v: int)
    ensures 0 <= JsAnd(JsShiftRightOne(v), 0xFF) <= 255
    ensures 0 <= v <= 255 ==> JsAnd(JsShiftRightOne(v), 0xFF) == v / 2
  {
    AndByte(JsShiftRightOne(v));
    if 0 <= v <= 255 {
      ShiftRightOfByte(v);
    }
  }

  /** On a byte, the sign-propagating shift is plain halving. */
  lemma ShiftRightOfByte(v: int)
    requires 0 <= v <= 255
    ensures JsShiftRightOne(v) == v / 2 && (v / 2) % 256 == v / 2
  {
    assert Uint32(v) == v;
    assert ToInt32(v) == v;
  }

  lemma NotOfByte(v: int)
    requires 0 <= v <= 255
    ensures JsAnd(JsNot(v), 0xFF) == 255 - v
  {
    AndByte(JsNot(v));
    assert JsNot(v) == -v - 1;
  }

  lemma XorOfByte(v: int)
    requires 0 <= v <= 255
    ensures JsXor(v, 0xFF) == 255 - v
  {
    XorByte(v);
    FlipOfByte(v);
  }

  lemma FlipOfByte(v: int)
    requires 0 <= v <= 255
    ensures Int32(Uint32(v) - Uint32(v) % 256 + (255 - Uint32(v) % 256)) == 255 - v
  {
    assert Uint32(v) == v && v % 256 == v;
    assert Int32(255 - v) == 255 - v;
  }

  /** On a byte, NOT and XOR both give 255 - v, so each undoes itself. */
  lemma ByteInvolutions(v: int)
    requires 0 <= v <= 255
    ensures BitwiseResult("XOR", v) == Some(255 - v)
    ensures BitwiseResult("NOT", v) == Some(255 - v)
    ensures BitwiseResult("XOR", BitwiseResult("XOR", v).value) == Some(v)
    ensures BitwiseResult("NOT", BitwiseResult("NOT", v).value) == Some(v)
  {
    XorOfByte(v);
    XorOfByte(255 - v);
    NotOfByte(v);
    NotOfByte(255 - v);
  }

  /** OR is not masked: it sets the low eight bits and keeps the rest, so
      on a non-negative 32-bit value the result is at least 255. */
  lemma OrSetsLowByte(v: int)
    requires 0 <= v < Two31
    ensures BitwiseResult("OR", v) == Some(v - v % 256 + 255)
    ensures BitwiseResult("OR", v).value >= 255 && BitwiseResult("OR", v).value % 256 == 255
  {
    OrOfNonNegative(v);
    assert BitwiseResult("OR", v) == Some(JsOr(v, 0xFF));
  }

  /** For a non-negative int32, `v | 0xFF` is v with its low byte set. */
  lemma OrOfNonNegative(v: int)
    requires 0 <= v < Two31
    ensures JsOr(v, 0xFF) == v - v % 256 + 255
    ensures v - v % 256 + 255 >= 255 && (v - v % 256 + 255) % 256 == 255
  {
    OrByte(v);
    Division.DivOfSum(0, v, Two32);
    assert Uint32(v) == v;
    var q := v / 256;
    assert v == q * 256 + v % 256;
    assert 0 <= q <= 0x7F_FFFF;
    var w := q * 256 + 255;
    assert w == v - v % 256 + 255 && 255 <= w < Two31;
    assert Int32(w) == w;
    Division.DivOfSum(q, 255, 256);
  }

  /** A key the switch does not list leaves the screen as it is. */
  lemma UnknownOperationUnchanged(p: Programmer, operation: string)
    ensures operation !in {"AND", "OR", "XOR", "NOT", "LSHIFT", "RSHIFT"} ==> BitwiseOperation(p, operation) == p
  {
  }

  /** Changing from decimal to hexadecimal with 255 entered still shows
      "255": the display keeps the old base. */
  lemma StaleBaseExample()
    ensures BaseChange(Programmer(10, 255, "255"), 16).display == "255"
    ensures Render(255, 16) == "FF"
  {
    assert Digits(255, 10) == Digits(25, 10) + "5";
    assert Digits(25, 10) == Digits(2, 10) + "5";
    assert Digits(255, 16) == Digits(15, 16) + "f";
  }
}

=== FILE: radix.dfy ===
/** Integer text in a radix: JavaScript's `parseInt(text, radix)` and
    `Number#toString(radix)` on integers, and the library's `convertBase`,
    `formatBinary` and `formatHex` built from them. */
module Radix {
  import opened Outcomes
  import Division

  /** The radices `parseInt` and `toString` accept. */
  type Radix = r: int | 2 <= r <= 36 witness 10

  /** The value of an ASCII letter or digit as a radix digit
      ('0'-'9', then 'a'-'z' or 'A'-'Z' for 10-35); 36 for every other
      character, which no radix accepts. */
  function DigitVal(c: char): (d: nat)
    ensures d <= 36
  {
    if '0' <= c <= '9' then (c - '0') as nat
    else if 'a' <= c <= 'z' then (c - 'a') as nat + 10
    else if 'A' <= c <= 'Z' then (c - 'A') as nat + 10
    else 36
  }

  predicate IsDigitIn(c: char, radix: Radix) {
    DigitVal(c) < radix
  }

  predicate AllDigitsIn(s: string, radix: Radix) {
    forall i :: 0 <= i < |s| ==> IsDigitIn(s[i], radix)
  }

  /** The lower-case digit `Number#toString` writes for d. */
  function DigitChar(d: nat): (c: char)
    requires d < 36
    ensures DigitVal(c) == d
    ensures '0' <= c <= '9' || 'a' <= c <= 'z'
  {
    if d < 10 then ('0' as int + d) as char else ('a' as int + d - 10) as char
  }

  /** `String#toUpperCase` restricted to ASCII letters. */
  function UpperChar(c: char): (u: char)
    ensures DigitVal(u) == DigitVal(c)
    ensures !('a' <= u <= 'z')
  {
    if 'a' <= c <= 'z' then (c as int - 32) as char else c
  }

  function Upper(s: string): (u: string)
    ensures |u| == |s|
    ensures forall i :: 0 <= i < |s| ==> u[i] == UpperChar(s[i])
  {
    seq(|s|, i requires 0 <= i < |s| => UpperChar(s[i]))
  }

  lemma UpperAppend(a: string, b: string)
    ensures Upper(a + b) == Upper(a) + Upper(b)
  {
  }

  /** The value of a string of valid digits, most significant first. */
  function DigitsValue(s: string, radix: Radix): (v: nat)
  {
    if |s| == 0 then 0 else DigitsValue(s[..|s| - 1], radix) * radix + DigitVal(s[|s| - 1])
  }

  /** The length of the longest prefix of s made of digits valid in radix. */
  function ValidPrefixLength(s: string, radix: Radix): (k: nat)
    ensures k <= |s|
    ensures AllDigitsIn(s[..k], radix)
    ensures k < |s| ==> !IsDigitIn(s[k], radix)
  {
    if |s| == 0 || !IsDigitIn(s[0], radix) then 0
    else
      var k := 1 + ValidPrefixLength(s[1..], radix);
      assert s[..k] == [s[0]] + s[1..][..k - 1];
      k
  }

  /** `parseInt(text, radix)`: an optional sign, then the magnitude; NaN
      (None) when the magnitude has no digit. */
  function ParseInt(text: string, radix: Radix): (r: Option<int>)
    ensures |text| == 0 ==> r.None?
    ensures r.Some? && text[0] == '-' ==> r.value <= 0
    ensures r.Some? && text[0] != '-' ==> r.value >= 0
  {
    var negative := |text| > 0 && text[0] == '-';
    var body := if |text| > 0 && (text[0] == '-' || text[0] == '+') then text[1..] else text;
    match ParseMagnitude(body, radix)
    case None => None
    case Some(v) => var n: int := v; Some(if negative then -n else n)
  }

  /** The unsigned part: for radix 16 an optional "0x"/"0X", then the
      longest run of valid digits. */
  function ParseMagnitude(body: string, radix: Radix): (r: Option<nat>)
  {
    var digits := if radix == 16 && |body| >= 2 && body[0] == '0' && (body[1] == 'x' || body[1] == 'X')
                  then body[2..] else body;
    var k := ValidPrefixLength(digits, radix);
    if k == 0 then None else Some(DigitsValue(digits[..k], radix))
  }

  /** The digits of a natural number, most significant first, lower case,
      with no leading zero. */
  function Digits(v: nat, radix: Radix): (s: string)
    ensures |s| >= 1
    ensures AllDigitsIn(s, radix)
    ensures forall i :: 0 <= i < |s| ==> '0' <= s[i] <= '9' || 'a' <= s[i] <= 'z'
    ensures |s| > 1 ==> s[0] != '0'
    ensures s[0] == '0' ==> v == 0
  {
    if v < radix then [DigitChar(v)]
    else
      DivStep(v, radix);
      var q := v / radix;
      var d := v % radix;
      var p := Digits(q, radix);
      var s := p + [DigitChar(d)];
      assert s[0] == p[0];
      s
  }

  lemma DivStep(v: nat, radix: Radix)
    requires v >= radix
    ensures 1 <= v / radix < v
    ensures v == (v / radix) * radix + v % radix
    ensures 0 <= v % radix < radix
  {
  }

  /** `n.toString(radix)` for an integer n. */
  function NumberToString(n: int, radix: Radix): (s: string)
    ensures |s| >= 1 && (s[0] == '-' <==> n < 0)
    ensures AllDigitsIn(if n < 0 then s[1..] else s, radix)
  {
    if n < 0 then "-" + Digits(-n, radix) else Digits(n, radix)
  }

  lemma {:induction false} DigitsValueOfDigits(v: nat, radix: Radix)
    ensures DigitsValue(Digits(v, radix), radix) == v
    decreases v
  {
    if v >= radix {
      DivStep(v, radix);
      var s := Digits(v, radix);
      DigitsValueOfDigits(v / radix, radix);
      assert s[..|s| - 1] == Digits(v / radix, radix);
    }
  }

  lemma {:induction false} DigitsValueUpper(s: string, radix: Radix)
    requires AllDigitsIn(s, radix)
    ensures AllDigitsIn(Upper(s), radix)
    ensures DigitsValue(Upper(s), radix) == DigitsValue(s, radix)
    decreases |s|
  {
    if |s| > 0 {
      DigitsValueUpper(s[..|s| - 1], radix);
      assert Upper(s)[..|s| - 1] == Upper(s[..|s| - 1]);
    }
  }

  lemma AllDigitsPrefix(s: string, radix: Radix)
    requires AllDigitsIn(s, radix)
    ensures ValidPrefixLength(s, radix) == |s|
    ensures s[..|s|] == s
  {
    var k := ValidPrefixLength(s, radix);
    if k < |s| {
      assert false;
    }
  }

  /** A digit string with no leading zero parses to its value, with or
      without a leading minus sign. */
  lemma ParseDigitString(d: string, radix: Radix)
    requires |d| >= 1 && AllDigitsIn(d, radix)
    ensures ParseInt(d, radix) == Some(DigitsValue(d, radix))
    ensures ParseInt("-" + d, radix) == Some(Negate(DigitsValue(d, radix)))
  {
    MagnitudeOfDigits(d, radix);
    ParseUnsigned(d, d, radix);
    ParseNegated(d, radix);
  }

  /** Text that starts with neither sign is all magnitude. */
  lemma ParseUnsigned(text: string, d: string, radix: Radix)
    requires text == d && |d| >= 1 && AllDigitsIn(d, radix)
    requires ParseMagnitude(d, radix) == Some(DigitsValue(d, radix))
    ensures ParseInt(text, radix) == Some(DigitsValue(d, radix))
  {
    assert DigitVal(d[0]) < radix;
    assert text[0] != '-' && text[0] != '+';
  }

  lemma ParseNegated(d: string, radix: Radix)
    requires |d| >= 1 && AllDigitsIn(d, radix)
    requires ParseMagnitude(d, radix) == Some(DigitsValue(d, radix))
    ensures ParseInt("-" + d, radix) == Some(Negate(DigitsValue(d, radix)))
  {
    var t := "-" + d;
    assert t[1..] == d;
    NegativeText(t, radix, DigitsValue(d, radix));
  }

  /** The negative of a magnitude, as an integer. */
  function Negate(m: nat): int { 0 - (m as int) }

  /** Text starting with '-' parses to the negated magnitude of the rest. */
  lemma NegativeText(t: string, radix: Radix, m: nat)
    requires |t| > 0 && t[0] == '-'
    requires ParseMagnitude(t[1..], radix) == Some(m)
    ensures ParseInt(t, radix) == Some(Negate(m))
  {
  }

  /** A run of valid digits is its own magnitude: no "0x" can precede it,
      since 'x' is not a digit below 34. */
  lemma MagnitudeOfDigits(d: string, radix: Radix)
    requires |d| >= 1 && AllDigitsIn(d, radix)
    ensures ParseMagnitude(d, radix) == Some(DigitsValue(d, radix))
  {
    AllDigitsPrefix(d, radix);
    NoHexPrefix(d, radix);
  }

  lemma NoHexPrefix(d: string, radix: Radix)
    requires |d| >= 1 && AllDigitsIn(d, radix)
    ensures !(radix == 16 && |d| >= 2 && d[0] == '0' && (d[1] == 'x' || d[1] == 'X'))
  {
    if |d| >= 2 {
      assert IsDigitIn(d[1], radix);
    }
  }

  /** Parsing the rendering of an integer, in either letter case, gives the
      integer back. */
  lemma ParseRender(n: int, radix: Radix)
    ensures ParseInt(NumberToString(n, radix), radix) == Some(n)
    ensures ParseInt(Upper(NumberToString(n, radix)), radix) == Some(n)
  {
    var m: nat := if n < 0 then -n else n;
    var d := Digits(m, radix);
    DigitsValueOfDigits(m, radix);
    ParseEitherCase(d, radix);
    if n < 0 {
      assert NumberToString(n, radix) == "-" + d;
      assert Negate(m) == n;
    } else {
      assert NumberToString(n, radix) == d;
    }
  }

  /** A digit string, signed or not, parses the same in either letter case. */
  lemma ParseEitherCase(d: string, radix: Radix)
    requires |d| >= 1 && AllDigitsIn(d, radix)
    ensures ParseInt(d, radix) == Some(DigitsValue(d, radix))
    ensures ParseInt(Upper(d), radix) == Some(DigitsValue(d, radix))
    ensures ParseInt("-" + d, radix) == Some(Negate(DigitsValue(d, radix)))
    ensures ParseInt(Upper("-" + d), radix) == Some(Negate(DigitsValue(d, radix)))
  {
    DigitsValueUpper(d, radix);
    var u := Upper(d);
    ParseDigitString(d, radix);
    ParseDigitString(u, radix);
    UpperAppend("-", d);
    UpperMinus();
  }

  lemma UpperMinus()
    ensures Upper("-") == "-"
  {
    var u := Upper("-");
    assert |u| == 1 && u[0] == UpperChar('-') == '-';
  }

  /** A canonical rendering: upper case, valid digits, no leading zero. */
  predicate Canonical(s: string, radix: Radix) {
    && |s| >= 1
    && AllDigitsIn(s, radix)
    && (forall i :: 0 <= i < |s| ==> '0' <= s[i] <= '9' || 'A' <= s[i] <= 'Z')
    && (|s| > 1 ==> s[0] != '0')
  }

  lemma CanonicalValuePositive(s: string, radix: Radix)
    requires Canonical(s, radix) && s[0] != '0'
    ensures DigitsValue(s, radix) >= 1
  {
    assert DigitVal(s[0]) >= 1;
    LeadingDigitValue(s, radix);
  }

  /** A non-zero leading digit makes the value positive. */
  lemma {:induction false} LeadingDigitValue(s: string, radix: Radix)
    requires |s| >= 1 && AllDigitsIn(s, radix) && DigitVal(s[0]) >= 1
    ensures DigitsValue(s, radix) >= 1
    decreases |s|
  {
    var p := s[..|s| - 1];
    assert AllDigitsIn(p, radix) by {
      forall i | 0 <= i < |p| ensures IsDigitIn(p[i], radix) {
        assert p[i] == s[i];
      }
    }
    if |s| == 1 {
      assert DigitsValue(p, radix) == 0;
    } else {
      assert p[0] == s[0];
      LeadingDigitValue(p, radix);
      MulBound(DigitsValue(p, radix), radix);
    }
  }

  lemma MulBound(q: nat, radix: Radix)
    requires q >= 1
    ensures q * radix >= radix
  {
    assert q * radix == (q - 1) * radix + radix;
  }

  /** An upper-case digit character is recovered from its value. */
  lemma DigitCharOfVal(c: char)
    requires '0' <= c <= '9' || 'A' <= c <= 'Z'
    ensures DigitVal(c) < 36
    ensures UpperChar(DigitChar(DigitVal(c))) == c
  {
  }

  lemma DigitsValueSnoc(p: string, c: char, radix: Radix)
    requires AllDigitsIn(p, radix) && IsDigitIn(c, radix)
    ensures AllDigitsIn(p + [c], radix)
    ensures DigitsValue(p + [c], radix) == DigitsValue(p, radix) * radix + DigitVal(c)
  {
    var s := p + [c];
    assert s[..|s| - 1] == p;
    assert s[|s| - 1] == c;
  }

  lemma RenderSingleDigit(s: string, radix: Radix)
    requires Canonical(s, radix) && |s| == 1
    ensures Upper(Digits(DigitsValue(s, radix), radix)) == s
  {
    var c := s[0];
    assert s[..0] == [];
    assert DigitsValue(s, radix) == DigitVal(c);
    DigitCharOfVal(c);
    var d := Digits(DigitVal(c), radix);
    assert d == [DigitChar(DigitVal(c))];
    assert Upper(d)[0] == c;
  }

  lemma RenderLastDigit(p: string, c: char, radix: Radix)
    requires Canonical(p, radix) && p[0] != '0'
    requires '0' <= c <= '9' || 'A' <= c <= 'Z'
    requires IsDigitIn(c, radix)
    requires Upper(Digits(DigitsValue(p, radix), radix)) == p
    ensures AllDigitsIn(p + [c], radix)
    ensures Upper(Digits(DigitsValue(p + [c], radix), radix)) == p + [c]
  {
    CanonicalValuePositive(p, radix);
    RenderSnoc(p, c, radix);
    DigitCharOfVal(c);
    var dc := DigitChar(DigitVal(c));
    UpperAppend(Digits(DigitsValue(p, radix), radix), [dc]);
    UpperSingle(dc, c);
  }

  /** Rendering the value of p + [c] appends c's digit to p's rendering. */
  lemma RenderSnoc(p: string, c: char, radix: Radix)
    requires AllDigitsIn(p, radix) && IsDigitIn(c, radix) && DigitsValue(p, radix) >= 1
    ensures AllDigitsIn(p + [c], radix)
    ensures Digits(DigitsValue(p + [c], radix), radix) == Digits(DigitsValue(p, radix), radix) + [DigitChar(DigitVal(c))]
  {
    DigitsValueSnoc(p, c, radix);
    DigitsSnoc(DigitsValue(p, radix), DigitVal(c), radix);
  }

  /** Appending a digit to a positive number appends its character. */
  lemma DigitsSnoc(q: nat, r: nat, radix: Radix)
    requires q >= 1 && r < radix
    ensures Digits(q * radix + r, radix) == Digits(q, radix) + [DigitChar(r)]
  {
    Division.DivOfSum(q, r, radix);
    MulBound(q, radix);
  }

  lemma UpperSingle(d: char, c: char)
    requires UpperChar(d) == c
    ensures Upper([d]) == [c]
  {
    assert Upper([d])[0] == c;
  }

  /** Dropping the last digit of a canonical string leaves one. */
  lemma CanonicalPrefix(s: string, radix: Radix)
    requires Canonical(s, radix) && |s| > 1
    ensures Canonical(s[..|s| - 1], radix)
  {
    var p := s[..|s| - 1];
    forall i | 0 <= i < |p|
      ensures IsDigitIn(p[i], radix) && ('0' <= p[i] <= '9' || 'A' <= p[i] <= 'Z')
    {
      assert p[i] == s[i];
    }
    assert p[0] == s[0];
  }

  /** The upper-case rendering of the value of a canonical string is that
      string. */
  lemma {:induction false} RenderCanonical(s: string, radix: Radix)
    requires Canonical(s, radix)
    ensures Upper(Digits(DigitsValue(s, radix), radix)) == s
    decreases |s|
  {
    if |s| == 1 {
      RenderSingleDigit(s, radix);
    } else {
      var p, c := s[..|s| - 1], s[|s| - 1];
      assert s == p + [c];
      CanonicalPrefix(s, radix);
      RenderCanonical(p, radix);
      RenderLastDigit(p, c, radix);
    }
  }

  /** `convertBase(value, fromBase, toBase)`: `parseInt` then
      `toString(toBase).toUpperCase()`; NaN renders as "NAN". */
  function ConvertBase(value: string, fromBase: Radix, toBase: Radix): (r: string)
    ensures ParseInt(value, fromBase).None? ==> r == "NAN"
    ensures ParseInt(value, fromBase).Some? ==> ParseInt(r, toBase) == ParseInt(value, fromBase)
  {
    match ParseInt(value, fromBase)
    case None => "NAN"
    case Some(v) =>
      ParseRender(v, toBase);
      Upper(NumberToString(v, toBase))
  }

  /** A non-empty string of valid digits parses to its value (no sign and
      no "0x" prefix can be present, since '-', '+' and 'x' are not digits). */
  lemma ParseAllDigits(s: string, radix: Radix)
    requires |s| >= 1 && AllDigitsIn(s, radix)
    ensures ParseInt(s, radix) == Some(DigitsValue(s, radix))
  {
    MagnitudeOfDigits(s, radix);
    ParseUnsigned(s, s, radix);
  }

  /** The upper-cased rendering of a natural number is canonical. */
  lemma UpperDigitsCanonical(v: nat, radix: Radix)
    ensures Canonical(Upper(Digits(v, radix)), radix)
  {
    var d := Digits(v, radix);
    var u := Upper(d);
    assert forall i :: 0 <= i < |u| ==> u[i] == UpperChar(d[i]);
    assert u[0] == UpperChar(d[0]);
  }

  /** On a non-empty string of valid digits, `convertBase` yields the
      canonical rendering of its value; converting back yields the
      canonical form of the input, which is the input itself when it was
      canonical already. */
  lemma ConvertBaseRoundTrip(s: string, fromBase: Radix, toBase: Radix)
    requires |s| >= 1 && AllDigitsIn(s, fromBase)
    ensures ConvertBase(s, fromBase, toBase) == Upper(Digits(DigitsValue(s, fromBase), toBase))
    ensures Canonical(ConvertBase(s, fromBase, toBase), toBase)
    ensures ConvertBase(ConvertBase(s, fromBase, toBase), toBase, fromBase)
            == ConvertBase(s, fromBase, fromBase)
    ensures Canonical(s, fromBase) ==> ConvertBase(ConvertBase(s, fromBase, toBase), toBase, fromBase) == s
  {
    var v := DigitsValue(s, fromBase);
    ParseAllDigits(s, fromBase);
    var once := ConvertBase(s, fromBase, toBase);
    assert once == Upper(Digits(v, toBase));
    UpperDigitsCanonical(v, toBase);
    ParseRender(v, toBase);
    assert ParseInt(once, toBase) == Some(v);
    if Canonical(s, fromBase) {
      RenderCanonical(s, fromBase);
    }
  }

  /** `value.padStart(width, fill)` for a one-character fill. */
  function PadStart(value: string, width: nat, fill: char): (r: string)
    ensures |r| == if |value| >= width then |value| else width
    ensures r[|r| - |value|..] == value
    ensures forall i :: 0 <= i < |r| - |value| ==> r[i] == fill
  {
    if |value| >= width then value else seq(width - |value|, _ => fill) + value
  }

  /** `formatBinary`: left-pad with '0' to at least 8 characters. */
  function FormatBinary(value: string): (r: string)
    ensures |r| == if |value| >= 8 then |value| else 8
    ensures r[|r| - |value|..] == value
    ensures forall i :: 0 <= i < |r| - |value| ==> r[i] == '0'
  {
    PadStart(value, 8, '0')
  }

  /** `formatHex`: left-pad with '0' to at least 2 characters, upper-cased. */
  function FormatHex(value: string): (r: string)
    ensures |r| == if |value| >= 2 then |value| else 2
    ensures r[|r| - |value|..] == Upper(value)
    ensures forall i :: 0 <= i < |r| - |value| ==> r[i] == '0'
  {
    var p := PadStart(value, 2, '0');
    assert Upper(p)[|p| - |value|..] == Upper(p[|p| - |value|..]);
    Upper(p)
  }

  /** The calculator's examples: "FF" in hexadecimal is 255, and 255 in
      binary is "11111111". */
  lemma HexExample()
    ensures ParseInt("FF", 16) == Some(255)
  {
    assert "FF"[..1] == "F" && "F"[..0] == [];
    assert DigitsValue("F", 16) == 15;
    assert DigitsValue("FF", 16) == 255;
    ParseDigitString("FF", 16);
  }

  lemma BinaryExample()
    ensures NumberToString(255, 2) == "11111111"
  {
    assert Digits(1, 2) == "1";
    assert Digits(3, 2) == "11";
    assert Digits(7, 2) == "111";
    assert Digits(15, 2) == "1111";
    assert Digits(31, 2) == "11111";
    assert Digits(63, 2) == "111111";
    assert Digits(127, 2) == "1111111";
    assert Digits(255, 2) == "11111111";
  }
}

=== FILE: scientific.dfy ===
/** The non-floating-point skeleton of `scientificCalculate`: the angle
    helpers, the factorial guard and loop, the polynomial cases and the
    pass-through default. Trigonometric, logarithmic, root, exponential and
    power functions are a parameter (`MathLib`). */
module Scientific {
  import opened Outcomes
  import opened JsNumber

  datatype AngleUnit = Deg | Rad

  /** `Math.PI`, the double nearest to pi, written as the exact rational it is. */
  const Pi: real := 884279719003555.0 / 281474976710656.0

  /** The floating-point library calls the source makes, left abstract. */
  datatype MathLib = MathLib(
    sin: Num -> Num, cos: Num -> Num, tan: Num -> Num,
    asin: Num -> Num, acos: Num -> Num, atan: Num -> Num,
    log10: Num -> Num, log: Num -> Num, sqrt: Num -> Num, exp: Num -> Num,
    pow: (Num, Num) -> Num)

  /** The operation names `scientificCalculate` switches on. */
  datatype SciFn =
    | Sin | Cos | Tan | Asin | Acos | Atan
    | Log | Ln | Sqrt | Square | Cube | Pow | Exp | Factorial
    | Unhandled(name: string)

  /** The fourteen case labels of the switch. */
  const Labels: set<string> :=
    {"sin", "cos", "tan", "asin", "acos", "atan", "log", "ln", "sqrt", "square", "cube", "pow", "exp", "factorial"}

  /** The label that selects each case; an unhandled operation keeps its name. */
  function NameOf(f: SciFn): string {
    match f
    case Sin => "sin"
    case Cos => "cos"
    case Tan => "tan"
    case Asin => "asin"
    case Acos => "acos"
    case Atan => "atan"
    case Log => "log"
    case Ln => "ln"
    case Sqrt => "sqrt"
    case Square => "square"
    case Cube => "cube"
    case Pow => "pow"
    case Exp => "exp"
    case Factorial => "factorial"
    case Unhandled(name) => name
  }

  /** The `switch (operation)` of `scientificCalculate`: every label selects
      the case it names, and every other name reaches the default case. */
  function FnOfName(name: string): (f: SciFn)
    ensures NameOf(f) == name
    ensures f == Unhandled(name) <==> name !in Labels
    ensures f.Factorial? <==> name == "factorial"
  {
    match name
    case "sin" => Sin
    case "cos" => Cos
    case "tan" => Tan
    case "asin" => Asin
    case "acos" => Acos
    case "atan" => Atan
    case "log" => Log
    case "ln" => Ln
    case "sqrt" => Sqrt
    case "square" => Square
    case "cube" => Cube
    case "pow" => Pow
    case "exp" => Exp
    case "factorial" => Factorial
    case _ => Unhandled(name)
  }

  /** `toRadians(angle, unit)`: `angle * Math.PI / 180` in degree mode. */
  function ToRadians(angle: Num, unit: AngleUnit): (r: Num)
    ensures r.Fin? <==> angle.Fin?
    ensures angle.Fin? && unit == Deg ==> r.r * 180.0 == angle.r * Pi
    ensures !angle.Fin? ==> r == angle
  {
    if unit == Deg then Div(Mul(angle, Fin(Pi)), Fin(180.0)) else angle
  }

  /** `fromRadians(angle, unit)`: `angle * 180 / Math.PI` in degree mode. */
  function FromRadians(angle: Num, unit: AngleUnit): (r: Num)
    ensures r.Fin? <==> angle.Fin?
    ensures angle.Fin? && unit == Deg ==> r.r * Pi == angle.r * 180.0
    ensures !angle.Fin? ==> r == angle
  {
    if unit == Deg then Div(Mul(angle, Fin(180.0)), Fin(Pi)) else angle
  }

  /** Over exact arithmetic the two helpers are inverse to each other in
      both units, and both are the identity in radian mode. */
  lemma RadiansRoundTrip(angle: Num, unit: AngleUnit)
    ensures FromRadians(ToRadians(angle, unit), unit) == angle
    ensures ToRadians(FromRadians(angle, unit), unit) == angle
    ensures unit == Rad ==> ToRadians(angle, unit) == angle && FromRadians(angle, unit) == angle
  {
    if unit == Deg && angle.Fin? {
      var a := angle.r;
      calc {
        (a * Pi / 180.0) * 180.0 / Pi;
        a * (Pi / Pi) * (180.0 / 180.0);
        a;
      }
      calc {
        (a * 180.0 / Pi) * Pi / 180.0;
        a * (Pi / Pi) * (180.0 / 180.0);
        a;
      }
    }
  }

  /** n!, the reference definition */
  function Fact(n: nat): (r: nat)
    ensures r >= 1 && r >= n
  {
    if n == 0 then 1 else n * Fact(n - 1)
  }

  /** The source's loop `for (i = 2; i <= value; i++) result *= i`, entered
      with `result` holding (i-1)!. */
  function FactorialLoop(i: nat, n: nat, result: nat): (r: nat)
    requires 2 <= i <= n + 1 || (i == 2 && n < 2)
    requires result == Fact(i - 1)
    ensures r == Fact(n)
    decreases n + 1 - i
  {
    if i > n then result else FactorialLoop(i + 1, n, result * i)
  }

  datatype SciError =
    | NotNonNegativeInteger   // the error thrown for a negative or fractional factorial
    | Diverges                // the factorial loop never ends (value is +Infinity)

  /** The factorial case: the guard `value < 0 || value !== Math.floor(value)`
      and the loop. NaN fails the guard (NaN !== NaN); -Infinity is negative;
      +Infinity passes the guard and the loop never terminates. */
  function FactorialOf(value: Num): (r: Result<Num, SciError>)
    ensures value.Fin? && value.r >= 0.0 && value.r == value.r.Floor as real
            ==> r == Success(Fin(Fact(value.r.Floor) as real))
    ensures value.Fin? && (value.r < 0.0 || value.r != value.r.Floor as real)
            ==> r == Failure(NotNonNegativeInteger)
    ensures value.NaN? || value == Inf(true) ==> r == Failure(NotNonNegativeInteger)
    ensures value == Inf(false) ==> r == Failure(Diverges)
  {
    match value
    case NaN => Failure(NotNonNegativeInteger)
    case Inf(negative) => if negative then Failure(NotNonNegativeInteger) else Failure(Diverges)
    case Fin(x) =>
      if x < 0.0 || x != x.Floor as real then Failure(NotNonNegativeInteger)
      else Success(Fin(FactorialLoop(2, x.Floor, 1) as real))
  }

  /** `scientificCalculate(value, operation, angleUnit)` */
  function ScientificCalculate(value: Num, f: SciFn, unit: AngleUnit, lib: MathLib): (r: Result<Num, SciError>)
    ensures r.Failure? ==> f.Factorial?
    ensures f.Unhandled? ==> r == Success(value)
    ensures f.Sin? ==> r == Success(lib.sin(ToRadians(value, unit)))
    ensures f.Asin? ==> r == Success(FromRadians(lib.asin(value), unit))
    ensures f.Cos? ==> r == Success(lib.cos(ToRadians(value, unit)))
    ensures f.Tan? ==> r == Success(lib.tan(ToRadians(value, unit)))
    ensures f.Acos? ==> r == Success(FromRadians(lib.acos(value), unit))
    ensures f.Atan? ==> r == Success(FromRadians(lib.atan(value), unit))
    ensures f.Log? ==> r == Success(lib.log10(value))
    ensures f.Ln? ==> r == Success(lib.log(value))
    ensures f.Sqrt? ==> r == Success(lib.sqrt(value))
    ensures f.Pow? ==> r == Success(lib.pow(value, Fin(2.0)))
    ensures f.Exp? ==> r == Success(lib.exp(value))
    ensures f.Square? ==> r == Success(Mul(value, value))
    ensures f.Cube? ==> r == Success(Mul(Mul(value, value), value))
    ensures f.Square? && value.Fin? ==> r == Success(Fin(value.r * value.r))
    ensures f.Cube? && value.Fin? ==> r == Success(Fin(value.r * value.r * value.r))
    ensures (f.Square? || f.Cube?) && value.NaN? ==> r == Success(NaN)
    ensures f.Square? && value.Inf? ==> r == Success(Inf(false))
    ensures f.Cube? && value.Inf? ==> r == Success(value)
    ensures f.Factorial? ==> r == FactorialOf(value)
  {
    match f
    case Sin => Success(lib.sin(ToRadians(value, unit)))
    case Cos => Success(lib.cos(ToRadians(value, unit)))
    case Tan => Success(lib.tan(ToRadians(value, unit)))
    case Asin => Success(FromRadians(lib.asin(value), unit))
    case Acos => Success(FromRadians(lib.acos(value), unit))
    case Atan => Success(FromRadians(lib.atan(value), unit))
    case Log => Success(lib.log10(value))
    case Ln => Success(lib.log(value))
    case Sqrt => Success(lib.sqrt(value))
    case Square =>
      var sq := Mul(value, value);
      assert value.Fin? ==> sq == Fin(value.r * value.r);
      assert value.Inf? ==> sq == Inf(false);
      Success(sq)
    case Cube =>
      var sq := Mul(value, value);
      assert value.Fin? ==> sq == Fin(value.r * value.r);
      assert value.Inf? ==> sq == Inf(false);
      var cube := Mul(sq, value);
      assert value.Fin? ==> cube == Fin(value.r * value.r * value.r);
      assert value.Inf? ==> cube == value;
      Success(cube)
    case Pow => Success(lib.pow(value, Fin(2.0)))
    case Exp => Success(lib.exp(value))
    case Factorial => FactorialOf(value)
    case Unhandled(_) => Success(value)
  }

  /** Factorial accepts exactly the finite non-negative integers, and then
      computes n!; 0! = 1! = 1 and 5! = 120; -1 and 2.5 are refused. */
  lemma FactorialSpec(value: Num, unit: AngleUnit, lib: MathLib)
    ensures ScientificCalculate(value, Factorial, unit, lib).Success?
            <==> value.Fin? && value.r >= 0.0 && value.r == value.r.Floor as real
    ensures forall n: nat :: ScientificCalculate(Fin(n as real), Factorial, unit, lib) == Success(Fin(Fact(n) as real))
    ensures ScientificCalculate(Fin(0.0), Factorial, unit, lib) == Success(Fin(1.0))
    ensures ScientificCalculate(Fin(1.0), Factorial, unit, lib) == Success(Fin(1.0))
    ensures ScientificCalculate(Fin(5.0), Factorial, unit, lib) == Success(Fin(120.0))
    ensures ScientificCalculate(Fin(-1.0), Factorial, unit, lib) == Failure(NotNonNegativeInteger)
    ensures ScientificCalculate(Fin(2.5), Factorial, unit, lib) == Failure(NotNonNegativeInteger)
  {
    forall n: nat ensures ScientificCalculate(Fin(n as real), Factorial, unit, lib) == Success(Fin(Fact(n) as real)) {
      assert (n as real).Floor == n;
    }
    assert Fact(5) == 120 by {
      assert Fact(1) == 1;
      assert Fact(2) == 2;
      assert Fact(3) == 6;
      assert Fact(4) == 24;
    }
    assert (5.0).Floor == 5;
    assert (2.5).Floor == 2;
  }

  /** Reading the label of a handled case selects that case again, so the
      labels and the fourteen cases correspond one to one. */
  lemma LabelRoundTrip(f: SciFn)
    ensures !f.Unhandled? ==> NameOf(f) in Labels && FnOfName(NameOf(f)) == f
    ensures f.Unhandled? && f.name !in Labels ==> FnOfName(NameOf(f)) == f
  {
  }

  /** Every name the switch does not list ('reciprocal' and 'abs' among
      them) returns the value unchanged. */
  lemma UnlistedNamesPassThrough(value: Num, unit: AngleUnit, lib: MathLib)
    ensures forall name :: name !in Labels ==> ScientificCalculate(value, FnOfName(name), unit, lib) == Success(value)
    ensures ScientificCalculate(value, FnOfName("reciprocal"), unit, lib) == Success(value)
    ensures ScientificCalculate(value, FnOfName("abs"), unit, lib) == Success(value)
  {
  }
}

=== FILE: scientific_screen.dfy ===
/** The scientific screen: the shared calculator transitions without a
    history, the angle-unit toggle and the scientific function keys. */
module ScientificScreen {
  import opened Outcomes
  import opened JsNumber
  import opened Arithmetic
  import opened CalculatorCore
  import opened Scientific

  /** How a press can end other than with a new state: `calculate` throws,
      or the factorial loop on +Infinity never returns. */
  datatype PressError = Thrown(error: CalcError) | NeverReturns

  function InitialScientific(): (s: State)
    ensures s == Initial(ScientificMode)
  {
    Initial(ScientificMode)
  }

  /** 'toggle-angle': flips between degrees and radians and changes nothing else. */
  function ToggleAngle(s: State): (t: State)
    ensures t.angleUnit != s.angleUnit
    ensures t == s.(angleUnit := t.angleUnit)
  {
    s.(angleUnit := if s.angleUnit == Deg then Rad else Deg)
  }

  lemma ToggleAngleTwice(s: State)
    ensures ToggleAngle(ToggleAngle(s)) == s
  {
  }

  /** `handleFunctionInput(func)` of this screen: the shared functions plus
      'toggle-angle'. */
  function FunctionKey(s: State, func: string, nt: NumberText): (r: Result<State, CalcError>)
    ensures func == "toggle-angle" ==> r == Success(ToggleAngle(s))
    ensures func != "toggle-angle" ==> r == (var t :- FunctionInput(s, func, nt); Success(t.state))
    ensures r.Success? && Consistent(s) ==> Consistent(r.value)
  {
    if func == "toggle-angle" then Success(ToggleAngle(s))
    else
      var t :- FunctionInput(s, func, nt);
      Success(t.state)
  }

  /** `handleScientificInput(func)`: the result is shown and a new operand
      starts; a thrown error shows "Error". The pending operand, operation,
      angle unit and mode are never touched. */
  function ScientificKey(s: State, func: string, lib: MathLib, nt: NumberText): (r: Result<State, PressError>)
    ensures r.Success? ==> r.value.waitingForNewValue
    ensures r.Success? ==> r.value == s.(display := r.value.display, waitingForNewValue := true)
    ensures ScientificCalculate(nt.parse(s.display), FnOfName(func), s.angleUnit, lib).Success? ==>
              r == Success(s.(display := nt.format(ScientificCalculate(nt.parse(s.display), FnOfName(func), s.angleUnit, lib).value),
                              waitingForNewValue := true))
    ensures ScientificCalculate(nt.parse(s.display), FnOfName(func), s.angleUnit, lib).Failure? && r.Success? ==>
              r.value.display == "Error"
    ensures r.Failure? <==> func == "factorial" && nt.parse(s.display) == Inf(false)
  {
    match ScientificCalculate(nt.parse(s.display), FnOfName(func), s.angleUnit, lib)
    case Success(v) => Success(s.(display := nt.format(v), waitingForNewValue := true))
    case Failure(Diverges) => Failure(NeverReturns)
    case Failure(NotNonNegativeInteger) => Success(s.(display := "Error", waitingForNewValue := true))
  }

  /** `handleButtonPress(type, value)` on the scientific screen. */
  function Press(s: State, kind: string, value: string, lib: MathLib, nt: NumberText): (r: Result<State, PressError>)
    ensures kind == "number" ==> r == Success(NumberInput(s, value))
    ensures kind == "operator" ==> r == (match OperatorInput(s, value, nt)
                                         case Success(t) => Success(t.state)
                                         case Failure(e) => Failure(Thrown(e)))
    ensures kind == "function" ==> r == (match FunctionKey(s, value, nt)
                                         case Success(t) => Success(t)
                                         case Failure(e) => Failure(Thrown(e)))
    ensures kind == "scientific" ==> r == ScientificKey(s, value, lib, nt)
    ensures kind !in {"number", "operator", "function", "scientific"} ==> r == Success(s)
    ensures r.Success? && Consistent(s) ==> Consistent(r.value)
  {
    match kind
    case "number" => Success(NumberInput(s, value))
    case "operator" =>
      (match OperatorInput(s, value, nt)
       case Success(t) => Success(t.state)
       case Failure(e) => Failure(Thrown(e)))
    case "function" =>
      (match FunctionKey(s, value, nt)
       case Success(t) => Success(t)
       case Failure(e) => Failure(Thrown(e)))
    case "scientific" => ScientificKey(s, value, lib, nt)
    case _ => Success(s)
  }

  /** The factorial key shows "Error" for -1 and 2.5 and 120 for 5; the
      '1/x' and '|x|' keys send names the library does not handle, so the
      display shows the parsed value again. */
  lemma ScientificKeyExamples(s: State, lib: MathLib, nt: NumberText)
    ensures nt.parse(s.display) == Fin(-1.0) ==> ScientificKey(s, "factorial", lib, nt) == Success(s.(display := "Error", waitingForNewValue := true))
    ensures nt.parse(s.display) == Fin(2.5) ==> ScientificKey(s, "factorial", lib, nt) == Success(s.(display := "Error", waitingForNewValue := true))
    ensures nt.parse(s.display) == Fin(5.0) ==> ScientificKey(s, "factorial", lib, nt) == Success(s.(display := nt.format(Fin(120.0)), waitingForNewValue := true))
    ensures ScientificKey(s, "reciprocal", lib, nt) == Success(s.(display := nt.format(nt.parse(s.display)), waitingForNewValue := true))
    ensures ScientificKey(s, "abs", lib, nt) == Success(s.(display := nt.format(nt.parse(s.display)), waitingForNewValue := true))
  {
    FactorialSpec(nt.parse(s.display), s.angleUnit, lib);
    UnlistedNamesPassThrough(nt.parse(s.display), s.angleUnit, lib);
  }

  /** Clear keeps the angle unit and the mode; the toggle keeps everything
      but the angle unit. */
  lemma ClearKeepsAngle(s: State, lib: MathLib, nt: NumberText)
    ensures Press(s, "function", "clear", lib, nt) == Success(ClearInput(s))
    ensures Press(s, "function", "clear", lib, nt).value.angleUnit == s.angleUnit
    ensures Press(s, "function", "clear", lib, nt).value.mode == s.mode
    ensures Press(s, "function", "toggle-angle", lib, nt) == Success(ToggleAngle(s))
  {
  }
}

=== FILE: solver.dfy ===
/** `solveLinearEquation` from src/utils/calculate.ts: Gaussian elimination
    without pivoting on the augmented matrix, then back substitution, over
    exact reals. Where the source would divide by a zero pivot (and go on
    with infinities and NaN) the model stops with `ZeroPivot`. */
module LinearSolver {
  import opened Outcomes
  import Matrices

  datatype SolveError = ZeroPivot(column: nat)

  /** row[lo]*x[lo] + ... + row[hi-1]*x[hi-1], accumulated upward. */
  function Sum(row: seq<real>, x: seq<real>, lo: nat, hi: nat): real
    requires hi <= |row| && hi <= |x|
    decreases hi
  {
    if hi <= lo then 0.0 else Sum(row, x, lo, hi - 1) + row[hi - 1] * x[hi - 1]
  }

  /** An augmented system of n equations: n rows of n coefficients and a constant. */
  predicate Shaped(m: seq<seq<real>>, n: nat) {
    |m| == n && forall r :: 0 <= r < n ==> |m[r]| == n + 1
  }

  predicate SolvesAugmented(m: seq<seq<real>>, x: seq<real>, n: nat)
    requires Shaped(m, n) && |x| == n
  {
    forall r :: 0 <= r < n ==> Sum(m[r], x, 0, n) == m[r][n]
  }

  /** x solves a·x = c. */
  predicate Solves(a: Matrices.Matrix, c: seq<real>, x: seq<real>)
    requires Matrices.HasShape(a, |a|, |a|) && |c| == |a| && |x| == |a|
  {
    forall r :: 0 <= r < |a| ==> Sum(a[r], x, 0, |a|) == c[r]
  }

  /** Below the diagonal, the first i columns are zero. */
  predicate ZerosBelow(m: seq<seq<real>>, n: nat, i: nat)
    requires Shaped(m, n)
  {
    forall r, col :: 0 <= r < n && 0 <= col < i && col < r ==> m[r][col] == 0.0
  }

  /** Each coefficient row with its constant appended. */
  function Augment(a: Matrices.Matrix, c: seq<real>): (m: seq<seq<real>>)
    requires Matrices.HasShape(a, |a|, |a|) && |c| == |a|
    ensures Shaped(m, |a|)
    ensures forall r, k :: 0 <= r < |a| && 0 <= k < |a| ==> m[r][k] == a[r][k]
    ensures forall r :: 0 <= r < |a| ==> m[r][|a|] == c[r]
  {
    seq(|a|, r requires 0 <= r < |a| => a[r] + [c[r]])
  }

  /** The innermost loop: columns from i on lose factor times the pivot row. */
  function EliminateRow(row: seq<real>, pivotRow: seq<real>, i: nat, factor: real): (r: seq<real>)
    requires |pivotRow| == |row|
    ensures |r| == |row|
    ensures forall k :: 0 <= k < i && k < |row| ==> r[k] == row[k]
    ensures forall k :: i <= k < |row| ==> r[k] == row[k] - factor * pivotRow[k]
  {
    seq(|row|, k requires 0 <= k < |row| => if k < i then row[k] else row[k] - factor * pivotRow[k])
  }

  /** One pass of the outer elimination loop, with pivot row i. */
  function Step(m: seq<seq<real>>, i: nat, n: nat): (r: seq<seq<real>>)
    requires Shaped(m, n) && i < n && m[i][i] != 0.0
    ensures Shaped(r, n)
    ensures forall j :: 0 <= j <= i ==> r[j] == m[j]
  {
    seq(n, j requires 0 <= j < n =>
      if j <= i then m[j] else EliminateRow(m[j], m[i], i, m[j][i] / m[i][i]))
  }

  lemma StepZeros(m: seq<seq<real>>, i: nat, n: nat)
    requires Shaped(m, n) && i < n && m[i][i] != 0.0 && ZerosBelow(m, n, i)
    ensures ZerosBelow(Step(m, i, n), n, i + 1)
  {
    var s := Step(m, i, n);
    forall r, col | 0 <= r < n && 0 <= col < i + 1 && col < r
      ensures s[r][col] == 0.0
    {
      if r > i {
        StepRowZeros(m, i, n, r);
      }
    }
  }

  /** One row below the pivot after the step: zeros in columns up to i. */
  lemma StepRowZeros(m: seq<seq<real>>, i: nat, n: nat, r: nat)
    requires Shaped(m, n) && i < r < n && m[i][i] != 0.0 && ZerosBelow(m, n, i)
    ensures forall col :: 0 <= col <= i ==> Step(m, i, n)[r][col] == 0.0
  {
    var s := Step(m, i, n);
    var f := m[r][i] / m[i][i];
    StepRow(m, i, n, r);
    assert s[r][i] == m[r][i] - f * m[i][i];
    QuotientTimesDivisor(m[r][i], m[i][i]);
    forall col | 0 <= col < i
      ensures s[r][col] == 0.0
    {
      assert s[r][col] == m[r][col];
    }
  }

  lemma QuotientTimesDivisor(a: real, b: real)
    requires b != 0.0
    ensures (a / b) * b == a
  {
  }

  /** Forward elimination from pivot row i on: either every pivot met is
      non-zero and the result is upper triangular, or the first zero pivot. */
  function Forward(m: seq<seq<real>>, i: nat, n: nat): (r: Result<seq<seq<real>>, SolveError>)
    requires Shaped(m, n) && i <= n && ZerosBelow(m, n, i)
    ensures r.Success? ==> Shaped(r.value, n) && ZerosBelow(r.value, n, n)
    ensures r.Success? ==> forall k :: i <= k < n ==> r.value[k][k] != 0.0
    ensures r.Success? ==> forall k :: 0 <= k < i ==> r.value[k] == m[k]
    ensures r.Failure? ==> i <= r.error.column < n
    decreases n - i
  {
    if i == n then Success(m)
    else if m[i][i] == 0.0 then Failure(ZeroPivot(i))
    else
      StepZeros(m, i, n);
      Forward(Step(m, i, n), i + 1, n)
  }

  /** Back substitution, filling solution entries k-1, k-2, ..., 0. */
  function BackFrom(u: seq<seq<real>>, k: nat, sol: seq<real>, n: nat): (x: seq<real>)
    requires Shaped(u, n) && k <= n && |sol| == n
    requires forall r :: 0 <= r < n ==> u[r][r] != 0.0
    ensures |x| == n
    decreases k
  {
    if k == 0 then sol
    else
      var i := k - 1;
      BackFrom(u, i, sol[i := (u[i][n] - Sum(u[i], sol, i + 1, n)) / u[i][i]], n)
  }

  /** `solveLinearEquation(a, c)` */
  function Solve(a: Matrices.Matrix, c: seq<real>): (r: Result<seq<real>, SolveError>)
    requires Matrices.HasShape(a, |a|, |a|) && |c| == |a|
    ensures r.Success? ==> |r.value| == |a| && Solves(a, c, r.value)
  {
    var n := |a|;
    var m := Augment(a, c);
    var f := Forward(m, 0, n);
    if f.Failure? then Failure(f.error)
    else
      var u := f.value;
      var x := BackFrom(u, n, seq(n, _ => 0.0), n);
      BackSolves(u, n, seq(n, _ => 0.0), n);
      UpperRowSums(u, x, n);
      ForwardSound(m, 0, n, x, u);
      AugmentedSolves(a, c, x);
      Success(x)
  }

  // ---------------------------------------------------------------------
  // Sums

  lemma {:induction false} SumSplit(row: seq<real>, x: seq<real>, lo: nat, mid: nat, hi: nat)
    requires lo <= mid <= hi <= |row| && hi <= |x|
    ensures Sum(row, x, lo, hi) == Sum(row, x, lo, mid) + Sum(row, x, mid, hi)
    decreases hi
  {
    if hi > mid {
      SumSplit(row, x, lo, mid, hi - 1);
    }
  }

  /** A sum only looks at the entries in [lo, hi). */
  lemma {:induction false} SumFrame(row1: seq<real>, x1: seq<real>, row2: seq<real>, x2: seq<real>, lo: nat, hi: nat)
    requires hi <= |row1| && hi <= |x1| && hi <= |row2| && hi <= |x2|
    requires forall k :: lo <= k < hi ==> row1[k] == row2[k] && x1[k] == x2[k]
    ensures Sum(row1, x1, lo, hi) == Sum(row2, x2, lo, hi)
    decreases hi
  {
    if hi > lo {
      SumFrame(row1, x1, row2, x2, lo, hi - 1);
    }
  }

  /** Sums are linear in the row. */
  lemma {:induction false} SumLinear(a: seq<real>, b: seq<real>, c: seq<real>, x: seq<real>, f: real, lo: nat, hi: nat)
    requires hi <= |a| && hi <= |b| && hi <= |c| && hi <= |x|
    requires forall k :: lo <= k < hi ==> a[k] == b[k] - f * c[k]
    ensures Sum(b, x, lo, hi) == Sum(a, x, lo, hi) + f * Sum(c, x, lo, hi)
    decreases hi
  {
    if hi > lo {
      SumLinear(a, b, c, x, f, lo, hi - 1);
      var h := hi - 1;
      assert a[h] * x[h] == b[h] * x[h] - f * (c[h] * x[h]);
    }
  }

  lemma {:induction false} SumOfZeros(row: seq<real>, x: seq<real>, lo: nat, hi: nat)
    requires hi <= |row| && hi <= |x|
    requires forall k :: lo <= k < hi ==> row[k] == 0.0
    ensures Sum(row, x, lo, hi) == 0.0
    decreases hi
  {
    if hi > lo {
      SumOfZeros(row, x, lo, hi - 1);
    }
  }

  // ---------------------------------------------------------------------
  // Soundness

  /** A solution of the system after one elimination pass solves the
      system before it: row j only lost a multiple of the pivot row. */
  lemma StepSound(m: seq<seq<real>>, i: nat, n: nat, x: seq<real>)
    requires Shaped(m, n) && i < n && m[i][i] != 0.0 && ZerosBelow(m, n, i) && |x| == n
    requires SolvesAugmented(Step(m, i, n), x, n)
    ensures SolvesAugmented(m, x, n)
  {
    var s := Step(m, i, n);
    assert s[i] == m[i];
    forall r | 0 <= r < n
      ensures Sum(m[r], x, 0, n) == m[r][n]
    {
      if r > i {
        assert Residual(s[r], x, n) == 0.0 && Residual(m[i], x, n) == 0.0;
        StepRowSound(m, i, n, x, r);
      } else {
        assert s[r] == m[r];
      }
    }
  }

  /** Row r below the pivot lost f times the pivot row, constant included;
      so did its residual, and the pivot row's equation gives r's back. */
  lemma StepRowSound(m: seq<seq<real>>, i: nat, n: nat, x: seq<real>, r: nat)
    requires Shaped(m, n) && i < r < n && m[i][i] != 0.0 && ZerosBelow(m, n, i) && |x| == n
    requires Residual(Step(m, i, n)[r], x, n) == 0.0 && Residual(m[i], x, n) == 0.0
    ensures Residual(m[r], x, n) == 0.0
  {
    StepRow(m, i, n, r);
    assert forall k :: 0 <= k < i ==> m[i][k] == 0.0;
    EliminatedRowSound(m[r], m[i], x, i, n, m[r][i] / m[i][i]);
  }

  /** Whatever the factor, a row that lost a multiple of a satisfied pivot
      row, zero before column i, is satisfied only if it was before. */
  lemma EliminatedRowSound(b: seq<real>, c: seq<real>, x: seq<real>, i: nat, n: nat, f: real)
    requires |b| == |c| == n + 1 && |x| == n
    requires forall k :: 0 <= k < i && k < |c| ==> c[k] == 0.0
    requires Residual(EliminateRow(b, c, i, f), x, n) == 0.0 && Residual(c, x, n) == 0.0
    ensures Residual(b, x, n) == 0.0
  {
    var row := EliminateRow(b, c, i, f);
    RowDifference(row, b, c, i, f);
    RowEquation(row, b, c, x, f, n);
  }

  /** Row r of a pass below the pivot is the innermost loop's result. */
  lemma StepRow(m: seq<seq<real>>, i: nat, n: nat, r: nat)
    requires Shaped(m, n) && i < r < n && m[i][i] != 0.0
    ensures Step(m, i, n)[r] == EliminateRow(m[r], m[i], i, m[r][i] / m[i][i])
  {
  }

  /** Below column i the pivot row is zero, so the whole row lost f times it. */
  lemma RowDifference(row: seq<real>, b: seq<real>, c: seq<real>, i: nat, f: real)
    requires |row| == |b| == |c|
    requires forall k :: 0 <= k < i && k < |row| ==> row[k] == b[k] && c[k] == 0.0
    requires forall k :: i <= k < |row| ==> row[k] == b[k] - f * c[k]
    ensures forall k :: 0 <= k < |row| ==> row[k] == b[k] - f * c[k]
  {
  }

  /** How far a row's equation is from holding at x. */
  function Residual(row: seq<real>, x: seq<real>, n: nat): real
    requires |row| == n + 1 && |x| == n
  {
    Sum(row, x, 0, n) - row[n]
  }

  /** If a = b - f c entry-wise, the residuals combine the same way. */
  lemma ResidualLinear(a: seq<real>, b: seq<real>, c: seq<real>, x: seq<real>, f: real, n: nat)
    requires |a| == |b| == |c| == n + 1 && |x| == n
    requires forall k :: 0 <= k <= n ==> a[k] == b[k] - f * c[k]
    ensures Residual(b, x, n) == Residual(a, x, n) + f * Residual(c, x, n)
  {
    SumLinear(a, b, c, x, f, 0, n);
  }

  /** If a = b - f c entry-wise, and a and c satisfy their equations, so
      does b. */
  lemma RowEquation(a: seq<real>, b: seq<real>, c: seq<real>, x: seq<real>, f: real, n: nat)
    requires |a| == |b| == |c| == n + 1 && |x| == n
    requires forall k :: 0 <= k <= n ==> a[k] == b[k] - f * c[k]
    requires Residual(a, x, n) == 0.0 && Residual(c, x, n) == 0.0
    ensures Residual(b, x, n) == 0.0
  {
    ResidualLinear(a, b, c, x, f, n);
  }

  lemma {:induction false} ForwardSound(m: seq<seq<real>>, i: nat, n: nat, x: seq<real>, u: seq<seq<real>>)
    requires Shaped(m, n) && i <= n && ZerosBelow(m, n, i) && |x| == n
    requires Forward(m, i, n) == Success(u)
    requires SolvesAugmented(u, x, n)
    ensures SolvesAugmented(m, x, n)
    decreases n - i
  {
    if i < n {
      ForwardNext(m, i, n, u);
      ForwardSound(Step(m, i, n), i + 1, n, x, u);
      StepSound(m, i, n, x);
    } else {
      ForwardDone(m, n, u);
    }
  }

  /** Elimination from past the last row returns the system unchanged. */
  lemma ForwardDone(m: seq<seq<real>>, n: nat, u: seq<seq<real>>)
    requires Shaped(m, n) && ZerosBelow(m, n, n)
    requires Forward(m, n, n) == Success(u)
    ensures u == m
  {
  }

  /** The elimination that ends in u from row i ends in u from row i + 1
      after the step for column i. */
  lemma ForwardNext(m: seq<seq<real>>, i: nat, n: nat, u: seq<seq<real>>)
    requires Shaped(m, n) && i < n && ZerosBelow(m, n, i)
    requires Forward(m, i, n) == Success(u)
    ensures m[i][i] != 0.0
    ensures Shaped(Step(m, i, n), n) && ZerosBelow(Step(m, i, n), n, i + 1)
    ensures Forward(Step(m, i, n), i + 1, n) == Success(u)
  {
    ForwardUnfold(m, i, n);
  }

  /** A successful elimination from row i is the step for column i followed
      by elimination from row i + 1. */
  lemma ForwardUnfold(m: seq<seq<real>>, i: nat, n: nat)
    requires Shaped(m, n) && i < n && ZerosBelow(m, n, i)
    requires Forward(m, i, n).Success?
    ensures m[i][i] != 0.0
    ensures Shaped(Step(m, i, n), n) && ZerosBelow(Step(m, i, n), n, i + 1)
    ensures Forward(m, i, n) == Forward(Step(m, i, n), i + 1, n)
  {
    StepZeros(m, i, n);
  }

  /** Elimination stops at the first pivot it meets that is zero: a zero
      pivot at the starting row is reported at once, and a failure reported
      for the starting row means its pivot is zero. */
  lemma ForwardStopsAtZeroPivot(m: seq<seq<real>>, i: nat, n: nat)
    requires Shaped(m, n) && i <= n && ZerosBelow(m, n, i)
    ensures i < n && m[i][i] == 0.0 ==> Forward(m, i, n) == Failure(ZeroPivot(i))
    ensures Forward(m, i, n).Failure? && Forward(m, i, n).error.column == i ==> m[i][i] == 0.0
  {
    if i < n && m[i][i] != 0.0 {
      StepZeros(m, i, n);
      assert Forward(m, i, n) == Forward(Step(m, i, n), i + 1, n);
    }
  }

  /** The system as elimination leaves it once columns i .. k-1 are done,
      or None when one of those columns meets a zero pivot: the reference
      stages of Gaussian elimination without row exchanges. */
  function Stage(m: seq<seq<real>>, i: nat, k: nat, n: nat): (r: Option<seq<seq<real>>>)
    requires Shaped(m, n) && i <= k <= n && ZerosBelow(m, n, i)
    ensures r.Some? ==> Shaped(r.value, n) && ZerosBelow(r.value, n, k)
    ensures r.Some? ==> forall q :: 0 <= q < i ==> r.value[q] == m[q]
    decreases k - i
  {
    if i == k then Some(m)
    else if m[i][i] == 0.0 then None
    else
      StepZeros(m, i, n);
      Stage(Step(m, i, n), i + 1, k, n)
  }

  /** Elimination reports a zero pivot at column k exactly when it reaches
      column k, every earlier pivot being non-zero, and the pivot it finds
      there is zero. */
  lemma {:induction false} ForwardFailsAtStage(m: seq<seq<real>>, i: nat, k: nat, n: nat)
    requires Shaped(m, n) && i <= k < n && ZerosBelow(m, n, i)
    ensures Forward(m, i, n) == Failure(ZeroPivot(k)) <==> Stage(m, i, k, n).Some? && Stage(m, i, k, n).value[k][k] == 0.0
    decreases k - i
  {
    ForwardStopsAtZeroPivot(m, i, n);
    if i == k {
      assert Stage(m, i, k, n) == Some(m);
    } else if m[i][i] == 0.0 {
      assert Forward(m, i, n) == Failure(ZeroPivot(i));
      assert Stage(m, i, k, n) == None;
    } else {
      StepZeros(m, i, n);
      assert Forward(m, i, n) == Forward(Step(m, i, n), i + 1, n);
      assert Stage(m, i, k, n) == Stage(Step(m, i, n), i + 1, k, n);
      ForwardFailsAtStage(Step(m, i, n), i + 1, k, n);
    }
  }

  /** Elimination succeeds exactly when it passes every column, and its
      result is then the last stage. */
  lemma {:induction false} ForwardSucceedsAtLastStage(m: seq<seq<real>>, i: nat, n: nat)
    requires Shaped(m, n) && i <= n && ZerosBelow(m, n, i)
    ensures Forward(m, i, n).Success? <==> Stage(m, i, n, n).Some?
    ensures Forward(m, i, n).Success? ==> Forward(m, i, n).value == Stage(m, i, n, n).value
    decreases n - i
  {
    if i < n && m[i][i] != 0.0 {
      StepZeros(m, i, n);
      assert Forward(m, i, n) == Forward(Step(m, i, n), i + 1, n);
      ForwardSucceedsAtLastStage(Step(m, i, n), i + 1, n);
    }
  }

  /** The solver returns a vector exactly when elimination of the augmented
      system meets no zero pivot, and reports a zero pivot at column k
      exactly when the stage reached at column k has a zero there. */
  lemma SolveOutcome(a: Matrices.Matrix, c: seq<real>, k: nat)
    requires Matrices.HasShape(a, |a|, |a|) && |c| == |a| && k < |a|
    ensures Solve(a, c).Success? <==> Stage(Augment(a, c), 0, |a|, |a|).Some?
    ensures Solve(a, c) == Failure(ZeroPivot(k))
            <==> Stage(Augment(a, c), 0, k, |a|).Some? && Stage(Augment(a, c), 0, k, |a|).value[k][k] == 0.0
  {
    ForwardSucceedsAtLastStage(Augment(a, c), 0, |a|);
    ForwardFailsAtStage(Augment(a, c), 0, k, |a|);
  }

  /** Back substitution makes every row from k on hold, counting the row
      from its diagonal, and never changes the entries it already set. */
  lemma {:induction false} BackSolves(u: seq<seq<real>>, k: nat, sol: seq<real>, n: nat)
    requires Shaped(u, n) && k <= n && |sol| == n
    requires forall r :: 0 <= r < n ==> u[r][r] != 0.0
    requires forall r :: k <= r < n ==> Sum(u[r], sol, r, n) == u[r][n]
    ensures forall r :: 0 <= r < n ==> Sum(u[r], BackFrom(u, k, sol, n), r, n) == u[r][n]
    decreases k
  {
    if k > 0 {
      var i := k - 1;
      var s := Sum(u[i], sol, i + 1, n);
      var v := (u[i][n] - s) / u[i][i];
      var sol' := sol[i := v];
      forall r | i < r < n
        ensures Sum(u[r], sol', r, n) == u[r][n]
      {
        SumFrame(u[r], sol', u[r], sol, r, n);
      }
      SumSplit(u[i], sol', i, i + 1, n);
      SumFrame(u[i], sol', u[i], sol, i + 1, n);
      assert Sum(u[i], sol', i, i + 1) == u[i][i] * v;
      assert u[i][i] * v == u[i][n] - s;
      BackSolves(u, i, sol', n);
    }
  }

  /** In an upper-triangular system the entries left of the diagonal add nothing. */
  lemma UpperRowSums(u: seq<seq<real>>, x: seq<real>, n: nat)
    requires Shaped(u, n) && ZerosBelow(u, n, n) && |x| == n
    requires forall r :: 0 <= r < n ==> Sum(u[r], x, r, n) == u[r][n]
    ensures SolvesAugmented(u, x, n)
  {
    forall r | 0 <= r < n
      ensures Sum(u[r], x, 0, n) == u[r][n]
    {
      SumSplit(u[r], x, 0, r, n);
      SumOfZeros(u[r], x, 0, r);
    }
  }

  lemma AugmentedSolves(a: Matrices.Matrix, c: seq<real>, x: seq<real>)
    requires Matrices.HasShape(a, |a|, |a|) && |c| == |a| && |x| == |a|
    requires SolvesAugmented(Augment(a, c), x, |a|)
    ensures Solves(a, c, x)
  {
    var m := Augment(a, c);
    forall r | 0 <= r < |a|
      ensures Sum(a[r], x, 0, |a|) == c[r]
    {
      SumFrame(a[r], x, m[r], x, 0, |a|);
    }
  }

  /** The system x + y = 3, x - y = 1 eliminates to an upper triangle. */
  lemma ForwardExample()
    ensures Forward(Augment([[1.0, 1.0], [1.0, -1.0]], [3.0, 1.0]), 0, 2)
         == Success([[1.0, 1.0, 3.0], [0.0, -2.0, -2.0]])
  {
    var a := [[1.0, 1.0], [1.0, -1.0]];
    var m := Augment(a, [3.0, 1.0]);
    assert m[0] == a[0] + [3.0] == [1.0, 1.0, 3.0];
    assert m[1] == a[1] + [1.0] == [1.0, -1.0, 1.0];
    var s := Step(m, 0, 2);
    var row := EliminateRow(m[1], m[0], 0, 1.0);
    assert s[1] == row;
    assert row[0] == 0.0 && row[1] == -2.0 && row[2] == -2.0;
    assert row == [0.0, -2.0, -2.0];
    assert s == [[1.0, 1.0, 3.0], [0.0, -2.0, -2.0]];
    StepZeros(m, 0, 2);
    StepZeros(s, 1, 2);
    assert Step(s, 1, 2) == s;
  }

  /** ... and back substitution then gives x = 2, y = 1. */
  lemma SolveExample()
    ensures Solve([[1.0, 1.0], [1.0, -1.0]], [3.0, 1.0]) == Success([2.0, 1.0])
  {
    ForwardExample();
    var s := [[1.0, 1.0, 3.0], [0.0, -2.0, -2.0]];
    assert Sum(s[1], [0.0, 0.0], 2, 2) == 0.0;
    assert BackFrom(s, 2, [0.0, 0.0], 2) == BackFrom(s, 1, [0.0, 1.0], 2);
    assert Sum(s[0], [0.0, 1.0], 1, 2) == 1.0;
    assert BackFrom(s, 1, [0.0, 1.0], 2) == [2.0, 1.0];
    var zeros: seq<real> := seq(2, _ => 0.0);
    assert zeros == [0.0, 0.0];
  }

  /** A zero in the top-left corner stops elimination at once. */
  lemma ZeroPivotExample()
    ensures Solve([[0.0, 1.0], [1.0, 0.0]], [1.0, 1.0]) == Failure(ZeroPivot(0))
  {
    var b := [[0.0, 1.0], [1.0, 0.0]];
    assert Augment(b, [1.0, 1.0])[0][0] == 0.0;
  }
}

=== FILE: unit_screen.dfy ===
/** The unit converter screen: the selected category, the two units and the
    two text fields, kept in step by `convertUnit`. `parseFloat` and
    `Number#toFixed(6)` are parameters. */
module UnitScreen {
  import opened Outcomes
  import opened JsNumber
  import Units

  datatype Converter = Converter(category: string, fromUnit: string, toUnit: string,
                                 fromValue: string, toValue: string)

  function InitialConverter(): (c: Converter)
    ensures c.fromUnit in Units.UnitsFor(c.category) && c.toUnit in Units.UnitsFor(c.category)
  {
    assert Units.UnitsFor("length")[0] == "m" && Units.UnitsFor("length")[6] == "ft";
    Converter("length", "m", "ft", "1", "3.28084")
  }

  // ---------------------------------------------------------------------
  // The trailing-zero regex /\.?0+$/

  /** A string the regex's body matches in full: `0+` or `.` followed by `0+`. */
  predicate ZeroTail(t: string) {
    |t| > 0 && (forall k :: 0 <= k < |t| ==> t[k] == '0' || (k == 0 && t[k] == '.'))
    && !(|t| == 1 && t[0] == '.')
  }

  function TrailingZeros(s: string): (z: nat)
    ensures z <= |s|
    ensures forall k :: |s| - z <= k < |s| ==> s[k] == '0'
    ensures z < |s| ==> s[|s| - z - 1] != '0'
  {
    if |s| == 0 || s[|s| - 1] != '0' then 0 else 1 + TrailingZeros(s[..|s| - 1])
  }

  /** `s.replace(/\.?0+$/, '')`: the leftmost match runs to the end, so it is
      the run of trailing zeros together with a dot just before it. */
  function StripZeros(s: string): (r: string)
    ensures |r| <= |s| && r == s[..|r|]
    ensures forall q :: |r| <= q < |s| ==> s[q] == '0' || (q == |r| && s[q] == '.')
  {
    var z := TrailingZeros(s);
    if z == 0 then s
    else if z < |s| && s[|s| - z - 1] == '.' then s[..|s| - z - 1]
    else s[..|s| - z]
  }

  /** StripZeros removes exactly the leftmost suffix the regex matches, and
      leaves a string with no such suffix unchanged. */
  lemma StripIsLeftmostMatch(s: string)
    ensures (forall j :: 0 <= j <= |s| ==> !ZeroTail(s[j..])) ==> StripZeros(s) == s
    ensures (exists j :: 0 <= j <= |s| && ZeroTail(s[j..])) ==>
              ZeroTail(s[|StripZeros(s)|..])
              && forall j :: 0 <= j < |StripZeros(s)| ==> !ZeroTail(s[j..])
  {
    var z := TrailingZeros(s);
    var r := StripZeros(s);
    if z == 0 {
      forall j | 0 <= j < |s| ensures !ZeroTail(s[j..]) {
        assert s[j..][|s| - j - 1] == s[|s| - 1];
      }
    } else {
      var t := s[|r|..];
      assert forall k :: 0 <= k < |t| ==> t[k] == s[|r| + k];
      assert t[|t| - 1] == '0';
      forall j | 0 <= j < |r| ensures !ZeroTail(s[j..]) {
        var k := |s| - z - 1;
        assert s[j..][k - j] == s[k];
      }
    }
  }

  /** The reading of the regex the screen evidently intends: strip the
      zeros of a fraction written in fixed notation, and leave text without
      a decimal point, or in exponent form, alone. */
  function FractionText(s: string): (r: string)
    ensures |r| <= |s| && r == s[..|r|]
    ensures '.' !in s || 'e' in s ==> r == s
    ensures forall k :: 0 <= k < |s| && s[k] == '.' && '.' !in s[..k] ==> k <= |r|
  {
    if '.' in s && 'e' !in s then StripZeros(s) else s
  }

  /** The two readings differ exactly on text that is not a fixed-notation
      fraction and ends in a zero. `toFixed(6)` writes every number below
      1e21 as a fixed-notation fraction, and "Infinity" and "NaN" end in no
      zero, so only exponent form can tell them apart. */
  lemma TrimsDifferOffFixedNotation(s: string)
    ensures FractionText(s) != StripZeros(s) <==> ('.' !in s || 'e' in s) && |s| > 0 && s[|s| - 1] == '0'
  {
    if ('.' !in s || 'e' in s) && |s| > 0 && s[|s| - 1] == '0' {
      assert TrailingZeros(s) > 0;
      assert |StripZeros(s)| < |s|;
    }
  }

  /** The exponent form `toFixed` gives from 1e21 up loses a zero of its
      exponent under the regex as written, with or without a fraction in
      the mantissa, while the corrected reading keeps it. */
  lemma ExponentLosesZero()
    ensures StripZeros("1e+30") == "1e+3"
    ensures FractionText("1e+30") == "1e+30"
    ensures StripZeros("1.5e+30") == "1.5e+3"
    ensures FractionText("1.5e+30") == "1.5e+30"
  {
    var t := "1e+30";
    TrailingRun(t, 3);
    assert t[..4] == "1e+3";
    assert '.' !in t;
    var u := "1.5e+30";
    TrailingRun(u, 5);
    assert u[..6] == "1.5e+3";
    assert u[3] == 'e';
  }

  /** The count of trailing zeros is the distance to the last non-zero. */
  lemma {:induction false} TrailingRun(t: string, m: nat)
    requires m < |t| && t[m] != '0'
    requires forall q :: m < q < |t| ==> t[q] == '0'
    ensures TrailingZeros(t) == |t| - m - 1
    decreases |t|
  {
    if m < |t| - 1 {
      var p := t[..|t| - 1];
      assert p[m] == t[m];
      TrailingRun(p, m);
    }
  }

  /** The shapes `toFixed(6)` gives below 1e21: a fraction with some zeros
      at its end, and one that is all zeros. */
  lemma FixedShapeFraction()
    ensures FractionText("0.500000") == "0.5"
  {
    var t := "0.500000";
    TrailingRun(t, 2);
    assert t[..3] == "0.5";
    assert t[1] == '.' && 'e' !in t;
  }

  lemma FixedShapeWhole()
    ensures FractionText("100.000000") == "100"
  {
    var t := "100.000000";
    TrailingRun(t, 3);
    assert t[..3] == "100";
    assert t[3] == '.' && 'e' !in t;
  }

  /** One metre in feet, as `toFixed(6)` writes it, loses its last zero. */
  lemma MetreInFeetText()
    ensures FractionText("3.280840") == "3.28084"
  {
    var t := "3.280840";
    TrailingRun(t, 6);
    assert t[..7] == "3.28084";
    assert t[1] == '.' && 'e' !in t;
  }

  // ---------------------------------------------------------------------
  // The screen's handlers

  /** `convertUnit` on a parsed number: an infinity keeps its sign through
      every positive factor and every temperature formula, and the missing
      temperature function throws whatever the value. */
  function ConvertNum(value: Num, fromUnit: string, toUnit: string, category: string): (r: Result<Num, Units.UnitError>)
    ensures r.Failure? <==> category == "temperature" && fromUnit !in Units.TemperatureUnits
    ensures value.Fin? && r.Success? ==> r.value == Fin(Units.ConvertUnit(value.r, fromUnit, toUnit, category).value)
    ensures !value.Fin? && r.Success? ==> r.value == value
  {
    match Units.ConvertUnit(if value.Fin? then value.r else 0.0, fromUnit, toUnit, category)
    case Failure(e) => Failure(e)
    case Success(v) => Success(if value.Fin? then Fin(v) else value)
  }

  /** `value && !isNaN(parseFloat(value))` */
  predicate Usable(value: string, parse: string -> Num) {
    value != "" && parse(value) != NaN
  }

  /** `result.toFixed(6)` with the zeros of its fraction stripped. */
  function ResultText(toFixed: Num -> string, n: Num): (t: string)
    ensures '.' in toFixed(n) && 'e' !in toFixed(n) ==> t == StripZeros(toFixed(n))
    ensures '.' !in toFixed(n) || 'e' in toFixed(n) ==> t == toFixed(n)
  {
    FractionText(toFixed(n))
  }

  /** What the second field should show for the first: the converted number,
      or "0" when the first field holds no number. */
  function Expected(c: Converter, parse: string -> Num, toFixed: Num -> string): Result<string, Units.UnitError> {
    if Usable(c.fromValue, parse) then
      var r :- ConvertNum(parse(c.fromValue), c.fromUnit, c.toUnit, c.category);
      Success(ResultText(toFixed, r))
    else Success("0")
  }

  /** The two fields agree. */
  predicate Synced(c: Converter, parse: string -> Num, toFixed: Num -> string) {
    Expected(c, parse, toFixed) == Success(c.toValue)
  }

  /** `handleFromValueChange(value)` */
  function FromValueChange(c: Converter, value: string, parse: string -> Num, toFixed: Num -> string): (r: Result<Converter, Units.UnitError>)
    ensures r.Failure? <==> Usable(value, parse) && c.category == "temperature" && c.fromUnit !in Units.TemperatureUnits
    ensures r.Success? ==> r.value.fromValue == value && Synced(r.value, parse, toFixed)
    ensures r.Success? ==> r.value.(toValue := c.toValue, fromValue := c.fromValue) == c
    ensures r.Success? && !Usable(value, parse) ==> r.value.toValue == "0"
  {
    var next := c.(fromValue := value);
    if Usable(value, parse) then
      var n :- ConvertNum(parse(value), c.fromUnit, c.toUnit, c.category);
      Success(next.(toValue := ResultText(toFixed, n)))
    else Success(next.(toValue := "0"))
  }

  /** `handleFromUnitChange(unit)`: the field is recomputed only when the
      first field holds a number. */
  function FromUnitChange(c: Converter, unit: string, parse: string -> Num, toFixed: Num -> string): (r: Result<Converter, Units.UnitError>)
    ensures r.Failure? <==> Usable(c.fromValue, parse) && c.category == "temperature" && unit !in Units.TemperatureUnits
    ensures r.Success? ==> r.value.fromUnit == unit && r.value.(fromUnit := c.fromUnit, toValue := c.toValue) == c
    ensures r.Success? && !Usable(c.fromValue, parse) ==> r.value.toValue == c.toValue
    ensures r.Success? && (Usable(c.fromValue, parse) || Synced(c, parse, toFixed)) ==> Synced(r.value, parse, toFixed)
  {
    var next := c.(fromUnit := unit);
    if Usable(c.fromValue, parse) then
      var n :- ConvertNum(parse(c.fromValue), unit, c.toUnit, c.category);
      Success(next.(toValue := ResultText(toFixed, n)))
    else Success(next)
  }

  /** `handleToUnitChange(unit)` */
  function ToUnitChange(c: Converter, unit: string, parse: string -> Num, toFixed: Num -> string): (r: Result<Converter, Units.UnitError>)
    ensures r.Failure? <==> Usable(c.fromValue, parse) && c.category == "temperature" && c.fromUnit !in Units.TemperatureUnits
    ensures r.Success? ==> r.value.toUnit == unit && r.value.(toUnit := c.toUnit, toValue := c.toValue) == c
    ensures r.Success? && !Usable(c.fromValue, parse) ==> r.value.toValue == c.toValue
    ensures r.Success? && (Usable(c.fromValue, parse) || Synced(c, parse, toFixed)) ==> Synced(r.value, parse, toFixed)
  {
    var next := c.(toUnit := unit);
    if Usable(c.fromValue, parse) then
      var n :- ConvertNum(parse(c.fromValue), c.fromUnit, unit, c.category);
      Success(next.(toValue := ResultText(toFixed, n)))
    else Success(next)
  }

  /** Every category of the table has at least two distinct units. */
  lemma CategoryUnits(category: string)
    requires Units.TableOf(category).Some?
    ensures |Units.UnitsFor(category)| >= 2
    ensures Units.UnitsFor(category)[0] != Units.UnitsFor(category)[1]
  {
    match category
    case "length" => LinearUnits(Units.LengthFactors);
    case "weight" => LinearUnits(Units.WeightFactors);
    case "area" => LinearUnits(Units.AreaFactors);
    case "volume" => LinearUnits(Units.VolumeFactors);
    case "temperature" =>
  }

  lemma LinearUnits(fs: Units.Factors)
    requires |fs| >= 2 && fs[0].0 != fs[1].0
    ensures |Units.Keys(fs)| >= 2 && Units.Keys(fs)[0] != Units.Keys(fs)[1]
  {
  }

  /** `handleCategoryChange(category)` for one of the category buttons,
      whose ids are the table's categories: the first unit converts into the
      second, starting from "1". */
  function CategoryChange(category: string, toFixed: Num -> string): (r: Converter)
    requires Units.TableOf(category).Some?
    ensures r.category == category && r.fromValue == "1"
    ensures r.fromUnit in Units.UnitsFor(category) && r.toUnit in Units.UnitsFor(category)
    ensures r.fromUnit != r.toUnit
    ensures forall parse: string -> Num :: parse("1") == Fin(1.0) ==> Synced(r, parse, toFixed)
  {
    CategoryUnits(category);
    var units := Units.UnitsFor(category);
    var converted := Units.ConvertUnit(1.0, units[0], units[1], category);
    assert converted.Success?;
    Converter(category, units[0], units[1], "1", ResultText(toFixed, Fin(converted.value)))
  }

  /** `swapUnits()`: exchanges the units and the two fields' text. */
  function SwapUnits(c: Converter): (r: Converter)
    ensures r.category == c.category
    ensures r.fromUnit == c.toUnit && r.toUnit == c.fromUnit
    ensures r.fromValue == c.toValue && r.toValue == c.fromValue
  {
    c.(fromUnit := c.toUnit, toUnit := c.fromUnit, fromValue := c.toValue, toValue := c.fromValue)
  }

  /** Swapping twice restores the screen. */
  lemma SwapInvolution(c: Converter)
    ensures SwapUnits(SwapUnits(c)) == c
  {
  }

  /** Converting back after a swap gives the number first typed, when the
      first field held an exact number. */
  lemma SwapConvertsBack(c: Converter, v: real)
    requires Units.TableOf(c.category).Some?
    requires c.fromUnit in Units.UnitsFor(c.category) && c.toUnit in Units.UnitsFor(c.category)
    ensures ConvertNum(Fin(v), c.fromUnit, c.toUnit, c.category).Success?
    ensures var w := ConvertNum(Fin(v), c.fromUnit, c.toUnit, c.category).value;
            ConvertNum(w, SwapUnits(c).fromUnit, SwapUnits(c).toUnit, c.category) == Success(Fin(v))
  {
    Units.ConvertRoundTrip(v, c.fromUnit, c.toUnit, c.category);
  }

  /** The text as written, `toFixed(6).replace(/\.?0+$/, '')`. */
  function AsWrittenText(toFixed: Num -> string, n: Num): (t: string)
    ensures |t| <= |toFixed(n)| && t == toFixed(n)[..|t|]
  {
    StripZeros(toFixed(n))
  }

  /** Typing 1e30 or 1.5e30 with the same unit on both sides: `toFixed`
      gives "1e+30" and "1.5e+30" from 1e21 up, the regex as written shows
      "1e+3" and "1.5e+3", and the corrected screen shows the exponent whole. */
  lemma ExponentDisplay(c: Converter, parse: string -> Num, toFixed: Num -> string)
    requires c.category == "length" && c.fromUnit == "m" && c.toUnit == "m"
    requires parse("1e30") == Fin(1e30) && toFixed(Fin(1e30)) == "1e+30"
    requires parse("1.5e30") == Fin(1.5e30) && toFixed(Fin(1.5e30)) == "1.5e+30"
    ensures ConvertNum(parse("1e30"), "m", "m", "length") == Success(Fin(1e30))
    ensures AsWrittenText(toFixed, Fin(1e30)) == "1e+3"
    ensures FromValueChange(c, "1e30", parse, toFixed) == Success(c.(fromValue := "1e30", toValue := "1e+30"))
    ensures AsWrittenText(toFixed, Fin(1.5e30)) == "1.5e+3"
    ensures FromValueChange(c, "1.5e30", parse, toFixed) == Success(c.(fromValue := "1.5e30", toValue := "1.5e+30"))
  {
    Units.MetreToMetre(1e30);
    Units.MetreToMetre(1.5e30);
    ExponentLosesZero();
    assert Usable("1e30", parse);
    assert Usable("1.5e30", parse);
  }

  /** The opening screen's "3.28084" is one metre in feet, when `toFixed(6)`
      renders 1/0.3048 as "3.280840". */
  lemma InitialSynced(parse: string -> Num, toFixed: Num -> string)
    requires parse("1") == Fin(1.0) && toFixed(Fin(1.0 / 0.3048)) == "3.280840"
    ensures Synced(InitialConverter(), parse, toFixed)
  {
    Units.LengthExample();
    MetreInFeetText();
    var c := InitialConverter();
    assert Usable(c.fromValue, parse);
    assert ConvertNum(Fin(1.0), "m", "ft", "length") == Success(Fin(1.0 / 0.3048));
  }
}

=== FILE: units.dfy ===
/** The unit table `unitConversions` and `convertUnit` from
    src/utils/calculate.ts, over exact reals. */
module Units {
  import opened Outcomes

  /** A category of the table: linear units with a factor to the category's
      base unit (metre, kilogram, square metre, cubic metre), listed in the
      table's key order, or the temperature category, whose units carry
      functions to Celsius. */
  datatype Table = Linear(factors: Factors) | Temperature

  /** A list of unit factors, all positive (none of them is falsy). */
  type Factors = fs: seq<(string, real)> | PositiveFactors(fs) witness []

  predicate PositiveFactors(factors: seq<(string, real)>) {
    forall i :: 0 <= i < |factors| ==> factors[i].1 > 0.0
  }

  const LengthFactors: Factors := [
    ("m", 1.0), ("km", 1000.0), ("cm", 0.01), ("mm", 0.001),
    ("mi", 1609.344), ("yd", 0.9144), ("ft", 0.3048), ("in", 0.0254)]

  const WeightFactors: Factors := [
    ("kg", 1.0), ("g", 0.001), ("mg", 0.000001), ("lb", 0.45359237), ("oz", 0.028349523125)]

  const AreaFactors: Factors := [
    ("m\U{B2}", 1.0), ("km\U{B2}", 1000000.0), ("cm\U{B2}", 0.0001), ("mm\U{B2}", 0.000001),
    ("mi\U{B2}", 2589988.110336), ("yd\U{B2}", 0.83612736), ("ft\U{B2}", 0.09290304),
    ("in\U{B2}", 0.00064516)]

  const VolumeFactors: Factors := [
    ("m\U{B3}", 1.0), ("L", 0.001), ("mL", 0.000001), ("gal", 0.003785411784),
    ("qt", 0.000946352946), ("pt", 0.000473176473)]

  const TemperatureUnits: seq<string> := ["C", "F", "K"]

  /** `unitConversions[category]`: undefined (None) for any other name. */
  function TableOf(category: string): Option<Table> {
    match category
    case "length" => Some(Linear(LengthFactors))
    case "weight" => Some(Linear(WeightFactors))
    case "temperature" => Some(Temperature)
    case "area" => Some(Linear(AreaFactors))
    case "volume" => Some(Linear(VolumeFactors))
    case _ => None
  }

  /** The keys of a factor list, in order. */
  function Keys(factors: seq<(string, real)>): (ks: seq<string>)
    ensures |ks| == |factors|
    ensures forall i :: 0 <= i < |factors| ==> ks[i] == factors[i].0
  {
    if |factors| == 0 then [] else [factors[0].0] + Keys(factors[1..])
  }

  /** `table[unit]` for a linear category: the factor, or undefined. */
  function Factor(factors: seq<(string, real)>, unit: string): (r: Option<real>)
    ensures r.Some? <==> unit in Keys(factors)
    ensures r.Some? && PositiveFactors(factors) ==> r.value > 0.0
  {
    if |factors| == 0 then None
    else if factors[0].0 == unit then Some(factors[0].1)
    else Factor(factors[1..], unit)
  }

  /** `getUnitsForCategory(category)`: the table's keys, or [] when the
      category is not in the table. */
  function UnitsFor(category: string): (units: seq<string>)
    ensures TableOf(category).None? ==> units == []
    ensures TableOf(category) == Some(Temperature) ==> units == TemperatureUnits
    ensures forall fs: Factors :: TableOf(category) == Some(Linear(fs)) ==> units == Keys(fs)
  {
    match TableOf(category)
    case None => []
    case Some(Temperature) => TemperatureUnits
    case Some(Linear(fs)) => Keys(fs)
  }

  /** The temperature table's functions to Celsius; undefined for any
      other unit name. */
  function ToCelsius(unit: string, value: real): (r: Option<real>)
    ensures r.Some? <==> unit in TemperatureUnits
  {
    if unit == "C" then Some(value)
    else if unit == "F" then Some((value - 32.0) * 5.0 / 9.0)
    else if unit == "K" then Some(value - 273.15)
    else None
  }

  /** `fromCelsius`: to F, to K, and any other target read as Celsius. */
  function FromCelsius(unit: string, celsius: real): (r: real)
    ensures unit in TemperatureUnits ==> ToCelsius(unit, r) == Some(celsius)
    ensures unit !in TemperatureUnits ==> r == celsius
  {
    if unit == "F" then celsius * 9.0 / 5.0 + 32.0
    else if unit == "K" then celsius + 273.15
    else celsius
  }

  datatype UnitError =
    | NotAFunction   // calling `tempConversions[fromUnit]` when it is undefined throws

  /** The linear branch of `convertUnit`: a missing factor is undefined
      and a zero factor is falsy, and both return the value unchanged. */
  function ConvertLinear(factors: seq<(string, real)>, value: real, fromUnit: string, toUnit: string): (r: real)
    ensures Factor(factors, fromUnit) in {None, Some(0.0)} || Factor(factors, toUnit) in {None, Some(0.0)} ==> r == value
    ensures Factor(factors, fromUnit).Some? && Factor(factors, toUnit).Some?
            && Factor(factors, fromUnit).value != 0.0 && Factor(factors, toUnit).value != 0.0
            ==> r == Rescale(value, Factor(factors, fromUnit).value, Factor(factors, toUnit).value)
  {
    var f := Factor(factors, fromUnit);
    var t := Factor(factors, toUnit);
    if f.None? || t.None? || f.value == 0.0 || t.value == 0.0 then value
    else Rescale(value, f.value, t.value)
  }

  /** `(value * fromFactor) / toFactor` */
  function Rescale(value: real, fromFactor: real, toFactor: real): (r: real)
    requires toFactor != 0.0
    ensures r * toFactor == value * fromFactor
  {
    value * fromFactor / toFactor
  }

  /** The temperature branch of `convertUnit`. */
  function ConvertTemperature(value: real, fromUnit: string, toUnit: string): (r: Result<real, UnitError>)
    ensures r.Failure? <==> fromUnit !in TemperatureUnits
    ensures r.Success? && toUnit in TemperatureUnits ==> ToCelsius(toUnit, r.value) == ToCelsius(fromUnit, value)
  {
    match ToCelsius(fromUnit, value)
    case None => Failure(NotAFunction)
    case Some(c) => Success(FromCelsius(toUnit, c))
  }

  /** `convertUnit(value, fromUnit, toUnit, category)`. */
  function ConvertUnit(value: real, fromUnit: string, toUnit: string, category: string): (r: Result<real, UnitError>)
    ensures TableOf(category).None? ==> r == Success(value)
    ensures r.Failure? <==> category == "temperature" && fromUnit !in TemperatureUnits
  {
    match TableOf(category)
    case None => Success(value)
    case Some(Temperature) => ConvertTemperature(value, fromUnit, toUnit)
    case Some(Linear(fs)) => Success(ConvertLinear(fs, value, fromUnit, toUnit))
  }

  predicate IsLinear(category: string) {
    TableOf(category).Some? && TableOf(category).value.Linear?
  }

  /** With positive factors the linear branch is value * factor(from) /
      factor(to) when both units are listed, and the value otherwise. */
  lemma LinearBranch(factors: seq<(string, real)>, value: real, fromUnit: string, toUnit: string)
    requires PositiveFactors(factors)
    ensures fromUnit in Keys(factors) && toUnit in Keys(factors)
            ==> ConvertLinear(factors, value, fromUnit, toUnit)
                == Rescale(value, Factor(factors, fromUnit).value, Factor(factors, toUnit).value)
    ensures fromUnit !in Keys(factors) || toUnit !in Keys(factors)
            ==> ConvertLinear(factors, value, fromUnit, toUnit) == value
  {
    var f := Factor(factors, fromUnit);
    var t := Factor(factors, toUnit);
    if f.Some? && t.Some? {
      assert f.value > 0.0 && t.value > 0.0;
    }
  }

  lemma RealRoundTrip(v: real, f: real, t: real)
    requires f != 0.0 && t != 0.0
    ensures Rescale(Rescale(v, f, t), t, f) == v
  {
    calc {
      (v * f / t) * t / f;
      ((v * f) / t * t) / f;
      { assert (v * f) / t * t == v * f; }
      (v * f) / f;
      v;
    }
  }

  /** In a linear category the result is value * factor(from) / factor(to)
      when both units are in the table, and the value itself otherwise. */
  lemma LinearConversion(value: real, fromUnit: string, toUnit: string, category: string, factors: Factors)
    requires TableOf(category) == Some(Linear(factors))
    ensures fromUnit in UnitsFor(category) && toUnit in UnitsFor(category)
            ==> ConvertUnit(value, fromUnit, toUnit, category)
                == Success(Rescale(value, Factor(factors, fromUnit).value, Factor(factors, toUnit).value))
    ensures fromUnit !in UnitsFor(category) || toUnit !in UnitsFor(category)
            ==> ConvertUnit(value, fromUnit, toUnit, category) == Success(value)
  {
    LinearBranch(factors, value, fromUnit, toUnit);
  }

  lemma LinearRoundTrip(factors: seq<(string, real)>, value: real, a: string, b: string)
    requires PositiveFactors(factors)
    requires a in Keys(factors) && b in Keys(factors)
    ensures ConvertLinear(factors, ConvertLinear(factors, value, a, b), b, a) == value
  {
    LinearBranch(factors, value, a, b);
    var f := Factor(factors, a).value;
    var t := Factor(factors, b).value;
    LinearBranch(factors, Rescale(value, f, t), b, a);
    RealRoundTrip(value, f, t);
  }

  lemma TemperatureRoundTrip(value: real, a: string, b: string)
    requires a in TemperatureUnits && b in TemperatureUnits
    ensures ConvertTemperature(value, a, b).Success?
    ensures ConvertTemperature(ConvertTemperature(value, a, b).value, b, a) == Success(value)
  {
  }

  /** Converting to a unit and back returns the value, in every category of
      the table, for any two of its units (exact over the reals). */
  lemma ConvertRoundTrip(value: real, a: string, b: string, category: string)
    requires TableOf(category).Some?
    requires a in UnitsFor(category) && b in UnitsFor(category)
    ensures ConvertUnit(value, a, b, category).Success?
    ensures ConvertUnit(ConvertUnit(value, a, b, category).value, b, a, category) == Success(value)
  {
    match TableOf(category).value
    case Temperature =>
      TemperatureRoundTrip(value, a, b);
    case Linear(fs) =>
      LinearRoundTrip(fs, value, a, b);
  }

  lemma RescaleSame(v: real, f: real)
    requires f != 0.0
    ensures Rescale(v, f, f) == v
  {
    assert v * f / f == v * (f / f);
  }

  /** Converting a unit to itself returns the value whenever no error is
      thrown, and only an unknown temperature unit throws. */
  lemma SameUnitIsIdentity(value: real, unit: string, category: string)
    ensures ConvertUnit(value, unit, unit, category).Success? ==> ConvertUnit(value, unit, unit, category) == Success(value)
  {
    match TableOf(category)
    case Some(Linear(fs)) =>
      LinearBranch(fs, value, unit, unit);
      if unit in Keys(fs) {
        var f := Factor(fs, unit).value;
        RescaleSame(value, f);
      }
    case _ =>
  }

  /** 0 C is 32 F, 100 C is 212 F, and 0 C is 273.15 K. */
  lemma TemperatureExamples()
    ensures ConvertUnit(0.0, "C", "F", "temperature") == Success(32.0)
    ensures ConvertUnit(100.0, "C", "F", "temperature") == Success(212.0)
    ensures ConvertUnit(0.0, "C", "K", "temperature") == Success(273.15)
  {
    assert TableOf("temperature") == Some(Temperature);
    assert ToCelsius("C", 0.0) == Some(0.0);
    assert "K" != "F";
    assert FromCelsius("K", 0.0) == 273.15;
  }

  /** The factor of a unit is the one at its first occurrence. */
  lemma {:induction false} FactorAt(factors: seq<(string, real)>, i: nat, unit: string)
    requires i < |factors| && factors[i].0 == unit
    requires forall j :: 0 <= j < i ==> factors[j].0 != unit
    ensures Factor(factors, unit) == Some(factors[i].1)
    decreases i
  {
    if i > 0 {
      FactorAt(factors[1..], i - 1, unit);
    }
  }

  /** One metre is 1/0.3048 feet. */
  lemma LengthExample()
    ensures ConvertUnit(1.0, "m", "ft", "length") == Success(1.0 / 0.3048)
  {
    MetreToFoot();
    assert TableOf("length") == Some(Linear(LengthFactors));
  }

  lemma MetreToFoot()
    ensures ConvertLinear(LengthFactors, 1.0, "m", "ft") == 1.0 / 0.3048
  {
    FactorAt(LengthFactors, 0, "m");
    FootFactor();
    assert Rescale(1.0, 1.0, 0.3048) == 1.0 / 0.3048;
  }

  /** Metres to metres leaves any value alone. */
  lemma MetreToMetre(v: real)
    ensures ConvertUnit(v, "m", "m", "length") == Success(v)
  {
    FactorAt(LengthFactors, 0, "m");
    RescaleSame(v, 1.0);
    assert TableOf("length") == Some(Linear(LengthFactors));
  }

  lemma FootFactor()
    ensures Factor(LengthFactors, "ft") == Some(0.3048)
  {
    FactorAt(LengthFactors, 6, "ft");
  }
}
